=== FILE: README.md ===
# COOL semantic analysis and class layout, in Dafny

This project models two parts of a COOL compiler: the semantic analyser and the class
layout used by the code generator. Both are pure functions over immutable data, and the
properties are proved about them.

**The semantic analyser** (`assignments/PA4/semant.cc`) works in this order:

- It installs the predefined classes `Object`, `IO`, `Int`, `Bool`, `String` and the
  internal `_prim_slot`.
- It enters the program's classes into the class table. Redefinitions of basic classes
  and of `SELF_TYPE` are rejected. For a repeated class, the first definition keeps the
  name.
- It looks for a `Main` class that declares some method of no formals. The code does not
  compare that method's name with `main` (see Findings).
- It then runs three passes over the valid classes, each in declaration order:
  - `setInheritance` links each class to its ancestor chain and rejects bad parents;
  - `registerFeatures` fills the method and attribute environments, parent first, with the
    redefinition rules;
  - `checkClass` applies the typing rule of every expression form.

**The class layout** (`assignments/PA5/cgen.cc`) works like this:

- The class table installs classes and keeps the first of each name.
- It links every node to its parent, and each parent lists its children.
- `set_info` walks the tree in preorder. It hands out consecutive class tags, copies each
  parent's method and attribute tables to its children, and extends them.
- Class tags and attribute offsets are read back by position.
- The dispatch table is indexed by method tag.
- A `case` sorts its branches by descending class tag and tests each branch against a tag
  range.

Modules, one per file, follow the program's structure:

- `Wrappers`, `Names`, `Diagnostics`, `Ast`: option type, class-name constants, error
  kinds, syntax tree.
- `Scopes`: the scoped symbol table the analyser uses, as a chain of maps, innermost
  first.
- `ClassTable`: the class registry and its environments; entering classes; the
  entry-point test.
- `Inheritance`: `setInheritance` and the first pass.
- `Lattice`: `checkAscent` (conformance) and `unionType` (join).
- `Features`: `registerFeatures`.
- `TypeCheck`: the expression rules as one recursive checker.
- `Rules`: one lemma per expression rule, stating the rule in terms of the sub-results.
- `ClassCheck`: the `method` and `attr` rules and the type-checking pass.
- `Semant`: the constructor of the class table as a whole.
- `CgenTable`: `install_class`, `set_relations`, `add_child`, `set_parentnd`.
- `Layout`: `set_info`, `get_classtag`, `get_attrtag`, prototype size, dispatch table.
- `CaseOrder`: the order in which `case` branches are tested, and which branch the test
  selects.

A class record is addressed by its position in declaration order, because the analyser
keeps a repeated class as a separate object that still goes through the passes.

Every error message is modelled as an error kind in a list, in the order the source
reports them.

## Model

| member | source | states |
|---|---|---|
| ClassTable.BasicState | assignments/PA4/semant.cc:295-466 | the predefined classes occupy the first six records and the table binds exactly `Object`, `IO`, `Int`, `Bool`, `String`, `_prim_slot` |
| Semant.BasicResolved | assignments/PA4/semant.cc:295-466 | the predefined classes form a resolved registry: each is valid and visited, with `Object` at the top of every chain |
| Semant.InstallBasics | assignments/PA4/semant.cc:92 | after installation the predefined classes are also registered, and the registry stays resolved and closed under parents |
| ClassTable.Enter | assignments/PA4/semant.cc:94-116 | redefining a basic class or `SELF_TYPE` reports one error and marks the class invalid; a repeated name reports one error, stays valid and leaves the table alone; otherwise the name is bound to the new record and there is no error |
| ClassTable.EnterAll | assignments/PA4/semant.cc:94-117 | the program's classes are appended in declaration order, unvisited, and every earlier binding is kept |
| Semant.EnterAllFirstWins | assignments/PA4/semant.cc:109-116 | a new legal class name ends up bound if and only if some declaration uses it, and then to the record of its first declaration |
| ClassTable.MainIsEntry | assignments/PA4/semant.cc:119-136 | a class with a `main` of no formals passes the entry-point test as written, but a `Main` class whose only method is `run()` also passes it (see Findings) |
| Semant.AnalyzeProgram | assignments/PA4/semant.cc:94-166 | with no `Main` class, or a `Main` class that declares no method of no formals, the registry as entered is returned with that error last and no pass runs; otherwise the registry ends resolved and every valid program class resolved and registered, over an unchanged table |
| Semant.Analyze | assignments/PA4/semant.cc:87-166 | the same outcome for a whole program, starting from the predefined classes: no `Main` class, or a `Main` class without any method of no formals, stops before the passes with that error last; otherwise the passes resolve every valid program class |
| Semant.AnalyzeProgramByName | assignments/PA4/semant.cc:119-166 | the corrected analyser, which looks the entry point up by name: with no `Main` class, or a `Main` class without a `main` of no formals, the registry as entered is returned with that error last; otherwise the passes resolve and register every valid program class |
| Semant.MainNameRequired | assignments/PA4/semant.cc:119-137 | the corrected analyser `AnalyzeProgramByName` rejects a program whose first `Main` class has no method `main` of no formals, with that error last and no pass run, whatever other methods of no formals it has |
| Semant.EntryNameIgnored | assignments/PA4/semant.cc:126-162 | when the first `Main` class has a method of no formals but no `main`, the analyser as written runs the passes and changes the entered registry, while the corrected analyser stops before any pass with the missing-method error |
| Semant.Passes | assignments/PA4/semant.cc:139-162 | the three passes keep the table and the number of records, leave the registry resolved, and resolve and register every valid program class |
| Semant.RegisterRange | assignments/PA4/semant.cc:147-154 | the registration pass registers every valid class of the range and keeps the registry resolved and closed under parents |
| Semant.EnterAllKeeps | assignments/PA4/semant.cc:94-116 | entering classes never disturbs what the predefined classes already satisfy: registry shape, finished chains, registered parents |
| Inheritance.SetInheritance | assignments/PA4/semant.cc:524-570 | an already visited class is left alone; a `SELF_TYPE` parent, a missing parent and a final parent (`Int`, `Bool`, `String`) each give their own error and make the class invalid; otherwise the class is valid exactly when its parent ends valid, and its chain is its own name followed by the parent's chain |
| Inheritance.SetInheritanceFinishes | assignments/PA4/semant.cc:524-570 | on a registry whose classes lie at a finite depth, resolving a class finishes it: visited, and either invalid or linked to a complete chain |
| Inheritance.ResolvePass | assignments/PA4/semant.cc:139-146 | after the pass every valid class from the starting position on has been visited |
| Inheritance.ResolvePassLinks | assignments/PA4/semant.cc:139-146 | on an acyclic program the pass leaves every valid class linked to a chain that ends at `Object`, and visited |
| Inheritance.ChainShape | assignments/PA4/semant.cc:554-558 | a resolved class's chain starts with its own name and ends with `Object` |
| Inheritance.ChainAt | assignments/PA4/semant.cc:554-558 | every suffix of a resolved chain is the chain of the class at its head |
| Inheritance.ChainNoRepeat | assignments/PA4/semant.cc:554-558 | no class appears twice on a resolved chain |
| Lattice.Ascent | assignments/PA4/semant.cc:483-488 | the test fails to answer exactly when the right-hand class is unknown; otherwise it holds when the left class is on the right class's chain |
| Lattice.AscentReflexive | assignments/PA4/semant.cc:483-488 | every known class conforms to itself |
| Lattice.AscentObjectTop | assignments/PA4/semant.cc:483-488 | every known class conforms to `Object` |
| Lattice.AscentTransitive | assignments/PA4/semant.cc:483-488 | conformance is transitive |
| Lattice.AscentAntisymmetric | assignments/PA4/semant.cc:483-488 | two classes that conform to each other are the same class |
| Lattice.Join | assignments/PA4/semant.cc:497-522 | joining with `Object` gives `Object`; an unknown left class gives no answer |
| Lattice.JoinIsLeastCommonAncestor | assignments/PA4/semant.cc:497-522 | for two known classes the join is a common ancestor to which every other common ancestor conforms |
| Lattice.JoinCommutes | assignments/PA4/semant.cc:497-522 | the join does not depend on the order of its arguments |
| Features.FormalErrs | assignments/PA4/semant.cc:191-214 | a method's formals give no error exactly when every formal's type is declared and none is `SELF_TYPE`; at most one error per formal |
| Features.OverrideErrs | assignments/PA4/semant.cc:216-268 | an inherited method may be redefined only with the same number of formals, the same formal types and the same return type; a different arity gives its own error; a method that is not inherited is always accepted |
| Features.RegisterMethod | assignments/PA4/semant.cc:184-268 | a repeated method name is rejected; an accepted method enters the class's own method scope; a rejected one changes nothing |
| Features.RegisterAttr | assignments/PA4/semant.cc:271-288 | an attribute already visible in the class or an ancestor is rejected, one with an unknown type is rejected, and an accepted one enters the class's own attribute scope |
| Features.InheritedAttrRejected | assignments/PA4/semant.cc:271-277 | redeclaring an attribute of any ancestor is rejected |
| Features.RegisterList | assignments/PA4/semant.cc:179-290 | registering a feature list changes only the class's own scopes, and without errors every method and attribute of the list is in them |
| Features.RegisterParent | assignments/PA4/semant.cc:172-177 | the parent is registered before the class, and no class higher up the hierarchy is touched |
| Features.RegisterFeatures | assignments/PA4/semant.cc:169-293 | a registered class is left alone; otherwise the class ends registered after its parent, and the registry stays resolved and closed under parents |
| TypeCheck.DispatchType | assignments/PA4/semant.cc:854-881 | a `SELF_TYPE` return stays `SELF_TYPE` only on a dispatch to the current class, otherwise it becomes the receiver's class; another return type is kept |
| TypeCheck.AscentErrs | assignments/PA4/semant.cc:483-488 | no error exactly when the types conform; an unknown right-hand type is a null dereference; otherwise the error given |
| TypeCheck.PredErrs | assignments/PA4/semant.cc:883-925 | a predicate is accepted exactly when its type, with `SELF_TYPE` read as the current class, is `Bool` |
| TypeCheck.ArithType | assignments/PA4/semant.cc:1048-1223 | `<` and `<=` give `Bool` and the arithmetic operators give `Int` |
| Rules.ArithRule | assignments/PA4/semant.cc:1048-1223 | the result has the operator's type exactly when both operands are `Int`; otherwise one error after the operands' errors, naming the first operand that is not `Int` |
| Rules.ArithLeftStops | assignments/PA4/semant.cc:1048-1070 | when the left operand is not `Int` the right operand is never checked |
| Rules.EqRule | assignments/PA4/semant.cc:1183-1199 | `=` has type `Bool`, and one error is added exactly when a basic type is compared with a different type |
| Rules.MatchParamRule | assignments/PA4/semant.cc:572-613 | a wrong number of actuals gives an arity error and type `Object`; otherwise the method's return type if every actual conforms to its formal, `Object` if not |
| Rules.ArgsAccepted | assignments/PA4/semant.cc:572-613 | the argument check succeeds exactly when every actual's type conforms to its formal's type |
| Rules.DispatchRule | assignments/PA4/semant.cc:854-881 | an undefined method and a wrong arity each give their error and type `Object`; a well-typed call has the method's return type, with `SELF_TYPE` kept only on the current class |
| Rules.StaticDispatchRule | assignments/PA4/semant.cc:818-852 | a named class the receiver does not conform to gives an error and type `Object`; an undefined method gives two errors; a wrong arity gives one; otherwise the call has type `Object` when an actual does not conform, and else the method's return type, where `SELF_TYPE` stays `SELF_TYPE` only on a receiver of the current class and becomes the receiver's class on any other |
| Rules.CondRule | assignments/PA4/semant.cc:883-907 | a conditional's type is the least common ancestor of its branches' types, and a predicate that is not `Bool` adds one error |
| Rules.LoopRule | assignments/PA4/semant.cc:909-925 | a loop has type `Object`, and exactly one error is added when its predicate is not `Bool` |
| Rules.CasesUpperBound | assignments/PA4/semant.cc:927-972 | the type of a `case` is a common ancestor of every branch's type and the least one: every other common ancestor is above it; when the join meets an unresolved `SELF_TYPE` before the last branch, the type is `Object` |
| Rules.CasesDuplicates | assignments/PA4/semant.cc:733-778 | two branches on the same class are reported |
| Rules.SelfTypeBranchUnknown | assignments/PA4/semant.cc:733-778 | a branch declared `SELF_TYPE` is reported as an unknown type |
| Rules.BlockRule | assignments/PA4/semant.cc:974-984 | a block has the type of its last expression and collects every expression's errors in order |
| Rules.LetRejected | assignments/PA4/semant.cc:986-1046 | binding `self` and declaring an unknown type are each rejected before anything else is checked |
| Rules.LetRule | assignments/PA4/semant.cc:986-1046 | when the initialiser conforms, the body is checked with the identifier bound; otherwise one error is added and the body is checked without the binding |
| Rules.UnaryRules | assignments/PA4/semant.cc:1144-1157 | `~` gives `Int` exactly on an `Int` operand and `not` gives `Bool` exactly on a `Bool` operand, each with one error otherwise |
| Rules.ConstRule | assignments/PA4/semant.cc:1240-1256 | integer, boolean and string constants have types `Int`, `Bool` and `String` without error |
| Rules.NewRule | assignments/PA4/semant.cc:1258-1271 | `new T` is accepted exactly when `T` is `SELF_TYPE` or a known class, and then has type `T` |
| Rules.IsVoidRule | assignments/PA4/semant.cc:1273-1278 | `isvoid` has type `Bool` and adds no error of its own |
| Rules.RefRule | assignments/PA4/semant.cc:1286-1307 | `self` has type `SELF_TYPE`; another name is accepted exactly when some scope binds it, and takes the type of the innermost binding |
| Rules.AssignRule | assignments/PA4/semant.cc:781-816 | assigning to `self` or to an unbound name is rejected; a conforming value keeps its type, and a non-conforming one adds one error |
| ClassCheck.BindFormals | assignments/PA4/semant.cc:619-650 | the formals go into the method's scope without errors exactly when none is `self`, none is repeated and every type is declared and not `SELF_TYPE` |
| ClassCheck.ReturnErrs | assignments/PA4/semant.cc:658-675 | a `SELF_TYPE` body satisfies a `SELF_TYPE` return or any class the current class conforms to; another body must conform to a declared return type that is not `SELF_TYPE` |
| ClassCheck.CheckMethod | assignments/PA4/semant.cc:616-678 | a method is accepted exactly when its formals bind, its return type is known, its body checks and the body's type fits the return type; formal errors come first |
| ClassCheck.CheckAttr | assignments/PA4/semant.cc:681-730 | an attribute other than `self`, whose initialiser conforms or is absent, is recorded with the initialiser's type (or the declared one when there is none); a rejected one leaves the registry unchanged |
| ClassCheck.CheckPass | assignments/PA4/semant.cc:156-162 | type checking changes nothing but attribute scopes |
| CgenTable.InstallClass | assignments/PA5/cgen.cc:745-756 | a name already installed is skipped; a new one is bound and put at the front of the class list |
| CgenTable.InstallClasses | assignments/PA5/cgen.cc:758-761 | installing a list keeps every earlier binding |
| CgenTable.InstallFirstWins | assignments/PA5/cgen.cc:745-761 | a new name is installed exactly when some class of the list has it, with the first such class |
| CgenTable.SetRelations | assignments/PA5/cgen.cc:777-791 | linking a node succeeds exactly when its parent is installed and the node has no parent yet |
| CgenTable.BuildRelationsSucceeds | assignments/PA5/cgen.cc:766-791 | linking every node succeeds exactly when every node's parent is installed |
| CgenTable.BuildRelationsParents | assignments/PA5/cgen.cc:766-791 | afterwards every node's parent link is its declared parent, and earlier links are kept |
| CgenTable.BuildRelationsChildren | assignments/PA5/cgen.cc:766-785 | each parent's children are the linked nodes with that parent, most recently linked first |
| CgenTable.ChildrenInInstallOrder | assignments/PA5/cgen.cc:745-785 | over the whole class list, each class's children come out in installation order |
| CgenTable.BuildTree | assignments/PA5/cgen.cc:783-785 | each node of the tree holds its class and has its children, in list order |
| Layout.AddFeature | assignments/PA5/cgen.cc:1075-1092 | a redefined method keeps its inherited tag and takes the new owner; a new method takes the next tag; an attribute is appended; other slots are kept |
| Layout.AddFeatures | assignments/PA5/cgen.cc:1075-1092 | after a class's features the method table holds the inherited and the declared methods, densely tagged, with every inherited tag kept, and the attribute table is the inherited one followed by the class's own attributes |
| Layout.SetInfo | assignments/PA5/cgen.cc:1053-1105 | the subtree gets consecutive tags in preorder; each class's tag range covers exactly its subtree; each class's tables extend its parent's |
| Layout.SetInfoKids | assignments/PA5/cgen.cc:1095-1102 | the children are laid out one after another from the next free tag |
| Layout.WalkTree | assignments/PA5/cgen.cc:766-791 | the inheritance tree exists exactly when every installed class's parent is installed; it is rooted at `Object` and reaches exactly the installed classes whose parent chain reaches `Object` |
| Layout.ClassLayout | assignments/PA5/cgen.cc:597-617 | a program has a layout exactly when every installed class's parent is installed; the layout starts at `Object` with tag 0 and a range over the whole list, each class's range covers exactly its subtree, and tags go to exactly the installed classes whose parent chain reaches `Object` |
| Layout.ClassTag | assignments/PA5/cgen.cc:888-893 | a class's tag is its first position on the tag list, or the list's length when absent |
| Layout.ClassTagOfLaid | assignments/PA5/cgen.cc:888-893 | on a laid-out list with distinct names, reading a class's tag back gives the tag `set_info` assigned |
| Layout.AttrTag | assignments/PA5/cgen.cc:1113-1120 | an attribute's offset is its first position in the attribute table, or -1 when absent |
| Layout.AttrTagInherited | assignments/PA5/cgen.cc:1113-1120 | an inherited attribute has the same offset in the child as in the parent |
| Layout.ProtoSizeInherited | assignments/PA5/cgen.cc:907-910 | a prototype's size is its parent's plus the class's own attributes, and never less than the header words |
| Layout.DispTable | assignments/PA5/cgen.cc:1043-1048 | the dispatch table has one entry per method, at the method's tag, naming the method and the class that defines it |
| CaseOrder.PushedTags | assignments/PA5/cgen.cc:1353-1356 | the branch tags are collected in reverse branch order |
| CaseOrder.Sort | assignments/PA5/cgen.cc:1357 | sorting gives an ascending permutation |
| CaseOrder.CaseTagOrder | assignments/PA5/cgen.cc:1353-1358 | the test order is a descending permutation of the branch tags |
| CaseOrder.CaseTagOrderTags | assignments/PA5/cgen.cc:1353-1358 | every branch's tag is tested, and every tested tag belongs to some branch |
| CaseOrder.CaseMap | assignments/PA5/cgen.cc:1354-1356 | each tag maps to the last branch with that tag |
| CaseOrder.MoreDerivedFirst | assignments/PA5/cgen.cc:1353-1358 | a branch on a subclass is tested before a branch on one of its ancestors |
| CaseOrder.SelectBranch | assignments/PA5/cgen.cc:1359-1392 | the selected branch is the first in test order whose class's tag range covers the object's tag; none is selected when no range covers it |
| CaseOrder.SelectNearest | assignments/PA5/cgen.cc:1359-1392 | with the ranges of the branch classes, the selected branch is the nearest ancestor of the object's class among the branches, and a branch is selected exactly when some branch is an ancestor |
| CaseOrder.SelectAsWritten | assignments/PA5/cgen.cc:1367-1392 | with the range of the scrutinee's static class, the selected branch is the first whose test passes: its test passes and no earlier one does, and none is selected exactly when no test passes |
| CaseOrder.SiblingProgramLayout | assignments/PA5/cgen.cc:597-617 | a program declaring `A` and then `C`, both inheriting `Object`, has a layout whose tag list is `Object`, `IO`, `Int`, `Bool`, `String`, `A`, `C`: `A` has tag 5, `C` tag 6, each class but `Object` alone in its range, and `C` outside the range of `A` |
| CaseOrder.SiblingCounterexample | assignments/PA5/cgen.cc:1367-1392 | in that program, a `case` with branches `a : A` and `o : Object` on a scrutinee of static class `Object` tests tag 5 then tag 0; as written the test of `A` is `5 <= tag <= 6`, so an object of `C` (tag 6) takes branch `A` though `C` is not below `A`; the intended test selects `Object` |
| CaseOrder.LeafCounterexample | assignments/PA5/cgen.cc:1367-1392 | in that program, when the scrutinee's static class is `A`, which has no subclasses, a `case` with only an `Object` branch tests `tag == 0` as written and selects nothing for an object of `A` (tag 5), whereas the intended test selects the `Object` branch |

## Left out

- Message text, line numbers, the error stream and the exit after errors are left out. Each error is an error kind in a list.
- Emitting MIPS code is left out, except for the tag and offset computations above.
- The symbol-table class itself is not part of this model. Scopes are read as shared cells: a class's environment is its own scope in front of its ancestors' scopes, read at lookup time.
- `Semant.Analyze`, `Semant.AnalyzeProgram` and `Semant.Passes` require an acyclic program (`WellFounded`, `Acyclic`). The source does not detect inheritance cycles; on a cycle, `setInheritance` stops at the visited flag and later passes can loop, so the model does not state their outcome there.
- `Semant.InstallBasics` does not state that installing the predefined classes reports no error.
- The three passes run only when a `Main` class exists and declares some method of no formals. This follows the code, which never compares the method's name with `main`; `Semant.AnalyzeProgramByName` is the analyser with the name compared (see Findings). A reading in which checking continues after a missing `Main` does not match the code.
- The source dereferences null in several places: `checkAscent` on an unknown right-hand type, dispatch on an unknown class, static dispatch to a missing method, and `unionType` walking off the table. The model reports these as the error kind `NullDeref` and recovers with `Object`, so the behaviour of the crashed process is not modelled.
- `Lattice.Join` climbs with a fuel bound equal to the number of records. Beyond a chain of that length, which a resolved registry never has, `Join` gives no answer, and the conditional and case rules then report `NullDeref` and type the expression `Object`.
- `CgenTable.BuildTree` takes a fuel bound, and with too little fuel it gives no tree. `Layout.WalkTree` gives it fuel one more than the number of installed classes, which `CgenTable.TreeSome` and `Layout.WalkCovers` prove always suffices. On a program with an inheritance cycle the layout still exists, and the classes on the cycle, and those below them, get no tag (their parent chains never reach `Object`).
- `Rules.CasesUpperBound` requires that every branch's type is known and that `NoType` is not a class name. It does not state what an unknown branch type produces, and when the join meets an unresolved `SELF_TYPE` it states only that the result is `Object`.
- `Layout.ClassTagOfLaid` takes distinct class names as a precondition. The installer guarantees this, but the lemma does not derive it.
- The special class-table nodes of the code generator (`No_class`, `SELF_TYPE`, `_prim_slot`) are bound in the lookup table only, as `addid` does (`CgenTable.Specials`); they are not on the class list and get no tag.
- `DefaultObjFields` is 3: the class tag, the size and the dispatch pointer written before the attributes.
- When a method's formals or redefinition are rejected, the method is not entered into the scope. This follows the code.
- Duplicate attributes are found with `lookup` through the ancestors' scopes, as in the code.

## Findings

| source | as written | input that shows it | evidently intended | confidence | as-written member | corrected member |
|---|---|---|---|---|---|---|
| assignments/PA5/cgen.cc:1367 | the tag range of every branch is computed from the static class of the `case` scrutinee (`lookup(expr->type)`), not from the branch's class | the program `class A {}; class C {};`, both inheriting `Object`, so that `A` gets tag 5 and `C` tag 6 after the five basic classes; `case x of a : A => ...; o : Object => ... esac` with `x : Object` holding a `C`: the test of `A` becomes `5 <= tag <= 6`, so the `C` object (tag 6) takes the `A` branch; and with `x : A` holding an `A`, an `Object` branch alone is the equality test `tag == 0`, which the `A` object (tag 5) fails | each branch tests the tag range of its own class, so an object takes the branch of its nearest ancestor among the branches | not executed | CaseOrder.SiblingCounterexample | CaseOrder.SelectNearest |
| assignments/PA4/semant.cc:126-135 | the entry-point test accepts a `Main` class with any method of no formals; the method's name is read but never compared with `main` | `class Main { run() : Object { 0 }; };` passes the test and analysis goes on | the test requires a method named `main` with no formals | not executed | Semant.EntryNameIgnored | Semant.MainNameRequired |

=== FILE: ast.dfy ===
/**
 * The abstract syntax the analyser and the code generator consume. Every list of the
 * tree is a cons list so that the recursive checks are structurally decreasing.
 *
 * Two conventions come from the grammar: a class written without `inherits` gets the
 * parent `Object`, and a call written without a receiver is a dispatch on `self`.
 */
module Ast {
  import opened Names

  datatype Formal = Formal(name: Name, typeDecl: Name)

  /** The binary operators that demand two `Int` operands. */
  datatype ArithOp = Plus | Sub | Mul | Div | Lt | Leq

  datatype Expr =
    | Assign(name: Name, rhs: Expr)
    | StaticDispatch(recv: Expr, typeName: Name, methodName: Name, actuals: Exprs)
    | Dispatch(recv: Expr, methodName: Name, actuals: Exprs)
    | Cond(pred: Expr, thenE: Expr, elseE: Expr)
    | Loop(pred: Expr, body: Expr)
    | TypCase(scrutinee: Expr, cases: Cases)
    | Block(head: Expr, more: Exprs)   // the grammar requires at least one expression
    | Let(id: Name, typeDecl: Name, init: Init, body: Expr)
    | Arith(op: ArithOp, left: Expr, right: Expr)
    | Neg(operand: Expr)
    | Eq(left: Expr, right: Expr)
    | Not(operand: Expr)
    | IntConst(ival: int)
    | BoolConst(bval: bool)
    | StrConst(sval: string)
    | New(typeName: Name)
    | IsVoid(operand: Expr)
    | Ref(name: Name)

  /** An optional initialiser; `NoExpr` is the empty expression, typed `_no_type`. */
  datatype Init = NoExpr | Given(expr: Expr)

  datatype Exprs = ENil | ECons(head: Expr, tail: Exprs)

  datatype Branch = Branch(name: Name, typeDecl: Name, body: Expr)

  datatype Cases = CNil | CCons(head: Branch, tail: Cases)

  datatype Feature =
    | Method(name: Name, formals: seq<Formal>, returnType: Name, body: Init)
    | Attr(name: Name, typeDecl: Name, init: Init)

  datatype ClassDecl = ClassDecl(name: Name, parent: Name, features: seq<Feature>)

  /** Number of expressions in a list. */
  function Length(es: Exprs): nat {
    match es
    case ENil => 0
    case ECons(_, t) => 1 + Length(t)
  }

  /** The `k`-th expression of a list, from 0. */
  function Nth(es: Exprs, k: nat): Expr
    requires k < Length(es)
  {
    if k == 0 then es.head else Nth(es.tail, k - 1)
  }

  /** A class declared without an `inherits` clause. */
  function ClassWithoutParent(name: Name, features: seq<Feature>): (c: ClassDecl)
    ensures c.parent == Object && c.name == name && c.features == features
  {
    ClassDecl(name, Object, features)
  }

  /** A call written without a receiver: a dispatch on `self`. */
  function SelfCall(methodName: Name, actuals: Exprs): (e: Expr)
    ensures e.Dispatch? && e.recv == Ref(SelfName) && e.methodName == methodName && e.actuals == actuals
  {
    Dispatch(Ref(SelfName), methodName, actuals)
  }

  // The predefined classes, with the features the analyser and the code generator give them.
  // Their methods have no bodies: the runtime implements them.

  function ObjectDecl(): ClassDecl {
    ClassDecl(Object, NoClass, [
      Method("abort", [], Object, NoExpr),
      Method("type_name", [], Str, NoExpr),
      Method("copy", [], SelfType, NoExpr)])
  }

  function IODecl(): ClassDecl {
    ClassDecl(IO, Object, [
      Method("out_string", [Formal("arg", Str)], SelfType, NoExpr),
      Method("out_int", [Formal("arg", Int)], SelfType, NoExpr),
      Method("in_string", [], Str, NoExpr),
      Method("in_int", [], Int, NoExpr)])
  }

  function IntDecl(): ClassDecl {
    ClassDecl(Int, Object, [Attr("_val", PrimSlot, NoExpr)])
  }

  function BoolDecl(): ClassDecl {
    ClassDecl(Bool, Object, [Attr("_val", PrimSlot, NoExpr)])
  }

  function StrDecl(): ClassDecl {
    ClassDecl(Str, Object, [
      Attr("_val", Int, NoExpr),
      Attr("_str_field", PrimSlot, NoExpr),
      Method("length", [], Int, NoExpr),
      Method("concat", [Formal("arg", Str)], Str, NoExpr),
      Method("substr", [Formal("arg", Int), Formal("arg2", Int)], Str, NoExpr)])
  }

  /** The predefined classes in the order both passes install them. */
  function BasicDecls(): seq<ClassDecl> {
    [ObjectDecl(), IODecl(), IntDecl(), BoolDecl(), StrDecl()]
  }

  /** Position of the first class declaration named `n`, or the length when there is none. */
  function FirstIndex(ds: seq<ClassDecl>, n: Name): (k: nat)
    ensures k <= |ds|
    ensures k < |ds| ==> ds[k].name == n
    ensures forall j :: 0 <= j < k ==> ds[j].name != n
  {
    if |ds| == 0 then 0
    else if ds[0].name == n then 0
    else 1 + FirstIndex(ds[1..], n)
  }
}

=== FILE: caseorder.dfy ===
/**
 * The order in which the code for a `case` expression tests its branches (`typcase_class::code`):
 * each branch's class tag is looked up and pushed on a list, the list is sorted and reversed, and
 * the branches are tested from the highest tag down, each by a range test on the dynamic tag.
 */
module CaseOrder {
  import opened Wrappers
  import opened Names
  import opened Ast
  import opened CgenTable
  import opened Layout

  /** `case_classtags` as built: the tag of each branch type, pushed at the front in turn. */
  function PushedTags(tagList: seq<Name>, types: seq<Name>): (r: seq<nat>)
    ensures |r| == |types|
    ensures forall i :: 0 <= i < |types| ==> r[|types| - 1 - i] == ClassTag(tagList, types[i])
  {
    if |types| == 0 then [] else PushedTags(tagList, types[1..]) + [ClassTag(tagList, types[0])]
  }

  ghost predicate Ascending(s: seq<int>) {
    forall i, j :: 0 <= i < j < |s| ==> s[i] <= s[j]
  }

  ghost predicate Descending(s: seq<int>) {
    forall i, j :: 0 <= i < j < |s| ==> s[i] >= s[j]
  }

  function Insert(x: int, s: seq<int>): (r: seq<int>)
    requires Ascending(s)
    ensures Ascending(r) && multiset(r) == multiset(s) + multiset{x}
    ensures |r| == |s| + 1
  {
    if |s| == 0 then [x]
    else if x <= s[0] then [x] + s
    else
      var t := Insert(x, s[1..]);
      assert s == [s[0]] + s[1..];
      forall k | 0 <= k < |t| ensures s[0] <= t[k] {
        assert t[k] in multiset(s[1..]) + multiset{x};
        if t[k] != x {
          assert t[k] in s[1..];
        }
      }
      AscendingCons(s[0], t);
      [s[0]] + t
  }

  lemma AscendingCons(h: int, t: seq<int>)
    requires Ascending(t) && forall k :: 0 <= k < |t| ==> h <= t[k]
    ensures Ascending([h] + t)
  {
    var r := [h] + t;
    forall i, j | 0 <= i < j < |r| ensures r[i] <= r[j] {
      assert r[j] == t[j - 1];
      if i > 0 {
        assert r[i] == t[i - 1];
      }
    }
  }

  /** `std::list::sort`: the values in ascending order. */
  function Sort(s: seq<int>): (r: seq<int>)
    ensures Ascending(r) && multiset(r) == multiset(s)
    ensures |r| == |s|
  {
    if |s| == 0 then []
    else
      assert s == [s[0]] + s[1..];
      Insert(s[0], Sort(s[1..]))
  }

  lemma {:induction false} ReverseMultiset(s: seq<int>)
    ensures multiset(Reverse(s)) == multiset(s)
  {
    if |s| > 0 {
      ReverseMultiset(s[1..]);
      assert s == [s[0]] + s[1..];
    }
  }

  /** The tags in the order their branches are tested: sorted, then reversed. */
  function CaseTagOrder(tagList: seq<Name>, types: seq<Name>): (r: seq<int>)
    ensures |r| == |types|
    ensures Descending(r)
    ensures multiset(r) == multiset(PushedTags(tagList, types))
  {
    var s := Sort(PushedTags(tagList, types));
    ReverseMultiset(s);
    Reverse(s)
  }

  /** Every branch's tag is tested, and only branch tags are. */
  lemma CaseTagOrderTags(tagList: seq<Name>, types: seq<Name>)
    ensures forall i :: 0 <= i < |types| ==> ClassTag(tagList, types[i]) in CaseTagOrder(tagList, types)
    ensures forall p :: 0 <= p < |types| ==>
              exists i :: 0 <= i < |types| && CaseTagOrder(tagList, types)[p] == ClassTag(tagList, types[i])
  {
    var pushed := PushedTags(tagList, types);
    var r := CaseTagOrder(tagList, types);
    forall i | 0 <= i < |types| ensures ClassTag(tagList, types[i]) in r {
      assert pushed[|types| - 1 - i] in multiset(pushed);
    }
    forall p | 0 <= p < |types|
      ensures exists i :: 0 <= i < |types| && r[p] == ClassTag(tagList, types[i])
    {
      assert r[p] in multiset(pushed);
      var q :| 0 <= q < |pushed| && pushed[q] == r[p];
      assert pushed[|types| - 1 - (|types| - 1 - q)] == ClassTag(tagList, types[|types| - 1 - q]);
    }
  }

  /** The tag of each branch's declared type, in source order. */
  function BranchTags(tagList: seq<Name>, types: seq<Name>): (r: seq<nat>)
    ensures |r| == |types| && forall i :: 0 <= i < |types| ==> r[i] == ClassTag(tagList, types[i])
  {
    seq(|types|, i requires 0 <= i < |types| => ClassTag(tagList, types[i]))
  }

  /** `case_map`: for each branch tag, the index of the last branch with that tag. */
  function CaseMap(tags: seq<int>): (m: map<int, nat>)
    ensures m.Keys == set t | t in tags
    ensures forall t :: t in m ==> m[t] < |tags| && tags[m[t]] == t
    ensures forall t, j :: t in m && m[t] < j < |tags| ==> tags[j] != t
  {
    if |tags| == 0 then map[]
    else
      var n := |tags| - 1;
      var m := CaseMap(tags[..n]);
      assert tags == tags[..n] + [tags[n]];
      m[tags[n] := n]
  }

  /**
   * When one branch's class is a proper subclass of another's, every test of the subclass's
   * tag comes before every test of the superclass's.
   */
  lemma MoreDerivedFirst(L: seq<ClassInfo>, parent: int, ms: map<Name, MethodSlot>, attrs: seq<AttrSlot>,
                         types: seq<Name>, ta: nat, tb: nat)
    requires Laid(L, 0, parent, ms, attrs)
    requires ta in BranchTags(TagList(L), types) && tb in BranchTags(TagList(L), types)
    requires ta < |L| && tb < |L| && ta != tb && Desc(L, 0, ta, tb)
    ensures var order := CaseTagOrder(TagList(L), types);
            forall p, q :: 0 <= p < |order| && 0 <= q < |order| && order[p] == ta && order[q] == tb ==> p < q
  {
    DescBelow(L, 0, ta, tb);
    HigherFirst(CaseTagOrder(TagList(L), types), ta, tb);
  }

  lemma HigherFirst(order: seq<int>, x: int, y: int)
    requires Descending(order) && x > y
    ensures forall p, q :: 0 <= p < |order| && 0 <= q < |order| && order[p] == x && order[q] == y ==> p < q
  {
  }

  // ---------------------------------------------------------------------------------
  // Selecting the branch

  /** The range test of a branch whose class has tag `t`, on an object whose class has tag `d`. */
  ghost predicate Covers(L: seq<ClassInfo>, t: int, d: int) {
    0 <= t < |L| && L[t].tag <= d < L[t].end
  }

  /** The position, in test order, of the first branch whose range covers `d`. */
  function SelectBranch(L: seq<ClassInfo>, order: seq<int>, d: int): (r: Option<nat>)
    ensures r.None? <==> forall p :: 0 <= p < |order| ==> !Covers(L, order[p], d)
    ensures r.Some? ==> r.value < |order| && Covers(L, order[r.value], d)
    ensures r.Some? ==> forall p :: 0 <= p < r.value ==> !Covers(L, order[p], d)
  {
    if |order| == 0 then None
    else if 0 <= order[0] < |L| && L[order[0]].tag <= d < L[order[0]].end then Some(0)
    else match SelectBranch(L, order[1..], d)
      case None => None
      case Some(p) => Some(p + 1)
  }

  /** Two ancestors of a class lie on one chain: the one with the higher tag lies below the other. */
  lemma {:induction false} DescChain(L: seq<ClassInfo>, d: nat, t: nat, u: nat)
    requires d < |L| && t < |L| && Desc(L, 0, d, t) && Desc(L, 0, d, u) && u <= t
    ensures Desc(L, 0, t, u)
    decreases d
  {
    if d != t {
      DescBelow(L, 0, d, t);
      if d != u {
        DescChain(L, L[d].parent, t, u);
      } else {
        DescBelow(L, 0, d, t);
      }
    }
  }

  /**
   * With the range of each branch taken from the subtree of the branch's own class, testing
   * in descending tag order selects a branch exactly when some branch's class is an ancestor
   * of the object's class, and the selected one is the closest such ancestor: every other
   * matching branch's class lies above it.
   */
  lemma SelectNearest(L: seq<ClassInfo>, parent: int, ms: map<Name, MethodSlot>, attrs: seq<AttrSlot>,
                      order: seq<int>, d: nat)
    requires Laid(L, 0, parent, ms, attrs) && Descending(order) && d < |L|
    ensures var r := SelectBranch(L, order, d);
            r.Some? <==> exists p :: 0 <= p < |order| && 0 <= order[p] < |L| && Desc(L, 0, d, order[p])
    ensures var r := SelectBranch(L, order, d);
            r.Some? ==> 0 <= order[r.value] < |L| && Desc(L, 0, d, order[r.value])
    ensures var r := SelectBranch(L, order, d);
            r.Some? ==> forall p :: 0 <= p < |order| && 0 <= order[p] < |L| && Desc(L, 0, d, order[p]) ==>
                          Desc(L, 0, order[r.value], order[p])
  {
    assert forall t :: 0 <= t < |L| ==> (Covers(L, t, d) <==> Desc(L, 0, d, t));
    var r := SelectBranch(L, order, d);
    if r.Some? {
      var s := r.value;
      forall p | 0 <= p < |order| && 0 <= order[p] < |L| && Desc(L, 0, d, order[p])
        ensures Desc(L, 0, order[s], order[p])
      {
        if p != s {
          assert p > s;
          DescChain(L, d, order[s], order[p]);
        }
      }
    }
  }

  // ---------------------------------------------------------------------------------
  // The range test as written

  /**
   * The class the nested loop of the range test reaches: the last child, repeatedly. It is
   * a childless class and the last class of the subtree in preorder, so it has the subtree's
   * highest tag.
   */
  function LastDesc(n: Tree): (r: Tree)
    ensures |r.kids| == 0
    ensures r.decl.name == Preorder(n)[|Preorder(n)| - 1]
  {
    if |n.kids| == 0 then n
    else
      PreorderLast(n);
      LastDesc(n.kids[|n.kids| - 1])
  }

  /**
   * The range test as the code generator writes it: the childless check and the upper end of
   * the range are taken from `sc`, the node of the scrutinee's static type, not from the
   * branch's class: a childless `sc` gives an equality test on the branch tag, otherwise the
   * range runs from the branch tag to the tag of the last class below `sc`.
   */
  predicate StaticTest(tagList: seq<Name>, sc: Tree, t: int, d: int) {
    if |sc.kids| == 0 then d == t else t <= d <= ClassTag(tagList, LastDesc(sc).decl.name)
  }

  function SelectAsWritten(tagList: seq<Name>, sc: Tree, order: seq<int>, d: int): (r: Option<nat>)
    ensures r.None? <==> forall p :: 0 <= p < |order| ==> !StaticTest(tagList, sc, order[p], d)
    ensures r.Some? ==> r.value < |order| && StaticTest(tagList, sc, order[r.value], d)
    ensures r.Some? ==> forall p :: 0 <= p < r.value ==> !StaticTest(tagList, sc, order[p], d)
  {
    if |order| == 0 then None
    else if StaticTest(tagList, sc, order[0], d) then Some(0)
    else match SelectAsWritten(tagList, sc, order[1..], d)
      case None => None
      case Some(p) => Some(p + 1)
  }

  function ClassA(): ClassDecl { ClassDecl("A", Object, []) }
  function ClassC(): ClassDecl { ClassDecl("C", Object, []) }

  /** A program of two classes, A and then C, both inheriting Object and declaring nothing. */
  function SiblingProgram(): seq<ClassDecl> { [ClassA(), ClassC()] }

  /** The tag list of a program declaring A and then C: Object, the basic classes, then A and C. */
  function SiblingTags(): seq<Name> { [Object, IO, Int, Bool, Str, "A", "C"] }

  /**
   * A table in which every listed class but Object is a child of Object, listed in the order
   * of `SiblingTags` once reversed, with `a` filed under A and `c` under C.
   */
  ghost predicate SiblingTable(a: ClassDecl, c: ClassDecl, t: Table) {
    && Wf(t) && Object in t.nds && Object in t.classes
    && t.classes[Object].parent in t.classes && t.classes[Object].parent !in t.nds
    && (forall k :: 0 <= k < |t.nds| && t.nds[k] != Object ==> t.classes[t.nds[k]].parent == Object)
    && Reverse(t.nds) == SiblingTags()
    && "A" in t.classes && "C" in t.classes && t.classes["A"] == a && t.classes["C"] == c
  }

  /**
   * Installing two subclasses of Object named A and C after the basic classes: every listed
   * class but Object is a child of Object, and in installation order the classes are those
   * of `SiblingTags`.
   */
  lemma SiblingInstalled(a: ClassDecl, c: ClassDecl, b: Table, t: Table)
    requires a.name == "A" && c.name == "C" && a.parent == Object && c.parent == Object
    requires BasicShape(b) && t == InstallClasses(b, [a, c])
    ensures SiblingTable(a, c, t)
  {
    ShortNameNew(b, a.name);
    ShortNameNew(b, c.name);
    InstallPair(b, [a, c]);
    SiblingNames(t.nds, c.name, a.name, b.nds);
    PairParents(a, c, b, t);
    assert Object in t.nds && t.classes[Object] == b.classes[Object];
    NoClassUnlisted(b.nds);
    assert |NoClass| > 1;
  }

  /** No basic class is named like the parent slot of Object. */
  lemma NoClassUnlisted(ns: seq<Name>)
    requires ns == [Str, Bool, Int, IO, Object]
    ensures NoClass !in ns
  {
    forall k | 0 <= k < |ns| ensures ns[k] != NoClass {
      assert ns[k][0] != NoClass[0];
    }
  }

  /** With two new children of Object in front of the basic classes, every listed class but Object has parent Object. */
  lemma PairParents(a: ClassDecl, c: ClassDecl, b: Table, t: Table)
    requires BasicShape(b) && Wf(t) && a.parent == Object && c.parent == Object
    requires t.nds == [c.name, a.name] + b.nds
    requires forall n :: n in b.classes ==> n in t.classes && t.classes[n] == b.classes[n]
    requires a.name in t.classes && c.name in t.classes && t.classes[a.name] == a && t.classes[c.name] == c
    ensures forall k :: 0 <= k < |t.nds| && t.nds[k] != Object ==> t.classes[t.nds[k]].parent == Object
  {
    forall k | 0 <= k < |t.nds| && t.nds[k] != Object ensures t.classes[t.nds[k]].parent == Object {
      if k >= 2 {
        var n := b.nds[k - 2];
        assert t.nds[k] == n && n in b.classes;
      }
    }
  }

  /** A one-letter name is none of the basic or special names, so it is new to the basic table. */
  lemma ShortNameNew(b: Table, n: Name)
    requires BasicShape(b) && |n| == 1
    ensures n !in b.classes
  {
    assert n != NoClass && n != SelfType && n != PrimSlot;
    assert n !in b.nds by {
      forall k | 0 <= k < |b.nds| ensures b.nds[k] != n {
        assert |b.nds[k]| > 1;
      }
    }
  }

  /** The classes listed newest first, reversed: in installation order. */
  lemma SiblingNames(nds: seq<Name>, x: Name, y: Name, bn: seq<Name>)
    requires x == "C" && y == "A" && bn == [Str, Bool, Int, IO, Object]
    requires nds == [x, y] + bn
    ensures Reverse(nds) == SiblingTags()
  {
    ReverseSeven(nds);
  }

  /** The walk of that table: Object over the other six classes, each childless. */
  lemma SiblingWalk(a: ClassDecl, c: ClassDecl, t: Table)
    requires SiblingTable(a, c, t)
    ensures WalkTree(t) == Some(Node(t.classes[Object], Leaves(t, Reverse(t.nds)[1..])))
  {
    assert t.nds[6] == Object by {
      assert Reverse(t.nds)[0] == Object;
    }
    var ks := Reverse(t.nds)[1..];
    assert WithParent(t, Reverse(t.nds), Object) == ks by {
      StarKids(t);
    }
    StarWalk(t);
  }

  /** The shape of that walk: A and C are the last two children of Object, both childless. */
  lemma SiblingShape(a: ClassDecl, c: ClassDecl, t: Table)
    requires SiblingTable(a, c, t)
    ensures var tree := Node(t.classes[Object], Leaves(t, Reverse(t.nds)[1..]));
            && |tree.kids| == 6 && tree.kids[4] == Node(a, []) && tree.kids[5] == Node(c, [])
            && LastDesc(tree) == Node(c, [])
  {
    var R := Reverse(t.nds);
    assert |R| == |t.nds| == 7;
    assert R[5] == "A" && R[6] == "C";
    var tree := Node(t.classes[Object], Leaves(t, R[1..]));
    assert tree.kids[4] == Node(t.classes[R[5]], []);
    assert tree.kids[5] == Node(t.classes[R[6]], []);
    assert LastDesc(tree) == LastDesc(tree.kids[5]);
  }

  /** The layout of that walk: the classes tagged 0 to 6 in installation order, each but Object alone in its range. */
  lemma SiblingLayout(a: ClassDecl, c: ClassDecl, t: Table)
    requires SiblingTable(a, c, t)
    ensures var L := SetInfo(Node(t.classes[Object], Leaves(t, Reverse(t.nds)[1..])), 0, -1, map[], []);
            && |L| == 7 && TagList(L) == SiblingTags()
            && L[0].end == 7 && forall k :: 1 <= k < 7 ==> L[k].end == k + 1
  {
    var R := Reverse(t.nds);
    assert |R| == |t.nds| == 7;
    assert R[0] == Object;
    StarTags(t, R[1..]);
    assert [Object] + R[1..] == R;
  }

  /** In that program the branches `a : A` and `o : Object` are tested A first, and C has tag 6. */
  lemma SiblingOrder(tl: seq<Name>)
    requires tl == SiblingTags()
    ensures CaseTagOrder(tl, ["A", Object]) == [5, 0]
    ensures CaseTagOrder(tl, [Object]) == [0]
    ensures ClassTag(tl, "C") == 6
  {
    assert forall j :: 0 <= j < 5 ==> |tl[j]| > 1;
    ClassTagAt(tl, "A", 5);
    ClassTagAt(tl, "C", 6);
    ClassTagAt(tl, Object, 0);
    TwoBranchOrder(tl, "A", Object);
    OneBranchOrder(tl, Object);
  }

  /** Two branches whose tags differ are tested the higher tag first. */
  lemma TwoBranchOrder(tl: seq<Name>, x: Name, y: Name)
    requires ClassTag(tl, y) < ClassTag(tl, x)
    ensures CaseTagOrder(tl, [x, y]) == [ClassTag(tl, x), ClassTag(tl, y)]
  {
    var tx, ty := ClassTag(tl, x), ClassTag(tl, y);
    var types := [x, y];
    var pushed := PushedTags(tl, types);
    assert pushed[1] == ClassTag(tl, types[0]) == tx;
    assert pushed[0] == ClassTag(tl, types[1]) == ty;
    assert pushed == [ty, tx];
    assert Sort([tx]) == [tx] by {
      assert [tx][1..] == [];
    }
    assert Sort(pushed) == [ty, tx] by {
      assert pushed[1..] == [tx];
    }
    assert Reverse([ty, tx]) == [tx, ty] by {
      assert [ty, tx][1..] == [tx];
    }
  }

  /** A single branch is the only one tested. */
  lemma OneBranchOrder(tl: seq<Name>, x: Name)
    ensures CaseTagOrder(tl, [x]) == [ClassTag(tl, x)]
  {
    var pushed := PushedTags(tl, [x]);
    assert pushed == [ClassTag(tl, x)];
    var sorted := Sort(pushed);
    assert sorted[0] in multiset(pushed);
  }

  /** The tag of a name is the position of its first occurrence. */
  lemma ClassTagAt(tl: seq<Name>, n: Name, k: nat)
    requires k < |tl| && tl[k] == n && forall j :: 0 <= j < k ==> tl[j] != n
    ensures ClassTag(tl, n) == k
  {
  }

  /** In a contiguous layout, a class outside another's range is not below it. */
  lemma OutsideRange(L: seq<ClassInfo>, j: nat, k: nat)
    requires Contiguous(L, 0) && j < |L| && k < |L| && !(L[k].tag <= L[j].tag < L[k].end)
    ensures !Desc(L, 0, j, k)
  {
  }

  /** The layout of a program declaring A and then C, both subclasses of Object. */
  lemma SiblingProgramLayout(a: ClassDecl, c: ClassDecl)
    requires a.name == "A" && c.name == "C" && a.parent == Object && c.parent == Object
    ensures ClassLayout([a, c]).Some? && WalkTree(Installed([a, c])).Some?
    ensures var tree := WalkTree(Installed([a, c])).value;
            && ClassLayout([a, c]).value == SetInfo(tree, 0, -1, map[], [])
            && LastDesc(tree) == Node(c, [])
            && SiblingLaid(a, tree, ClassLayout([a, c]).value)
  {
    var b := BasicTable();
    assert BasicShape(b);
    var t := Installed([a, c]);
    assert t == InstallClasses(b, [a, c]);
    SiblingInstalled(a, c, b, t);
    SiblingWalk(a, c, t);
    SiblingShape(a, c, t);
    SiblingLayout(a, c, t);
    var tree := WalkTree(t).value;
    var L := SetInfo(tree, 0, -1, map[], []);
    assert ClassLayout([a, c]) == LayoutFrom(t) == Some(L);
    assert Tags(L, 0) && Contiguous(L, 0);
    assert L[5].tag == 5 && L[6].tag == 6;
    OutsideRange(L, 6, 5);
  }

  /** A walk and its layout as `SiblingProgramLayout` describes them. */
  ghost predicate SiblingLaid(a: ClassDecl, tree: Tree, L: seq<ClassInfo>) {
    && |tree.kids| == 6 && tree.kids[4] == Node(a, []) && LastDesc(tree).decl.name == "C"
    && |L| == 7 && TagList(L) == SiblingTags() && Tags(L, 0) && !Desc(L, 0, 6, 5)
    && L[0].end == 7 && forall k :: 1 <= k < 7 ==> L[k].end == k + 1
  }

  /** The two branch selections of `SiblingCounterexample` on such a layout. */
  lemma SiblingSelect(a: ClassDecl, tree: Tree, L: seq<ClassInfo>)
    requires SiblingLaid(a, tree, L)
    ensures var order := CaseTagOrder(TagList(L), ["A", Object]);
            && order == [5, 0]
            && SelectAsWritten(TagList(L), tree, order, 6) == Some(0)
            && !Desc(L, 0, 6, 5)
            && SelectBranch(L, order, 6) == Some(1)
  {
    SiblingStatic(tree, TagList(L));
    SiblingRange(L);
  }

  /** The test as written takes the A branch for the C: `5 <= 6 <= 6`. */
  lemma SiblingStatic(tree: Tree, tagList: seq<Name>)
    requires tagList == SiblingTags() && |tree.kids| > 0 && LastDesc(tree).decl.name == "C"
    ensures CaseTagOrder(tagList, ["A", Object]) == [5, 0]
    ensures SelectAsWritten(tagList, tree, [5, 0], 6) == Some(0)
  {
    SiblingOrder(tagList);
    assert StaticTest(tagList, tree, 5, 6);
  }

  /** The range of A, `5 <= tag < 6`, leaves out the C; that of Object takes it. */
  lemma SiblingRange(L: seq<ClassInfo>)
    requires |L| == 7 && Tags(L, 0) && L[0].end == 7 && L[5].end == 6
    ensures SelectBranch(L, [5, 0], 6) == Some(1)
  {
    assert L[5].tag == 5 && L[0].tag == 0;
    assert SelectBranch(L, [0], 6) == Some(0);
    assert [5, 0][1..] == [0];
  }

  /** The two branch selections of `LeafCounterexample` on such a layout. */
  lemma LeafSelect(a: ClassDecl, tree: Tree, L: seq<ClassInfo>)
    requires SiblingLaid(a, tree, L)
    ensures var order := CaseTagOrder(TagList(L), [Object]);
            && order == [0]
            && SelectAsWritten(TagList(L), tree.kids[4], order, 5).None?
            && SelectBranch(L, order, 5) == Some(0)
  {
    var order := CaseTagOrder(TagList(L), [Object]);
    assert order == [0] by {
      SiblingOrder(TagList(L));
    }
    assert SelectAsWritten(TagList(L), tree.kids[4], [0], 5).None? by {
      assert |tree.kids[4].kids| == 0;
    }
    assert SelectBranch(L, [0], 5) == Some(0) by {
      assert L[0].tag == 0 && L[0].end == 7;
    }
  }

  /**
   * `case x of a : A => ...; o : Object => ... esac` in a program declaring A and then C, both
   * subclasses of Object, with `x` of static type Object and dynamically a C (tag 6): the
   * branches are tested A (tag 5) first, and as written the test of A is `5 <= tag <= 6`, the
   * upper end being the tag of the last class below Object, so the C takes the A branch,
   * although A is not an ancestor of C; selecting by the branch class's own range,
   * `5 <= tag < 6`, picks the Object branch.
   */
  lemma SiblingCounterexample(a: ClassDecl, c: ClassDecl)
    requires a.name == "A" && c.name == "C" && a.parent == Object && c.parent == Object
    ensures ClassLayout([a, c]).Some? && WalkTree(Installed([a, c])).Some?
    ensures var tree := WalkTree(Installed([a, c])).value;
            var L := ClassLayout([a, c]).value;
            var order := CaseTagOrder(TagList(L), ["A", Object]);
            && TagList(L) == SiblingTags()
            && order == [5, 0]
            && SelectAsWritten(TagList(L), tree, order, 6) == Some(0)
            && !Desc(L, 0, 6, 5)
            && SelectBranch(L, order, 6) == Some(1)
  {
    SiblingProgramLayout(a, c);
    SiblingSelect(a, WalkTree(Installed([a, c])).value, ClassLayout([a, c]).value);
  }

  /**
   * `case x of o : Object => ... esac` in a program declaring A and then C, both subclasses of
   * Object, with `x` of static type A, a class without subclasses, and dynamically an A
   * (tag 5): as written the test of Object becomes the equality `tag == 0`, and no branch is
   * selected (the generated code aborts), where the Object branch is the intended one.
   */
  lemma LeafCounterexample(a: ClassDecl, c: ClassDecl)
    requires a.name == "A" && c.name == "C" && a.parent == Object && c.parent == Object
    ensures ClassLayout([a, c]).Some? && WalkTree(Installed([a, c])).Some?
    ensures |WalkTree(Installed([a, c])).value.kids| == 6
    ensures var sc := WalkTree(Installed([a, c])).value.kids[4];
            var L := ClassLayout([a, c]).value;
            var order := CaseTagOrder(TagList(L), [Object]);
            && sc.decl == a && TagList(L) == SiblingTags()
            && order == [0]
            && SelectAsWritten(TagList(L), sc, order, 5).None?
            && SelectBranch(L, order, 5) == Some(0)
  {
    SiblingProgramLayout(a, c);
    LeafSelect(a, WalkTree(Installed([a, c])).value, ClassLayout([a, c]).value);
  }
}

=== FILE: cgentable.dfy ===
/**
 * The code generator's class table (`CgenClassTable`): classes are installed by name, the
 * first definition of a name winning; each installed class is then linked below its parent
 * (`set_relations`), and the inheritance tree the layout pass walks is read off the links.
 */
module CgenTable {
  import opened Wrappers
  import opened Names
  import opened Ast

  /**
   * The symbol table of class nodes and the class list `nds`, which holds the installed
   * classes newest first. Names entered directly into the symbol table (the special
   * `_no_class`, SELF_TYPE and `_prim_slot`) are not on the list.
   */
  datatype Table = Table(classes: map<Name, ClassDecl>, nds: seq<Name>)

  /** Every node is filed under its own name, and the class list names distinct installed nodes. */
  ghost predicate Wf(t: Table) {
    && (forall n :: n in t.classes ==> t.classes[n].name == n)
    && (forall k :: 0 <= k < |t.nds| ==> t.nds[k] in t.classes)
    && (forall j, k :: 0 <= j < k < |t.nds| ==> t.nds[j] != t.nds[k])
  }

  /** `install_class`: a name already in the table is ignored; otherwise the node joins table and list. */
  function InstallClass(t: Table, d: ClassDecl): (r: Table)
    requires Wf(t)
    ensures Wf(r)
    ensures r.classes.Keys == t.classes.Keys + {d.name}
    ensures forall n :: n in t.classes ==> r.classes[n] == t.classes[n]
    ensures d.name in t.classes ==> r.nds == t.nds
    ensures d.name !in t.classes ==> r.classes[d.name] == d && r.nds == [d.name] + t.nds
  {
    if d.name in t.classes then t
    else Table(t.classes[d.name := d], [d.name] + t.nds)
  }

  /** `install_classes`: installs the declarations in order. */
  function InstallClasses(t: Table, ds: seq<ClassDecl>): (r: Table)
    requires Wf(t)
    ensures Wf(r) && t.classes.Keys <= r.classes.Keys
    ensures forall n :: n in t.classes ==> r.classes[n] == t.classes[n]
    ensures forall n :: n in t.classes ==> (n in r.nds <==> n in t.nds)
    ensures forall n :: n in r.classes && n !in t.classes ==> n in r.nds
    decreases |ds|
  {
    if |ds| == 0 then t else InstallClasses(InstallClass(t, ds[0]), ds[1..])
  }

  /**
   * The first definition of a name wins: a name not yet in the table ends up in it exactly
   * when some declaration has it, and then with the first such declaration.
   */
  lemma {:induction false} InstallFirstWins(t: Table, ds: seq<ClassDecl>, n: Name)
    requires Wf(t) && n !in t.classes
    ensures var r := InstallClasses(t, ds);
      && (n in r.classes <==> FirstIndex(ds, n) < |ds|)
      && (n in r.classes ==> r.classes[n] == ds[FirstIndex(ds, n)])
    decreases |ds|
  {
    if |ds| > 0 && ds[0].name != n {
      InstallFirstWins(InstallClass(t, ds[0]), ds[1..], n);
    }
  }

  /**
   * The table after `install_basic_classes`: the three special names entered directly,
   * then Object, IO, Int, Bool and String installed in that order.
   */
  function BasicTable(): (t: Table)
    ensures BasicShape(t) && t.classes[Object] == ObjectDecl()
  {
    var special := Specials();
    SpecialsShape(special);
    BasicInstalled(special, ObjectDecl(), IODecl(), IntDecl(), BoolDecl(), StrDecl());
    InstallClasses(Table(special, []), BasicDecls())
  }

  /**
   * The table of the basic classes: Object, IO, Int, Bool and String listed newest first,
   * Object's parent the special `_no_class`, every other basic class a child of Object, and
   * nothing else in the table but the special names.
   */
  ghost predicate BasicShape(b: Table) {
    && Wf(b) && b.nds == [Str, Bool, Int, IO, Object] && NoClass in b.classes && Object in b.classes
    && (forall n :: n in b.classes ==> n == NoClass || n == SelfType || n == PrimSlot || n in b.nds)
    && b.classes[Object].parent == NoClass
    && (forall k :: 0 <= k < |b.nds| && b.nds[k] != Object ==> b.classes[b.nds[k]].parent == Object)
  }

  /** The special names entered directly into the symbol table, each with parent `_no_class`. */
  function Specials(): map<Name, ClassDecl> {
    map[NoClass := ClassDecl(NoClass, NoClass, []),
        SelfType := ClassDecl(SelfType, NoClass, []),
        PrimSlot := ClassDecl(PrimSlot, NoClass, [])]
  }

  /** The special names map each to a declaration of that name, and there are only the three of them. */
  lemma SpecialsShape(special: map<Name, ClassDecl>)
    requires special == Specials()
    ensures Wf(Table(special, [])) && NoClass in special
    ensures forall n :: n in special ==> n == NoClass || n == SelfType || n == PrimSlot
  {
    assert NoClass[0] != SelfType[0] && |NoClass| != |PrimSlot| && |SelfType| != |PrimSlot|;
  }

  /** Installing the five predefined classes over the special names. */
  lemma BasicInstalled(special: map<Name, ClassDecl>, o: ClassDecl, io: ClassDecl, i: ClassDecl, b: ClassDecl, s: ClassDecl)
    requires Wf(Table(special, [])) && NoClass in special
    requires forall n :: n in special ==> n == NoClass || n == SelfType || n == PrimSlot
    requires o.name == Object && io.name == IO && i.name == Int && b.name == Bool && s.name == Str
    requires o.parent == NoClass && io.parent == Object && i.parent == Object && b.parent == Object && s.parent == Object
    ensures var t := InstallClasses(Table(special, []), [o, io, i, b, s]);
      BasicShape(t) && t.classes[Object] == o
  {
    var t := InstallClasses(Table(special, []), [o, io, i, b, s]);
    BasicListed(special, o, io, i, b, s);
    forall k | 0 <= k < |t.nds| && t.nds[k] != Object ensures t.classes[t.nds[k]].parent == Object {
      assert k < 4;
      if k == 0 {
        assert t.classes[t.nds[k]] == s;
      } else if k == 1 {
        assert t.classes[t.nds[k]] == b;
      } else if k == 2 {
        assert t.classes[t.nds[k]] == i;
      } else {
        assert t.classes[t.nds[k]] == io;
      }
    }
  }

  /** Installing the five basic declarations into the special names: where each one is filed and listed. */
  lemma BasicListed(special: map<Name, ClassDecl>, o: ClassDecl, io: ClassDecl, i: ClassDecl, b: ClassDecl, s: ClassDecl)
    requires Wf(Table(special, [])) && NoClass in special
    requires forall n :: n in special ==> n == NoClass || n == SelfType || n == PrimSlot
    requires o.name == Object && io.name == IO && i.name == Int && b.name == Bool && s.name == Str
    ensures var t := InstallClasses(Table(special, []), [o, io, i, b, s]);
      && Wf(t) && Object in t.classes && t.classes[Object] == o && NoClass in t.classes
      && IO in t.classes && Int in t.classes && Bool in t.classes && Str in t.classes
      && t.nds == [Str, Bool, Int, IO, Object]
      && (forall n :: n in t.classes ==> n == NoClass || n == SelfType || n == PrimSlot || n in t.nds)
      && t.classes[IO] == io && t.classes[Int] == i && t.classes[Bool] == b && t.classes[Str] == s
  {
    var ds := [o, io, i, b, s];
    var t0 := Table(special, []);
    InstallFresh(t0, ds);
    var names := DeclNames(ds);
    BasicOrder(ds);
    var t := InstallClasses(t0, ds);
    assert t.nds == Reverse(names) + [];
    forall n | n in t.classes
      ensures n == NoClass || n == SelfType || n == PrimSlot || n in t.nds
    {
      if n in names {
        var k :| 0 <= k < 5 && names[k] == n;
      }
    }
    assert t.classes[ds[0].name] == o && t.classes[ds[1].name] == io && t.classes[ds[2].name] == i;
    assert t.classes[ds[3].name] == b && t.classes[ds[4].name] == s;
  }

  /** The basic declarations' names, reversed: the order in which they are listed. */
  lemma BasicOrder(ds: seq<ClassDecl>)
    requires |ds| == 5 && ds[0].name == Object && ds[1].name == IO && ds[2].name == Int
    requires ds[3].name == Bool && ds[4].name == Str
    ensures Reverse(DeclNames(ds)) == [Str, Bool, Int, IO, Object]
  {
    var names := DeclNames(ds);
    assert names == [Object, IO, Int, Bool, Str];
    ReverseFive(names);
  }

  /** Installing two declarations of new, distinct names: both listed, the later one first, and filed under their names. */
  lemma InstallPair(t: Table, ds: seq<ClassDecl>)
    requires Wf(t) && |ds| == 2 && ds[0].name !in t.classes && ds[1].name !in t.classes && ds[0].name != ds[1].name
    ensures var r := InstallClasses(t, ds);
      && r.nds == [ds[1].name, ds[0].name] + t.nds
      && ds[0].name in r.classes && ds[1].name in r.classes
      && r.classes[ds[0].name] == ds[0] && r.classes[ds[1].name] == ds[1]
  {
    InstallFresh(t, ds);
    var rn := Reverse(DeclNames(ds));
    assert rn == [ds[1].name, ds[0].name];
  }

  lemma ReverseFive<T>(s: seq<T>)
    requires |s| == 5
    ensures Reverse(s) == [s[4], s[3], s[2], s[1], s[0]]
  {
  }

  lemma ReverseSeven<T>(s: seq<T>)
    requires |s| == 7
    ensures Reverse(s) == [s[6], s[5], s[4], s[3], s[2], s[1], s[0]]
  {
  }

  function DeclNames(ds: seq<ClassDecl>): (r: seq<Name>)
    ensures |r| == |ds| && forall k :: 0 <= k < |ds| ==> r[k] == ds[k].name
  {
    if |ds| == 0 then [] else [ds[0].name] + DeclNames(ds[1..])
  }

  /** Installing declarations of distinct new names lists them newest first and files each under its name. */
  lemma {:induction false} InstallFresh(t: Table, ds: seq<ClassDecl>)
    requires Wf(t)
    requires forall k :: 0 <= k < |ds| ==> ds[k].name !in t.classes
    requires forall j, k :: 0 <= j < k < |ds| ==> ds[j].name != ds[k].name
    ensures var r := InstallClasses(t, ds);
      && r.nds == Reverse(DeclNames(ds)) + t.nds
      && (forall k :: 0 <= k < |ds| ==> ds[k].name in r.classes && r.classes[ds[k].name] == ds[k])
      && (forall n :: n in r.classes ==> n in t.classes || n in DeclNames(ds))
    decreases |ds|
  {
    if |ds| > 0 {
      var t1 := InstallClass(t, ds[0]);
      var rest := ds[1..];
      assert forall k :: 0 <= k < |rest| ==> rest[k] == ds[k + 1];
      InstallFresh(t1, rest);
      var r := InstallClasses(t, ds);
      assert r == InstallClasses(t1, rest);
      var names := DeclNames(ds);
      assert r.nds == Reverse(names) + t.nds by {
        assert names[1..] == DeclNames(rest);
        assert Reverse(names) == Reverse(DeclNames(rest)) + [ds[0].name];
        var A := Reverse(DeclNames(rest));
        assert r.nds == A + ([ds[0].name] + t.nds);
        AppendAssoc(A, [ds[0].name], t.nds);
      }
      assert forall k :: 0 <= k < |ds| ==> ds[k].name in r.classes && r.classes[ds[k].name] == ds[k] by {
        forall k | 0 <= k < |ds| ensures ds[k].name in r.classes && r.classes[ds[k].name] == ds[k] {
          if k > 0 {
            assert ds[k] == rest[k - 1];
          }
        }
      }
      assert forall n :: n in r.classes ==> n in t.classes || n in names by {
        forall n | n in r.classes ensures n in t.classes || n in names {
          if n !in t1.classes {
            assert n in DeclNames(rest);
          }
        }
      }
    } else {
      assert Reverse(DeclNames(ds)) + t.nds == t.nds;
    }
  }

  lemma AppendAssoc<T>(a: seq<T>, b: seq<T>, c: seq<T>)
    ensures a + (b + c) == (a + b) + c
  {
  }

  // ---------------------------------------------------------------------------------
  // Parent and child links

  /** The nodes' `parentnd` pointers and `children` lists, by class name. */
  datatype Links = Links(parent: map<Name, Name>, children: map<Name, seq<Name>>)

  function Kids(l: Links, n: Name): seq<Name> {
    if n in l.children then l.children[n] else []
  }

  /**
   * `set_relations`: the parent is looked up in the table, recorded as the node's parent and
   * the node prepended to the parent's children. `set_parentnd` asserts that the parent
   * exists and that none was set before; a failed assertion stops the generator (None).
   */
  function SetRelations(t: Table, l: Links, n: Name): (r: Option<Links>)
    requires n in t.classes
    ensures r.Some? <==> t.classes[n].parent in t.classes && n !in l.parent
  {
    var p := t.classes[n].parent;
    if p !in t.classes || n in l.parent then None
    else Some(Links(l.parent[n := p], l.children[p := [n] + Kids(l, p)]))
  }

  /** `build_inheritance_tree`: `set_relations` on every class of the list, in list order. */
  function BuildRelations(t: Table, l: Links, ns: seq<Name>): Option<Links>
    requires forall k :: 0 <= k < |ns| ==> ns[k] in t.classes
    decreases |ns|
  {
    if |ns| == 0 then Some(l)
    else match SetRelations(t, l, ns[0])
      case None => None
      case Some(l1) => BuildRelations(t, l1, ns[1..])
  }

  /** The names of `ns` whose declared parent is `p`, in order. */
  function WithParent(t: Table, ns: seq<Name>, p: Name): (r: seq<Name>)
    requires forall k :: 0 <= k < |ns| ==> ns[k] in t.classes
    ensures forall k :: 0 <= k < |r| ==> r[k] in ns && t.classes[r[k]].parent == p
    ensures forall k :: 0 <= k < |ns| && t.classes[ns[k]].parent == p ==> ns[k] in r
    decreases |ns|
  {
    if |ns| == 0 then []
    else (if t.classes[ns[0]].parent == p then [ns[0]] else []) + WithParent(t, ns[1..], p)
  }

  /** Every class of `ns` has parent `p`: the filter keeps them all. */
  lemma {:induction false} WithParentAll(t: Table, ns: seq<Name>, p: Name)
    requires forall k :: 0 <= k < |ns| ==> ns[k] in t.classes && t.classes[ns[k]].parent == p
    ensures WithParent(t, ns, p) == ns
    decreases |ns|
  {
    if |ns| > 0 {
      WithParentAll(t, ns[1..], p);
      assert ns == [ns[0]] + ns[1..];
    }
  }

  /** No class of `ns` has parent `p`: the filter is empty. */
  lemma {:induction false} WithParentNone(t: Table, ns: seq<Name>, p: Name)
    requires forall k :: 0 <= k < |ns| ==> ns[k] in t.classes && t.classes[ns[k]].parent != p
    ensures WithParent(t, ns, p) == []
    decreases |ns|
  {
    if |ns| > 0 {
      WithParentNone(t, ns[1..], p);
    }
  }

  function Reverse<T>(s: seq<T>): (r: seq<T>)
    ensures |r| == |s| && forall k :: 0 <= k < |s| ==> r[k] == s[|s| - 1 - k]
  {
    if |s| == 0 then [] else Reverse(s[1..]) + [s[0]]
  }

  /**
   * Linking the classes of `ns` succeeds exactly when each has its parent in the table,
   * the names being distinct and unlinked before.
   */
  lemma {:induction false} BuildRelationsSucceeds(t: Table, l: Links, ns: seq<Name>)
    requires forall k :: 0 <= k < |ns| ==> ns[k] in t.classes && ns[k] !in l.parent
    requires forall j, k :: 0 <= j < k < |ns| ==> ns[j] != ns[k]
    ensures BuildRelations(t, l, ns).Some? <==> forall k :: 0 <= k < |ns| ==> t.classes[ns[k]].parent in t.classes
    decreases |ns|
  {
    if |ns| > 0 {
      var n, rest := ns[0], ns[1..];
      if t.classes[n].parent in t.classes {
        var l1 := SetRelations(t, l, n).value;
        assert forall k :: 0 <= k < |rest| ==> rest[k] == ns[k + 1] && rest[k] !in l1.parent;
        BuildRelationsSucceeds(t, l1, rest);
      }
    }
  }

  /** After linking, each class of `ns` has its declared parent and earlier links are kept. */
  lemma {:induction false} BuildRelationsParents(t: Table, l: Links, ns: seq<Name>)
    requires forall k :: 0 <= k < |ns| ==> ns[k] in t.classes
    requires BuildRelations(t, l, ns).Some?
    ensures var r := BuildRelations(t, l, ns).value;
      && (forall n :: n in r.parent <==> n in l.parent || n in ns)
      && (forall n :: n in l.parent ==> r.parent[n] == l.parent[n])
      && (forall k :: 0 <= k < |ns| ==> r.parent[ns[k]] == t.classes[ns[k]].parent)
    decreases |ns|
  {
    if |ns| > 0 {
      var n, rest := ns[0], ns[1..];
      var l1 := SetRelations(t, l, n).value;
      assert forall k :: 0 <= k < |rest| ==> rest[k] == ns[k + 1];
      BuildRelationsParents(t, l1, rest);
      var r := BuildRelations(t, l1, rest).value;
      forall m ensures m in r.parent <==> m in l.parent || m in ns {
        assert m in ns <==> m == n || m in rest;
      }
      forall k | 0 <= k < |ns| ensures r.parent[ns[k]] == t.classes[ns[k]].parent {
        if k > 0 {
          assert ns[k] == rest[k - 1];
        }
      }
    }
  }

  /**
   * After linking, each class's children are the classes of `ns` naming it as parent, most
   * recently linked first, ahead of the children it had.
   */
  lemma {:induction false} BuildRelationsChildren(t: Table, l: Links, ns: seq<Name>, p: Name)
    requires forall k :: 0 <= k < |ns| ==> ns[k] in t.classes
    requires BuildRelations(t, l, ns).Some?
    ensures Kids(BuildRelations(t, l, ns).value, p) == Reverse(WithParent(t, ns, p)) + Kids(l, p)
    decreases |ns|
  {
    if |ns| > 0 {
      var n, rest := ns[0], ns[1..];
      var l1 := SetRelations(t, l, n).value;
      assert forall k :: 0 <= k < |rest| ==> rest[k] == ns[k + 1];
      assert BuildRelations(t, l, ns) == BuildRelations(t, l1, rest);
      BuildRelationsChildren(t, l1, rest, p);
      var h := if t.classes[n].parent == p then [n] else [];
      var w := WithParent(t, rest, p);
      assert WithParent(t, ns, p) == h + w;
      KidsStep(t, l, n, p);
      KidsAlgebra(h, w, Kids(l, p));
    } else {
      assert WithParent(t, ns, p) == [];
    }
  }

  /** Linking `n` prepends it to the children of its parent and of no other class. */
  lemma KidsStep(t: Table, l: Links, n: Name, p: Name)
    requires n in t.classes && SetRelations(t, l, n).Some?
    ensures Kids(SetRelations(t, l, n).value, p) == (if t.classes[n].parent == p then [n] else []) + Kids(l, p)
  {
  }

  lemma KidsAlgebra(h: seq<Name>, w: seq<Name>, k: seq<Name>)
    requires |h| <= 1
    ensures Reverse(w) + (h + k) == Reverse(h + w) + k
  {
    ReverseCons(h, w);
  }

  /** Filtering commutes with reversal. */
  lemma {:induction false} WithParentReverse(t: Table, ns: seq<Name>, p: Name)
    requires forall k :: 0 <= k < |ns| ==> ns[k] in t.classes
    ensures Reverse(WithParent(t, ns, p)) == WithParent(t, Reverse(ns), p)
    decreases |ns|
  {
    if |ns| > 0 {
      var n, rest := ns[0], ns[1..];
      var h := if t.classes[n].parent == p then [n] else [];
      var w := WithParent(t, rest, p);
      assert WithParent(t, ns, p) == h + w;
      WithParentReverse(t, rest, p);
      assert Reverse(ns) == Reverse(rest) + [n];
      WithParentAppend(t, Reverse(rest), [n], p);
      assert WithParent(t, [n], p) == h;
      assert WithParent(t, Reverse(ns), p) == Reverse(w) + h;
      ReverseCons(h, w);
    }
  }

  lemma ReverseCons<T>(h: seq<T>, w: seq<T>)
    requires |h| <= 1
    ensures Reverse(h + w) == Reverse(w) + h
  {
    if |h| == 1 {
      assert (h + w)[1..] == w;
      assert [(h + w)[0]] == h;
    } else {
      assert h + w == w;
    }
  }

  lemma {:induction false} WithParentAppend(t: Table, a: seq<Name>, b: seq<Name>, p: Name)
    requires forall k :: 0 <= k < |a| ==> a[k] in t.classes
    requires forall k :: 0 <= k < |b| ==> b[k] in t.classes
    ensures WithParent(t, a + b, p) == WithParent(t, a, p) + WithParent(t, b, p)
    decreases |a|
  {
    if |a| > 0 {
      assert (a + b)[1..] == a[1..] + b;
      WithParentAppend(t, a[1..], b, p);
    } else {
      assert a + b == b;
    }
  }

  /**
   * After `build_inheritance_tree` on a table whose every class has its parent in it, every
   * class's children are listed in installation order: the class list reversed.
   */
  lemma ChildrenInInstallOrder(t: Table)
    requires Wf(t) && forall k :: 0 <= k < |t.nds| ==> t.classes[t.nds[k]].parent in t.classes
    ensures BuildRelations(t, Links(map[], map[]), t.nds).Some?
    ensures forall p :: Kids(BuildRelations(t, Links(map[], map[]), t.nds).value, p) == WithParent(t, Reverse(t.nds), p)
  {
    var l := Links(map[], map[]);
    BuildRelationsSucceeds(t, l, t.nds);
    forall p ensures Kids(BuildRelations(t, l, t.nds).value, p) == WithParent(t, Reverse(t.nds), p) {
      BuildRelationsChildren(t, l, t.nds, p);
      WithParentReverse(t, t.nds, p);
      assert Kids(l, p) == [];
    }
  }

  /** After linking, every name on a children list is a class of the table. */
  lemma ChildrenInTable(t: Table)
    requires Wf(t) && forall k :: 0 <= k < |t.nds| ==> t.classes[t.nds[k]].parent in t.classes
    ensures BuildRelations(t, Links(map[], map[]), t.nds).Some?
    ensures var l := BuildRelations(t, Links(map[], map[]), t.nds).value;
            forall p :: p in l.children ==> forall k :: 0 <= k < |l.children[p]| ==> l.children[p][k] in t.classes
  {
    ChildrenInInstallOrder(t);
    var l := BuildRelations(t, Links(map[], map[]), t.nds).value;
    forall p | p in l.children ensures forall k :: 0 <= k < |l.children[p]| ==> l.children[p][k] in t.classes {
      assert l.children[p] == Kids(l, p) == WithParent(t, Reverse(t.nds), p);
    }
  }

  // ---------------------------------------------------------------------------------
  // The inheritance tree

  /** A class node with its children in order. */
  datatype Tree = Node(decl: ClassDecl, kids: seq<Tree>)

  /**
   * The tree below class `n` as the layout pass walks it: the node, then its children in
   * list order. None when `fuel` levels do not suffice.
   */
  function BuildTree(t: Table, l: Links, n: Name, fuel: nat): (r: Option<Tree>)
    requires n in t.classes && forall p :: p in l.children ==> forall k :: 0 <= k < |l.children[p]| ==> l.children[p][k] in t.classes
    ensures r.Some? ==> r.value.decl == t.classes[n] && |r.value.kids| == |Kids(l, n)|
    ensures r.Some? ==> forall k :: 0 <= k < |r.value.kids| ==> r.value.kids[k].decl == t.classes[Kids(l, n)[k]]
    decreases fuel, 1
  {
    if fuel == 0 then None
    else match BuildForest(t, l, Kids(l, n), fuel - 1)
      case None => None
      case Some(ks) => Some(Node(t.classes[n], ks))
  }

  function BuildForest(t: Table, l: Links, ns: seq<Name>, fuel: nat): (r: Option<seq<Tree>>)
    requires forall k :: 0 <= k < |ns| ==> ns[k] in t.classes
    requires forall p :: p in l.children ==> forall k :: 0 <= k < |l.children[p]| ==> l.children[p][k] in t.classes
    ensures r.Some? ==> |r.value| == |ns| && forall k :: 0 <= k < |ns| ==> r.value[k].decl == t.classes[ns[k]]
    decreases fuel + 1, 0, |ns|
  {
    if |ns| == 0 then Some([])
    else match BuildTree(t, l, ns[0], fuel)
      case None => None
      case Some(h) =>
        match BuildForest(t, l, ns[1..], fuel)
        case None => None
        case Some(rest) => Some([h] + rest)
  }

  // ---------------------------------------------------------------------------------
  // Which classes the walk from Object reaches

  /** Every class's children are the listed classes naming it as parent, in installation order. */
  ghost predicate LinkedByParent(t: Table, l: Links)
    requires forall k :: 0 <= k < |t.nds| ==> t.nds[k] in t.classes
  {
    forall p :: Kids(l, p) == WithParent(t, Reverse(t.nds), p)
  }

  /** Every child of a class is a listed class naming it as parent. */
  ghost predicate KidsBelow(t: Table, l: Links) {
    forall p, k :: 0 <= k < |Kids(l, p)| ==>
      Kids(l, p)[k] in t.nds && Kids(l, p)[k] in t.classes && t.classes[Kids(l, p)[k]].parent == p
  }

  /** Following declared parents from `n` through listed classes reaches Object within `k` steps. */
  ghost predicate RootedIn(t: Table, n: Name, k: nat)
    decreases k
  {
    n == Object || (k > 0 && n in t.nds && n in t.classes && RootedIn(t, t.classes[n].parent, k - 1))
  }

  /** The chain of declared parents from `n` reaches Object through listed classes. */
  ghost predicate Rooted(t: Table, n: Name) {
    exists k :: RootedIn(t, n, k)
  }

  /** One step down a class chain from a rooted class reaches a rooted class. */
  lemma RootedChild(t: Table, c: Name)
    requires c in t.nds && c in t.classes && Rooted(t, t.classes[c].parent)
    ensures Rooted(t, c)
  {
    var k: nat :| RootedIn(t, t.classes[c].parent, k);
    assert RootedIn(t, c, k + 1);
  }

  lemma ReverseMembers<T>(s: seq<T>)
    ensures forall x :: x in Reverse(s) <==> x in s
  {
    forall x | x in s ensures x in Reverse(s) {
      var i :| 0 <= i < |s| && s[i] == x;
      assert Reverse(s)[|s| - 1 - i] == x;
    }
  }

  /** After linking, the children of `p` are the listed classes whose declared parent is `p`. */
  lemma KidsAreChildren(t: Table, l: Links, p: Name)
    requires Wf(t) && LinkedByParent(t, l)
    ensures forall c :: c in Kids(l, p) <==> c in t.nds && t.classes[c].parent == p
  {
    ReverseMembers(t.nds);
    assert Kids(l, p) == WithParent(t, Reverse(t.nds), p);
    forall c | c in t.nds && t.classes[c].parent == p ensures c in Kids(l, p) {
      var i :| 0 <= i < |Reverse(t.nds)| && Reverse(t.nds)[i] == c;
    }
  }

  lemma LinkedKidsBelow(t: Table, l: Links)
    requires Wf(t) && LinkedByParent(t, l)
    ensures KidsBelow(t, l)
  {
    forall p, k | 0 <= k < |Kids(l, p)|
      ensures Kids(l, p)[k] in t.nds && Kids(l, p)[k] in t.classes && t.classes[Kids(l, p)[k]].parent == p
    {
      KidsAreChildren(t, l, p);
      assert Kids(l, p)[k] in Kids(l, p);
    }
  }

  /**
   * A chain of listed classes from Object downwards: each class's declared parent is the
   * class before it, and no class appears twice.
   */
  ghost predicate DownPath(t: Table, path: seq<Name>) {
    && |path| >= 1 && path[0] == Object
    && (forall i :: 0 <= i < |path| ==> path[i] in t.nds && path[i] in t.classes)
    && (forall i, j :: 0 <= i < j < |path| ==> path[i] != path[j])
    && (forall i :: 0 < i < |path| ==> t.classes[path[i]].parent == path[i - 1])
  }

  /** The number of names of `ns` not on `path`: it bounds how much longer the path can grow. */
  function Outside(ns: seq<Name>, path: seq<Name>): (r: nat)
    ensures r <= |ns|
  {
    if |ns| == 0 then 0 else (if ns[0] in path then 0 else 1) + Outside(ns[1..], path)
  }

  lemma {:induction false} OutsideStep(ns: seq<Name>, path: seq<Name>, c: Name)
    requires c in ns && c !in path
    ensures Outside(ns, path + [c]) < Outside(ns, path)
  {
    if ns[0] == c {
      OutsideMono(ns[1..], path, c);
    } else {
      OutsideStep(ns[1..], path, c);
    }
  }

  lemma {:induction false} OutsideMono(ns: seq<Name>, path: seq<Name>, c: Name)
    ensures Outside(ns, path + [c]) <= Outside(ns, path)
  {
    if |ns| > 0 {
      OutsideMono(ns[1..], path, c);
    }
  }

  /**
   * Since Object's parent is not listed, a child of the last class of a chain from Object is
   * not on the chain already: the walk down never meets a cycle.
   */
  lemma KidNotOnPath(t: Table, path: seq<Name>, c: Name)
    requires DownPath(t, path) && t.classes[Object].parent !in t.nds
    requires c in t.nds && c in t.classes && t.classes[c].parent == path[|path| - 1]
    ensures c !in path && DownPath(t, path + [c])
  {
    forall i | 0 < i < |path| ensures path[i] != c {
      assert t.classes[path[i]].parent == path[i - 1] != path[|path| - 1];
    }
    var q := path + [c];
    assert forall i :: 0 <= i < |path| ==> q[i] == path[i];
  }

  /**
   * The tree below the last class of a chain from Object is built when the fuel exceeds the
   * number of listed classes off the chain.
   */
  lemma TreeSome(t: Table, l: Links, path: seq<Name>, fuel: nat)
    requires Wf(t) && Object in t.classes && t.classes[Object].parent !in t.nds && KidsBelow(t, l)
    requires forall p :: p in l.children ==> forall k :: 0 <= k < |l.children[p]| ==> l.children[p][k] in t.classes
    requires DownPath(t, path) && fuel > Outside(t.nds, path)
    ensures BuildTree(t, l, path[|path| - 1], fuel).Some?
    decreases fuel, 1
  {
    var n := path[|path| - 1];
    var ks := Kids(l, n);
    ForestSome(t, l, path, ks, fuel - 1);
    assert BuildForest(t, l, ks, fuel - 1).Some?;
  }

  lemma ForestSome(t: Table, l: Links, path: seq<Name>, ns: seq<Name>, fuel: nat)
    requires Wf(t) && Object in t.classes && t.classes[Object].parent !in t.nds && KidsBelow(t, l)
    requires forall p :: p in l.children ==> forall k :: 0 <= k < |l.children[p]| ==> l.children[p][k] in t.classes
    requires DownPath(t, path) && fuel >= Outside(t.nds, path)
    requires forall k :: 0 <= k < |ns| ==> ns[k] in t.nds && ns[k] in t.classes && t.classes[ns[k]].parent == path[|path| - 1]
    ensures BuildForest(t, l, ns, fuel).Some?
    decreases fuel + 1, 0, |ns|
  {
    if |ns| > 0 {
      var c := ns[0];
      KidNotOnPath(t, path, c);
      OutsideStep(t.nds, path, c);
      TreeSome(t, l, path + [c], fuel);
      assert (path + [c])[|path + [c]| - 1] == c;
      ForestSome(t, l, path, ns[1..], fuel);
    }
  }

  /** The childless nodes of the classes `ns`, in order. */
  function Leaves(t: Table, ns: seq<Name>): (r: seq<Tree>)
    requires forall k :: 0 <= k < |ns| ==> ns[k] in t.classes
    ensures |r| == |ns| && forall k :: 0 <= k < |ns| ==> r[k] == Node(t.classes[ns[k]], [])
  {
    seq(|ns|, k requires 0 <= k < |ns| => Node(t.classes[ns[k]], []))
  }

  /** Classes without children are built as leaves, given any fuel at all. */
  lemma {:induction false} LeafForest(t: Table, l: Links, ns: seq<Name>, fuel: nat)
    requires forall k :: 0 <= k < |ns| ==> ns[k] in t.classes && Kids(l, ns[k]) == []
    requires forall p :: p in l.children ==> forall k :: 0 <= k < |l.children[p]| ==> l.children[p][k] in t.classes
    requires fuel > 0
    ensures BuildForest(t, l, ns, fuel) == Some(Leaves(t, ns))
    decreases |ns|
  {
    if |ns| > 0 {
      assert forall k :: 0 <= k < |ns| - 1 ==> ns[1..][k] == ns[k + 1];
      LeafForest(t, l, ns[1..], fuel);
      assert BuildForest(t, l, [], fuel - 1) == Some([]);
      assert BuildTree(t, l, ns[0], fuel) == Some(Node(t.classes[ns[0]], []));
      assert Leaves(t, ns) == [Node(t.classes[ns[0]], [])] + Leaves(t, ns[1..]);
    }
  }
}

=== FILE: classcheck.dfy ===
/**
 * The checks of a class's features (`method_class::check`, `attr_class::check` and
 * `checkClass`) and the checking pass over the program's classes.
 *
 * A method body is checked in a fresh scope of formals over the class's attribute
 * environment and leaves no trace. An attribute is checked in the attribute environment
 * and, when accepted, rebinds its name in the class's own attribute scope: to its
 * declared type without an initialiser, to the initialiser's type with one. Later
 * features, and classes checked later that inherit it, see the new binding.
 */
module ClassCheck {
  import opened Wrappers
  import opened Names
  import opened Ast
  import opened Diagnostics
  import opened Scopes
  import opened ClassTable
  import opened Inheritance
  import opened Lattice
  import opened TypeCheck

  // ---------------------------------------------------------------------------------
  // Methods

  /**
   * The formals a method check accepts against the scope `scope` they are bound in:
   * none named `self`, none of type SELF_TYPE, all of known classes, all names distinct
   * and new to the scope.
   */
  predicate FormalsOk(st: State, scope: Scope<Name>, fs: seq<Formal>) {
    && (forall k :: 0 <= k < |fs| ==>
          fs[k].name != SelfName && fs[k].typeDecl != SelfType && fs[k].typeDecl in st.table && fs[k].name !in scope)
    && (forall a, b :: 0 <= a < b < |fs| ==> fs[a].name != fs[b].name)
  }

  /**
   * Binds the formals of a method in the innermost scope of `env`, in order: a formal named
   * `self`, one of type SELF_TYPE, or one whose name is already bound there is reported
   * and skipped; one of an unknown class is reported and bound as `Object`.
   */
  function BindFormals(st: State, env: Env, fs: seq<Formal>): (r: (Env, seq<Err>))
    requires |env| > 0
    ensures |r.0| == |env| && r.0[1..] == env[1..]
    ensures forall n :: n in env[0] ==> n in r.0[0] && r.0[0][n] == env[0][n]
    ensures |r.1| <= |fs|
    ensures r.1 == [] <==> FormalsOk(st, env[0], fs)
    ensures r.1 == [] ==> forall k :: 0 <= k < |fs| ==> fs[k].name in r.0[0] && r.0[0][fs[k].name] == fs[k].typeDecl
    decreases |fs|
  {
    if |fs| == 0 then (env, [])
    else
      var f := fs[0];
      var (env1, e1) :=
        if f.name == SelfName then (env, [FormalNamedSelf])
        else if f.typeDecl == SelfType then (env, [FormalSelfType])
        else if Probe(env, f.name).Some? then (env, [DuplicateFormal])
        else if f.typeDecl !in st.table then (Add(env, f.name, Object), [UnknownFormalClass])
        else (Add(env, f.name, f.typeDecl), []);
      var (env2, e2) := BindFormals(st, env1, fs[1..]);
      FormalsOkStep(st, env[0], fs);
      BoundStays(env1[0], env2[0], f, fs[1..], e1 + e2);
      (env2, e1 + e2)
  }

  /** The formals are acceptable exactly when the first is and the rest are, with the first bound. */
  lemma FormalsOkStep(st: State, scope: Scope<Name>, fs: seq<Formal>)
    requires |fs| > 0
    ensures FormalsOk(st, scope, fs) <==>
      && fs[0].name != SelfName && fs[0].typeDecl != SelfType && fs[0].typeDecl in st.table && fs[0].name !in scope
      && FormalsOk(st, scope[fs[0].name := fs[0].typeDecl], fs[1..])
  {
    var f, rest := fs[0], fs[1..];
    var scope' := scope[f.name := f.typeDecl];
    if FormalsOk(st, scope, fs) {
      forall k | 0 <= k < |rest| ensures rest[k].name !in scope' {
        assert rest[k] == fs[k + 1];
      }
      forall a, b | 0 <= a < b < |rest| ensures rest[a].name != rest[b].name {
        assert rest[a] == fs[a + 1] && rest[b] == fs[b + 1];
      }
    }
    if && f.name != SelfName && f.typeDecl != SelfType && f.typeDecl in st.table && f.name !in scope
       && FormalsOk(st, scope', rest) {
      forall k | 0 <= k < |fs|
        ensures fs[k].name != SelfName && fs[k].typeDecl != SelfType && fs[k].typeDecl in st.table && fs[k].name !in scope
      {
        if k > 0 { assert fs[k] == rest[k - 1]; }
      }
      forall a, b | 0 <= a < b < |fs| ensures fs[a].name != fs[b].name {
        assert fs[b] == rest[b - 1];
        if a > 0 { assert fs[a] == rest[a - 1]; }
      }
    }
  }

  /** The first formal's binding survives the binding of the rest when nothing was reported. */
  lemma BoundStays(s1: Scope<Name>, s2: Scope<Name>, f: Formal, rest: seq<Formal>, errs: seq<Err>)
    requires errs == [] ==> f.name in s1 && s1[f.name] == f.typeDecl
    requires errs == [] ==> forall k :: 0 <= k < |rest| ==> rest[k].name in s2 && s2[rest[k].name] == rest[k].typeDecl
    requires errs == [] ==> forall n :: n in s1 ==> n in s2 && s2[n] == s1[n]
    ensures errs == [] ==> forall k :: 0 <= k < |[f] + rest| ==>
      ([f] + rest)[k].name in s2 && s2[([f] + rest)[k].name] == ([f] + rest)[k].typeDecl
  {
    if errs == [] {
      forall k | 0 <= k < |[f] + rest|
        ensures ([f] + rest)[k].name in s2 && s2[([f] + rest)[k].name] == ([f] + rest)[k].typeDecl
      {
        if k > 0 { assert ([f] + rest)[k] == rest[k - 1]; }
      }
    }
  }

  /**
   * Whether a body of type `bt` satisfies the declared return type `ret`: a SELF_TYPE body
   * satisfies SELF_TYPE and every ancestor of the current class; any other body satisfies
   * the ancestors of its type and never SELF_TYPE.
   */
  function ReturnErrs(st: State, cur: Name, ret: Name, bt: Name): (errs: seq<Err>)
    requires TableWf(st)
    ensures |errs| <= 1
    ensures errs == [] <==>
      if bt == SelfType then ret == SelfType || Conforms(st, ret, cur)
      else ret != SelfType && Conforms(st, ret, bt)
  {
    if bt == SelfType then
      if ret == SelfType then [] else AscentErrs(st, ret, cur, ReturnMismatch)
    else if ret == SelfType then [ReturnMismatch]
    else AscentErrs(st, ret, bt, ReturnMismatch)
  }

  /**
   * `method_class::check` for a method of record `i`: formals bound over the attribute
   * environment; a return type that is neither SELF_TYPE nor known is reported and the body
   * is not checked; otherwise the body's type must satisfy the return type.
   */
  function CheckMethod(st: State, i: nat, formals: seq<Formal>, ret: Name, body: Init): (errs: seq<Err>)
    requires TableWf(st) && i < |st.recs|
    ensures var (env, fe) := BindFormals(st, Scopes.Enter(AttrEnv(st, i)), formals);
            var B := CheckInit(st, st.recs[i].decl.name, env, body);
      && |fe| <= |errs| && errs[..|fe|] == fe
      && (ret != SelfType && ret !in st.table ==> errs == fe + [UnknownReturnType])
      && (errs == [] <==>
            && FormalsOk(st, map[], formals)
            && (ret == SelfType || ret in st.table)
            && B.errs == []
            && ReturnErrs(st, st.recs[i].decl.name, ret, B.ty) == [])
  {
    var cur := st.recs[i].decl.name;
    var (env, fe) := BindFormals(st, Scopes.Enter(AttrEnv(st, i)), formals);
    if ret != SelfType && ret !in st.table then fe + [UnknownReturnType]
    else
      var B := CheckInit(st, cur, env, body);
      fe + B.errs + ReturnErrs(st, cur, ret, B.ty)
  }

  // ---------------------------------------------------------------------------------
  // Attributes

  /** `st'` differs from `st` at most in the own attribute scope of record `i`, which only grows. */
  ghost predicate AttrsOnly(st: State, st': State, i: nat)
    requires i < |st.recs|
  {
    && st'.table == st.table && |st'.recs| == |st.recs|
    && (forall j :: 0 <= j < |st.recs| && j != i ==> st'.recs[j] == st.recs[j])
    && st'.recs[i] == st.recs[i].(attrs := st'.recs[i].attrs)
    && st.recs[i].attrs.Keys <= st'.recs[i].attrs.Keys
  }

  /**
   * `attr_class::check` for an attribute of record `i`. The initialiser is checked in the
   * attribute environment. An attribute named `self` is reported. Otherwise, without an
   * initialiser the name is bound to its declared type; with one, the initialiser's type
   * (SELF_TYPE read as the current class) must conform to the declared type (SELF_TYPE
   * read likewise), and the name is then bound to the initialiser's type.
   */
  function CheckAttr(st: State, i: nat, name: Name, typeDecl: Name, init: Init): (r: (State, seq<Err>))
    requires TableWf(st) && i < |st.recs|
    ensures TableWf(r.0) && AttrsOnly(st, r.0, i)
    ensures var cur := st.recs[i].decl.name;
            var I := CheckInit(st, cur, AttrEnv(st, i), init);
            var it := Resolve(I.ty, cur);
            var accepted := name != SelfName && (it == NoType || Conforms(st, Resolve(typeDecl, cur), it));
      && |I.errs| <= |r.1| && r.1[..|I.errs|] == I.errs
      && (accepted <==> r.1 == I.errs)
      && (!accepted ==> r.0 == st)
      && (accepted ==> r.0.recs[i].attrs == st.recs[i].attrs[name := if it == NoType then typeDecl else it])
  {
    var cur := st.recs[i].decl.name;
    var I := CheckInit(st, cur, AttrEnv(st, i), init);
    var it := Resolve(I.ty, cur);
    var c := st.recs[i];
    if name == SelfName then (st, I.errs + [AttrNamedSelf])
    else if it == NoType then (Put(st, i, c.(attrs := c.attrs[name := typeDecl])), I.errs)
    else
      var errs := AscentErrs(st, Resolve(typeDecl, cur), it, AttrInitMismatch);
      if errs == [] then (Put(st, i, c.(attrs := c.attrs[name := it])), I.errs)
      else (st, I.errs + errs)
  }

  // ---------------------------------------------------------------------------------
  // Classes

  lemma AttrsOnlyTrans(a: State, b: State, c: State, i: nat)
    requires i < |a.recs| && AttrsOnly(a, b, i) && AttrsOnly(b, c, i)
    ensures AttrsOnly(a, c, i)
  {
  }

  /** Checks the features of record `i` in order; only its own attribute scope changes. */
  function CheckFeatures(st: State, i: nat, fs: seq<Feature>): (r: (State, seq<Err>))
    requires TableWf(st) && i < |st.recs|
    ensures TableWf(r.0) && AttrsOnly(st, r.0, i)
    decreases |fs|
  {
    if |fs| == 0 then (st, [])
    else
      var (st1, e1) := match fs[0]
        case Method(_, formals, ret, body) => (st, CheckMethod(st, i, formals, ret, body))
        case Attr(name, typeDecl, init) => CheckAttr(st, i, name, typeDecl, init);
      var (st2, e2) := CheckFeatures(st1, i, fs[1..]);
      AttrsOnlyTrans(st, st1, st2, i);
      (st2, e1 + e2)
  }

  /** `checkClass`: the features of the class's own declaration, in order. */
  function CheckClass(st: State, i: nat): (r: (State, seq<Err>))
    requires TableWf(st) && i < |st.recs|
    ensures TableWf(r.0) && AttrsOnly(st, r.0, i)
  {
    CheckFeatures(st, i, st.recs[i].decl.features)
  }

  /** `st'` differs from `st` only in the records' own attribute scopes, which only grow. */
  ghost predicate CheckStep(st: State, st': State) {
    && st'.table == st.table && |st'.recs| == |st.recs|
    && (forall j :: 0 <= j < |st.recs| ==> st'.recs[j] == st.recs[j].(attrs := st'.recs[j].attrs))
    && (forall j :: 0 <= j < |st.recs| ==> st.recs[j].attrs.Keys <= st'.recs[j].attrs.Keys)
  }

  /** The checking pass: every valid record from position `k` on, in order. */
  function CheckPass(st: State, k: nat): (r: (State, seq<Err>))
    requires TableWf(st)
    ensures TableWf(r.0) && CheckStep(st, r.0)
    decreases |st.recs| - k
  {
    if k >= |st.recs| then (st, [])
    else
      var (st1, e1) := if st.recs[k].valid then CheckClass(st, k) else (st, []);
      var (st2, e2) := CheckPass(st1, k + 1);
      (st2, e1 + e2)
  }

  /** Checking never disturbs what the resolver established. */
  lemma CheckStepResolved(st: State, st': State)
    requires Resolved(st) && TableWf(st') && CheckStep(st, st')
    ensures Resolved(st')
  {
    forall j | 0 <= j < |st'.recs| && st'.recs[j].visited && st'.recs[j].valid
      ensures Linked(st', j)
    {
      assert Linked(st, j);
    }
  }
}

=== FILE: classtable.dfy ===
/**
 * The class registry: one record per class, and the table from class name to the record
 * that defines it. Records live in a sequence because a rejected or duplicated class is
 * still a record of its own (it keeps its flags and its own scopes) without being the
 * table's entry for its name.
 *
 * Record positions: 0 Object, 1 IO, 2 Int, 3 Bool, 4 String, 5 the runtime's `_prim_slot`
 * class, then the program's classes in declaration order.
 */
module ClassTable {
  import opened Wrappers
  import opened Names
  import opened Ast
  import opened Scopes
  import opened Diagnostics

  /** A method's signature as the method environment stores it. */
  datatype Sig = Sig(formals: seq<Formal>, returnType: Name)

  /**
   * A class record. `inh` is the class's ancestor chain, the class itself first; it stays
   * empty until the inheritance resolver sets it up. `methods` and `attrs` are the class's
   * own (innermost) scopes; inherited entries are reached through the ancestors' records.
   */
  datatype ClassRec = ClassRec(decl: ClassDecl, valid: bool, visited: bool, registered: bool,
                               inh: seq<Name>, methods: Scope<Sig>, attrs: Scope<Name>)

  datatype State = State(recs: seq<ClassRec>, table: map<Name, nat>)

  const ObjectIdx: nat := 0
  const PrimSlotIdx: nat := 5
  /** Position of the program's first class. */
  const FirstUser: nat := 6

  /** Every table entry points at a record carrying the entry's name. */
  ghost predicate TableWf(st: State) {
    forall n :: n in st.table ==> st.table[n] < |st.recs| && st.recs[st.table[n]].decl.name == n
  }

  predicate HasClass(st: State, n: Name) {
    n in st.table
  }

  /** The record the table holds for `n`. */
  function Rec(st: State, n: Name): ClassRec
    requires TableWf(st) && n in st.table
  {
    st.recs[st.table[n]]
  }

  /** Replaces record `i`. */
  function Put(st: State, i: nat, c: ClassRec): (r: State)
    requires i < |st.recs|
    requires c.decl.name == st.recs[i].decl.name
    requires TableWf(st)
    ensures TableWf(r) && r.table == st.table && |r.recs| == |st.recs|
    ensures r.recs[i] == c && forall j :: 0 <= j < |st.recs| && j != i ==> r.recs[j] == st.recs[j]
  {
    State(st.recs[i := c], st.table)
  }

  /** The record of a class as the registry first creates it. */
  function Fresh(d: ClassDecl): ClassRec {
    ClassRec(d, true, false, false, [], map[], map[])
  }

  /** The ancestors strictly above a class. */
  function Proper(c: ClassRec): seq<Name> {
    if |c.inh| == 0 then [] else c.inh[1..]
  }

  /** The method scopes of the named ancestors, nearest first. */
  function MethodScopes(st: State, names: seq<Name>): (r: seq<Scope<Sig>>)
    requires TableWf(st)
    ensures |r| <= |names|
  {
    if |names| == 0 then []
    else if names[0] in st.table then [Rec(st, names[0]).methods] + MethodScopes(st, names[1..])
    else MethodScopes(st, names[1..])
  }

  /** The attribute scopes of the named ancestors, nearest first. */
  function AttrScopes(st: State, names: seq<Name>): (r: seq<Scope<Name>>)
    requires TableWf(st)
    ensures |r| <= |names|
  {
    if |names| == 0 then []
    else if names[0] in st.table then [Rec(st, names[0]).attrs] + AttrScopes(st, names[1..])
    else AttrScopes(st, names[1..])
  }

  /** The method environment of record `i`: its own scope over its ancestors' scopes. */
  function MethodEnv(st: State, i: nat): seq<Scope<Sig>>
    requires TableWf(st) && i < |st.recs|
  {
    [st.recs[i].methods] + MethodScopes(st, Proper(st.recs[i]))
  }

  /** The attribute environment of record `i`: its own scope over its ancestors' scopes. */
  function AttrEnv(st: State, i: nat): seq<Scope<Name>>
    requires TableWf(st) && i < |st.recs|
  {
    [st.recs[i].attrs] + AttrScopes(st, Proper(st.recs[i]))
  }

  /** `method_env.lookup`: the nearest declaration of a method, own class first. */
  function FindMethod(st: State, i: nat, m: Name): Option<Sig>
    requires TableWf(st) && i < |st.recs|
  {
    Lookup(MethodEnv(st, i), m)
  }

  /** The record of a predefined class once it has been set up: visited, valid, chain fixed. */
  function BasicRec(d: ClassDecl, inh: seq<Name>): ClassRec {
    ClassRec(d, true, true, false, inh, map[], map[])
  }

  /**
   * The registry before any feature is registered: the predefined classes with their
   * ancestor chains, and `_prim_slot`, which is in the table but never set up.
   */
  function BasicState(): (st: State)
    ensures TableWf(st) && |st.recs| == FirstUser
    ensures st.table.Keys == {Object, IO, Int, Bool, Str, PrimSlot}
  {
    State([BasicRec(ObjectDecl(), [Object]),
           BasicRec(IODecl(), [IO, Object]),
           BasicRec(IntDecl(), [Int, Object]),
           BasicRec(BoolDecl(), [Bool, Object]),
           BasicRec(StrDecl(), [Str, Object]),
           Fresh(ClassDecl(PrimSlot, PrimSlot, []))],
          map[Object := 0, IO := 1, Int := 2, Bool := 3, Str := 4, PrimSlot := 5])
  }

  /** A program class that may define a class: not a predefined class and not SELF_TYPE. */
  predicate Admissible(d: ClassDecl) {
    !IsBasicClass(d.name) && d.name != SelfType
  }

  /**
   * Enters one program class: a class named after a predefined class or SELF_TYPE is kept
   * as an invalid record; a second class of the same name is kept as a valid record
   * that the table does not point at; any other class becomes the table's entry.
   */
  function Enter(st: State, d: ClassDecl): (r: (State, seq<Err>))
    requires TableWf(st)
    ensures TableWf(r.0) && |r.0.recs| == |st.recs| + 1 && r.0.recs[..|st.recs|] == st.recs
    ensures r.0.recs[|st.recs|].decl == d && !r.0.recs[|st.recs|].visited
    ensures r.0.recs[|st.recs|].valid <==> Admissible(d)
    ensures |r.1| <= 1
    ensures r.1 == [] <==> Admissible(d) && d.name !in st.table
    ensures r.1 == [] ==> r.0.table == st.table[d.name := |st.recs|]
    ensures r.1 != [] ==> r.0.table == st.table
  {
    var i := |st.recs|;
    if IsBasicClass(d.name) then
      (State(st.recs + [Fresh(d).(valid := false)], st.table), [RedefinedBasic])
    else if d.name == SelfType then
      (State(st.recs + [Fresh(d).(valid := false)], st.table), [RedefinedSelfType])
    else if d.name in st.table then
      (State(st.recs + [Fresh(d)], st.table), [DuplicateClass])
    else
      (State(st.recs + [Fresh(d)], st.table[d.name := i]), [])
  }

  /** Enters the program's classes in declaration order. */
  function EnterAll(st: State, ds: seq<ClassDecl>): (r: (State, seq<Err>))
    requires TableWf(st)
    ensures TableWf(r.0) && |r.0.recs| == |st.recs| + |ds| && r.0.recs[..|st.recs|] == st.recs
    ensures forall k :: |st.recs| <= k < |r.0.recs| ==> r.0.recs[k].decl == ds[k - |st.recs|]
    ensures forall k :: |st.recs| <= k < |r.0.recs| ==> !r.0.recs[k].visited
    ensures forall k :: |st.recs| <= k < |r.0.recs| ==> (r.0.recs[k].valid <==> Admissible(ds[k - |st.recs|]))
    ensures st.table.Keys <= r.0.table.Keys
    ensures forall n :: n in st.table ==> r.0.table[n] == st.table[n]
    decreases |ds|
  {
    if |ds| == 0 then
      assert st.recs[..|st.recs|] == st.recs;
      (st, [])
    else
      var (st1, e1) := Enter(st, ds[0]);
      var (st2, e2) := EnterAll(st1, ds[1..]);
      EnterAllFacts(st, ds, st1, st2);
      (st2, e1 + e2)
  }

  lemma EnterAllFacts(st: State, ds: seq<ClassDecl>, st1: State, st2: State)
    requires |ds| > 0
    requires |st1.recs| == |st.recs| + 1 && st1.recs[..|st.recs|] == st.recs
    requires st1.recs[|st.recs|].decl == ds[0] && !st1.recs[|st.recs|].visited
    requires st1.recs[|st.recs|].valid <==> Admissible(ds[0])
    requires |st2.recs| == |st1.recs| + |ds| - 1 && st2.recs[..|st1.recs|] == st1.recs
    requires forall k :: |st1.recs| <= k < |st2.recs| ==> st2.recs[k].decl == ds[1..][k - |st1.recs|]
    requires forall k :: |st1.recs| <= k < |st2.recs| ==> !st2.recs[k].visited
    requires forall k :: |st1.recs| <= k < |st2.recs| ==> (st2.recs[k].valid <==> Admissible(ds[1..][k - |st1.recs|]))
    ensures st2.recs[..|st.recs|] == st.recs
    ensures forall k :: |st.recs| <= k < |st2.recs| ==> st2.recs[k].decl == ds[k - |st.recs|]
    ensures forall k :: |st.recs| <= k < |st2.recs| ==> !st2.recs[k].visited
    ensures forall k :: |st.recs| <= k < |st2.recs| ==> (st2.recs[k].valid <==> Admissible(ds[k - |st.recs|]))
  {
    assert st2.recs[..|st.recs|] == st2.recs[..|st1.recs|][..|st.recs|];
    assert st2.recs[|st.recs|] == st2.recs[..|st1.recs|][|st.recs|];
  }

  /**
   * The fixed part of every registry: the predefined classes at their positions, visited
   * from the start, and no class named SELF_TYPE.
   */
  ghost predicate Registry(st: State) {
    && TableWf(st) && |st.recs| >= FirstUser
    && Object in st.table && st.table[Object] == 0
    && IO in st.table && st.table[IO] == 1
    && Int in st.table && st.table[Int] == 2
    && Bool in st.table && st.table[Bool] == 3
    && Str in st.table && st.table[Str] == 4
    && PrimSlot in st.table && st.table[PrimSlot] == PrimSlotIdx
    && SelfType !in st.table
    && (forall j :: 0 <= j < PrimSlotIdx ==> st.recs[j].visited)
    && (forall j :: FirstUser <= j < |st.recs| && st.recs[j].valid ==> st.recs[j].decl.name != Object)
  }

  /**
   * The registry's test for an entry point as written: some method of the class has no
   * formals; the method's name is not compared.
   */
  predicate DeclaresEntry(d: ClassDecl) {
    exists k :: 0 <= k < |d.features| && d.features[k].Method? && |d.features[k].formals| == 0
  }

  /** The entry point the language requires: a method named `main` with no formals. */
  predicate DeclaresMain(d: ClassDecl) {
    exists k :: 0 <= k < |d.features| && d.features[k].Method? && d.features[k].name == MainMethod
                && |d.features[k].formals| == 0
  }

  /** A class with a `main` of no formals passes the test as written too; the converse fails. */
  lemma MainIsEntry(d: ClassDecl)
    ensures DeclaresMain(d) ==> DeclaresEntry(d)
    ensures var m := ClassDecl(MainClass, Object, [Method("run", [], Object, NoExpr)]);
            DeclaresEntry(m) && !DeclaresMain(m)
  {
    var m := ClassDecl(MainClass, Object, [Method("run", [], Object, NoExpr)]);
    assert m.features[0].Method? && |m.features[0].formals| == 0;
  }

  /**
   * The registry's entry-point test as written: the table has a `Main` class, and that
   * class declares some method of no formals.
   */
  predicate HasMainMethod(st: State)
    requires TableWf(st)
  {
    MainClass in st.table && DeclaresEntry(Rec(st, MainClass).decl)
  }

  /** The entry-point test the language asks for: `Main` declares `main` of no formals. */
  predicate HasMainByName(st: State)
    requires TableWf(st)
  {
    MainClass in st.table && DeclaresMain(Rec(st, MainClass).decl)
  }
}

=== FILE: diagnostics.dfy ===
/**
 * The semantic errors the analyser reports. Message text and file positions are not
 * modelled; each report is one value of this datatype, so the error count is the length
 * of the list of reports.
 */
module Diagnostics {

  datatype Err =
    // class registry
    | RedefinedBasic | RedefinedSelfType | DuplicateClass | NoMainClass | NoMainMethod
    // inheritance resolver
    | InheritsSelfType | InheritsFinal | MissingParent
    // feature registrar
    | DuplicateMethod | SelfTypeFormal | UnknownFormalType
    | OverrideArity | OverrideParamType | OverrideReturnType
    | DuplicateAttr | UnknownAttrType
    // method and attribute checks
    | FormalNamedSelf | FormalSelfType | DuplicateFormal | UnknownFormalClass
    | UnknownReturnType | ReturnMismatch | AttrNamedSelf | AttrInitMismatch
    // expression checks
    | AssignSelf | UnboundName | AssignMismatch
    | NoSuchAncestor | UndefinedMethod | ArityMismatch | ArgMismatch
    | PredNotBool | UnknownBranchType | SelfTypeBranch | BranchMismatch | DuplicateBranch
    | LetSelf | UnknownLetType | LetMismatch
    | ArithLeft | ArithRight | NegNotInt | NotNotBool | EqMismatch | UnknownNewType
    // the analyser dereferences a missing class record here and would stop abnormally
    | NullDeref
}

=== FILE: features.dfy ===
/**
 * The feature registrar (`registerFeatures`). Each class is registered once, after its
 * parent; every method and attribute either enters the class's own scope or is rejected
 * with an error, in declaration order.
 */
module Features {
  import opened Wrappers
  import opened Names
  import opened Ast
  import opened Diagnostics
  import opened Scopes
  import opened ClassTable
  import opened Inheritance

  /**
   * `st'` differs from `st` only in feature scopes and registration flags; registration
   * is never undone and a record already registered is left exactly as it was.
   */
  ghost predicate RegStep(st: State, st': State) {
    && st'.table == st.table && |st'.recs| == |st.recs|
    && forall j :: 0 <= j < |st.recs| ==>
         && st'.recs[j].decl == st.recs[j].decl
         && st'.recs[j].valid == st.recs[j].valid
         && st'.recs[j].visited == st.recs[j].visited
         && st'.recs[j].inh == st.recs[j].inh
         && (st.recs[j].registered ==> st'.recs[j] == st.recs[j])
  }

  lemma RegStepTrans(a: State, b: State, c: State)
    requires RegStep(a, b) && RegStep(b, c)
    ensures RegStep(a, c)
  {
  }

  /** Registration leaves the resolver's results alone. */
  lemma RegStepResolved(st: State, st': State)
    requires Resolved(st) && TableWf(st') && RegStep(st, st')
    ensures Resolved(st')
  {
    forall j | 0 <= j < |st'.recs| && st'.recs[j].visited && st'.recs[j].valid
      ensures Linked(st', j)
    {
      assert Linked(st, j);
    }
  }

  // ---------------------------------------------------------------------------------
  // Methods

  /** The errors of the formals, in order: SELF_TYPE first, otherwise an unknown class. */
  function FormalErrs(st: State, fs: seq<Formal>): (r: seq<Err>)
    ensures |r| <= |fs|
    ensures r == [] <==> forall k :: 0 <= k < |fs| ==> fs[k].typeDecl != SelfType && fs[k].typeDecl in st.table
  {
    if |fs| == 0 then []
    else
      var e := if fs[0].typeDecl == SelfType then [SelfTypeFormal]
               else if fs[0].typeDecl !in st.table then [UnknownFormalType]
               else [];
      var rest := FormalErrs(st, fs[1..]);
      assert forall k :: 1 <= k < |fs| ==> fs[k] == fs[1..][k - 1];
      e + rest
  }

  /** The parameter loop of the override check: stops at the first differing type. */
  function SameParamTypes(a: seq<Formal>, b: seq<Formal>): (r: bool)
    requires |a| == |b|
    ensures r <==> forall k :: 0 <= k < |a| ==> a[k].typeDecl == b[k].typeDecl
  {
    if |a| == 0 then true
    else if a[0].typeDecl != b[0].typeDecl then false
    else
      assert forall k :: 1 <= k < |a| ==> a[k] == a[1..][k - 1] && b[k] == b[1..][k - 1];
      SameParamTypes(a[1..], b[1..])
  }

  /**
   * Whether a redefinition agrees with the inherited signature: same number of formals,
   * the same formal types position by position, and the same return type once SELF_TYPE
   * on either side stands for the redefining class.
   */
  predicate Compatible(sig: Sig, formals: seq<Formal>, ret: Name, current: Name) {
    && |formals| == |sig.formals|
    && (forall k :: 0 <= k < |formals| ==> formals[k].typeDecl == sig.formals[k].typeDecl)
    && Resolve(sig.returnType, current) == Resolve(ret, current)
  }

  /** The inherited signature a method of record `i` redefines, looked up through the parent. */
  function Inherited(st: State, i: nat, m: Name): Option<Sig>
    requires TableWf(st) && i < |st.recs|
  {
    var c := st.recs[i];
    if c.decl.name == Object || c.decl.parent !in st.table then None
    else FindMethod(st, st.table[c.decl.parent], m)
  }

  /** A method the registrar installs: new in its class, well-typed formals, a compatible redefinition. */
  predicate MethodAcceptable(st: State, i: nat, name: Name, formals: seq<Formal>, ret: Name)
    requires TableWf(st) && i < |st.recs|
  {
    && name !in st.recs[i].methods
    && (forall k :: 0 <= k < |formals| ==> formals[k].typeDecl != SelfType && formals[k].typeDecl in st.table)
    && (Inherited(st, i, name).Some? ==> Compatible(Inherited(st, i, name).value, formals, ret, st.recs[i].decl.name))
  }

  /** The single error of a redefinition, if any. */
  function OverrideErrs(st: State, i: nat, name: Name, formals: seq<Formal>, ret: Name): (r: seq<Err>)
    requires TableWf(st) && i < |st.recs|
    ensures |r| <= 1
    ensures r == [] <==> Inherited(st, i, name).Some? ==>
                           Compatible(Inherited(st, i, name).value, formals, ret, st.recs[i].decl.name)
    ensures r == [OverrideArity] <==> Inherited(st, i, name).Some? && |formals| != |Inherited(st, i, name).value.formals|
  {
    match Inherited(st, i, name)
    case None => []
    case Some(sig) =>
      var current := st.recs[i].decl.name;
      if |formals| != |sig.formals| then [OverrideArity]
      else if !SameParamTypes(formals, sig.formals) then [OverrideParamType]
      else if Resolve(sig.returnType, current) != Resolve(ret, current) then [OverrideReturnType]
      else []
  }

  /**
   * Registers one method of record `i`: a name already in the class's own scope, a bad
   * formal, or an incompatible redefinition is reported and the method is not installed;
   * otherwise its signature is bound in the class's own scope.
   */
  function RegisterMethod(st: State, i: nat, name: Name, formals: seq<Formal>, ret: Name): (r: (State, seq<Err>))
    requires TableWf(st) && i < |st.recs|
    ensures r.1 == [] <==> MethodAcceptable(st, i, name, formals, ret)
    ensures name in st.recs[i].methods ==> r.1 == [DuplicateMethod]
    ensures r.1 != [] ==> r.0 == st
    ensures r.1 == [] ==> r.0 == Put(st, i, st.recs[i].(methods := st.recs[i].methods[name := Sig(formals, ret)]))
  {
    if name in st.recs[i].methods then (st, [DuplicateMethod])
    else
      var fe := FormalErrs(st, formals);
      if fe != [] then (st, fe)
      else
        var oe := OverrideErrs(st, i, name, formals, ret);
        if oe != [] then (st, oe)
        else (Put(st, i, st.recs[i].(methods := st.recs[i].methods[name := Sig(formals, ret)])), [])
  }

  // ---------------------------------------------------------------------------------
  // Attributes

  /**
   * Registers one attribute of record `i`: a name visible in the attribute environment,
   * inherited ones included, or an unknown declared type is reported; otherwise the name is
   * bound to its declared type in the class's own scope.
   */
  function RegisterAttr(st: State, i: nat, name: Name, typeDecl: Name): (r: (State, seq<Err>))
    requires TableWf(st) && i < |st.recs|
    ensures r.1 == [] <==> Lookup(AttrEnv(st, i), name).None? && typeDecl in st.table
    ensures Lookup(AttrEnv(st, i), name).Some? ==> r.1 == [DuplicateAttr]
    ensures Lookup(AttrEnv(st, i), name).None? && typeDecl !in st.table ==> r.1 == [UnknownAttrType]
    ensures r.1 != [] ==> r.0 == st
    ensures r.1 == [] ==> r.0 == Put(st, i, st.recs[i].(attrs := st.recs[i].attrs[name := typeDecl]))
  {
    if Lookup(AttrEnv(st, i), name).Some? then (st, [DuplicateAttr])
    else if typeDecl !in st.table then (st, [UnknownAttrType])
    else (Put(st, i, st.recs[i].(attrs := st.recs[i].attrs[name := typeDecl])), [])
  }

  /** An attribute declared by any proper ancestor of a linked class is a duplicate. */
  lemma InheritedAttrRejected(st: State, i: nat, k: nat, name: Name, typeDecl: Name)
    requires TableWf(st) && i < |st.recs|
    requires 1 <= k < |st.recs[i].inh| && st.recs[i].inh[k] in st.table
    requires name in Rec(st, st.recs[i].inh[k]).attrs
    ensures RegisterAttr(st, i, name, typeDecl).1 == [DuplicateAttr]
  {
    var names := Proper(st.recs[i]);
    AttrScopesHas(st, names, k - 1, name);
  }

  lemma {:induction false} AttrScopesHas(st: State, names: seq<Name>, k: nat, name: Name)
    requires TableWf(st) && k < |names| && names[k] in st.table && name in Rec(st, names[k]).attrs
    ensures exists m :: 0 <= m < |AttrScopes(st, names)| && name in AttrScopes(st, names)[m]
  {
    var s := AttrScopes(st, names);
    if k == 0 {
      assert name in s[0];
    } else {
      AttrScopesHas(st, names[1..], k - 1, name);
      var m :| 0 <= m < |AttrScopes(st, names[1..])| && name in AttrScopes(st, names[1..])[m];
      if names[0] in st.table {
        assert s[m + 1] == AttrScopes(st, names[1..])[m];
      } else {
        assert s[m] == AttrScopes(st, names[1..])[m];
      }
    }
  }

  // ---------------------------------------------------------------------------------
  // Classes

  /** Only record `i` changes, and only in its feature scopes. */
  ghost predicate OwnScopesOnly(st: State, st': State, i: nat)
    requires i < |st.recs|
  {
    && st'.table == st.table && |st'.recs| == |st.recs|
    && (forall j :: 0 <= j < |st.recs| && j != i ==> st'.recs[j] == st.recs[j])
    && st'.recs[i] == st.recs[i].(methods := st'.recs[i].methods, attrs := st'.recs[i].attrs)
    && st.recs[i].methods.Keys <= st'.recs[i].methods.Keys
    && st.recs[i].attrs.Keys <= st'.recs[i].attrs.Keys
  }

  /**
   * Registers the features of record `i` in declaration order. With no error reported,
   * every method name and every attribute name of the list is bound in the class's scopes.
   */
  function RegisterList(st: State, i: nat, fs: seq<Feature>): (r: (State, seq<Err>))
    requires TableWf(st) && i < |st.recs|
    ensures TableWf(r.0) && OwnScopesOnly(st, r.0, i)
    ensures r.1 == [] ==> forall k :: 0 <= k < |fs| && fs[k].Method? ==> fs[k].name in r.0.recs[i].methods
    ensures r.1 == [] ==> forall k :: 0 <= k < |fs| && fs[k].Attr? ==> fs[k].name in r.0.recs[i].attrs
    decreases |fs|
  {
    if |fs| == 0 then (st, [])
    else
      var one := RegisterFeature(st, i, fs[0]);
      var rest := RegisterList(one.0, i, fs[1..]);
      OwnScopesTrans(st, one.0, rest.0, i);
      assert forall k :: 1 <= k < |fs| ==> fs[k] == fs[1..][k - 1];
      (rest.0, one.1 + rest.1)
  }

  /** Registers one feature of record `i`, method or attribute. */
  function RegisterFeature(st: State, i: nat, f: Feature): (r: (State, seq<Err>))
    requires TableWf(st) && i < |st.recs|
    ensures TableWf(r.0) && OwnScopesOnly(st, r.0, i)
    ensures r.1 == [] && f.Method? ==> f.name in r.0.recs[i].methods
    ensures r.1 == [] && f.Attr? ==> f.name in r.0.recs[i].attrs
  {
    match f
    case Method(name, formals, ret, _) => RegisterMethod(st, i, name, formals, ret)
    case Attr(name, typeDecl, _) => RegisterAttr(st, i, name, typeDecl)
  }

  lemma OwnScopesTrans(a: State, b: State, c: State, i: nat)
    requires i < |a.recs| && OwnScopesOnly(a, b, i) && OwnScopesOnly(b, c, i)
    ensures OwnScopesOnly(a, c, i)
  {
  }

  /** Registration is closed upward: every registered class has a registered parent. */
  ghost predicate RegClosed(st: State)
    requires TableWf(st)
  {
    forall j :: 0 <= j < |st.recs| && st.recs[j].registered ==>
      && st.recs[j].visited && st.recs[j].valid
      && (st.recs[j].decl.name != Object ==> st.recs[j].decl.parent in st.table && Rec(st, st.recs[j].decl.parent).registered)
  }

  lemma ClosedStep(st: State, st1: State, st3: State, i: nat)
    requires Resolved(st) && TableWf(st1) && TableWf(st3) && i < |st.recs| && RegClosed(st1)
    requires RegStep(st, st1) && RegStep(st1, st3) && st.recs[i].visited && st.recs[i].valid
    requires forall j :: 0 <= j < |st.recs| && j != i ==> st3.recs[j] == st1.recs[j]
    requires st.recs[i].decl.name != Object ==> st.recs[i].decl.parent in st.table && Rec(st1, st.recs[i].decl.parent).registered
    ensures RegClosed(st3)
  {
    forall j | 0 <= j < |st3.recs| && st3.recs[j].registered
      ensures st3.recs[j].visited && st3.recs[j].valid
      ensures st3.recs[j].decl.name != Object ==>
                st3.recs[j].decl.parent in st3.table && Rec(st3, st3.recs[j].decl.parent).registered
    {
      if j != i {
        assert st1.recs[j].registered;
      }
    }
  }

  /** Registering the features of an unregistered record and then marking it is a registration step. */
  lemma FinishStep(st: State, st1: State, st2: State, i: nat)
    requires Resolved(st) && TableWf(st1) && TableWf(st2) && i < |st.recs|
    requires RegStep(st, st1) && !st1.recs[i].registered && OwnScopesOnly(st1, st2, i)
    ensures var st3 := Put(st2, i, st2.recs[i].(registered := true));
      && Resolved(st3) && RegStep(st, st3) && st3.recs[i].registered
      && (forall j :: 0 <= j < |st.recs| && j != i ==> st3.recs[j] == st1.recs[j])
  {
    var st3 := Put(st2, i, st2.recs[i].(registered := true));
    assert RegStep(st1, st3);
    RegStepTrans(st, st1, st3);
    RegStepResolved(st, st3);
  }

  /**
   * The first step of `registerFeatures`: a class other than `Object` has its parent
   * registered unless it already is. Nothing at the class itself or at a record with a
   * chain as long as its own changes.
   */
  function RegisterParent(st: State, i: nat): (r: (State, seq<Err>))
    requires Resolved(st) && RegClosed(st) && i < |st.recs| && st.recs[i].visited && st.recs[i].valid
    ensures Resolved(r.0) && RegClosed(r.0) && RegStep(st, r.0)
    ensures st.recs[i].decl.name != Object ==>
              st.recs[i].decl.parent in st.table && Rec(r.0, st.recs[i].decl.parent).registered
    ensures forall j :: 0 <= j < |st.recs| && |st.recs[j].inh| >= |st.recs[i].inh| ==> r.0.recs[j] == st.recs[j]
    decreases |st.recs[i].inh|, 0
  {
    var c := st.recs[i];
    assert Linked(st, i);
    if c.decl.name != Object && !Rec(st, c.decl.parent).registered then
      RegisterFeatures(st, st.table[c.decl.parent])
    else (st, [])
  }

  /**
   * `registerFeatures`: once per class; the parent's features first, then the class's own
   * in order, and the class is marked registered.
   */
  function RegisterFeatures(st: State, i: nat): (r: (State, seq<Err>))
    requires Resolved(st) && RegClosed(st) && i < |st.recs| && st.recs[i].visited && st.recs[i].valid
    ensures Resolved(r.0) && RegClosed(r.0) && RegStep(st, r.0) && r.0.recs[i].registered
    ensures st.recs[i].registered ==> r == (st, [])
    ensures st.recs[i].decl.name != Object ==>
              st.recs[i].decl.parent in st.table && Rec(r.0, st.recs[i].decl.parent).registered
    ensures forall j :: 0 <= j < |st.recs| && j != i && |st.recs[j].inh| >= |st.recs[i].inh| ==> r.0.recs[j] == st.recs[j]
    decreases |st.recs[i].inh|, 1
  {
    if st.recs[i].registered then (st, [])
    else
      var p := RegisterParent(st, i);
      var l := RegisterList(p.0, i, st.recs[i].decl.features);
      MarkStep(st, i, p.0, l.0);
      (Put(l.0, i, l.0.recs[i].(registered := true)), p.1 + l.1)
  }

  /**
   * Marking record `i` registered after its parent's and its own features have been
   * registered keeps the table resolved and closed, and touches no record whose chain is
   * at least as long as that of `i`, other than `i`.
   */
  lemma MarkStep(st: State, i: nat, p: State, l: State)
    requires Resolved(st) && RegClosed(st) && i < |st.recs| && st.recs[i].visited && st.recs[i].valid
    requires !st.recs[i].registered
    requires Resolved(p) && RegClosed(p) && RegStep(st, p)
    requires st.recs[i].decl.name != Object ==>
               st.recs[i].decl.parent in st.table && Rec(p, st.recs[i].decl.parent).registered
    requires forall j :: 0 <= j < |st.recs| && |st.recs[j].inh| >= |st.recs[i].inh| ==> p.recs[j] == st.recs[j]
    requires TableWf(l) && OwnScopesOnly(p, l, i)
    ensures var st3 := Put(l, i, l.recs[i].(registered := true));
      && Resolved(st3) && RegClosed(st3) && RegStep(st, st3) && st3.recs[i].registered
      && (st.recs[i].decl.name != Object ==>
            st.recs[i].decl.parent in st.table && Rec(st3, st.recs[i].decl.parent).registered)
      && (forall j :: 0 <= j < |st.recs| && j != i && |st.recs[j].inh| >= |st.recs[i].inh| ==> st3.recs[j] == st.recs[j])
  {
    var st3 := Put(l, i, l.recs[i].(registered := true));
    assert p.recs[i] == st.recs[i];
    FinishStep(st, p, l, i);
    ClosedStep(st, p, st3, i);
  }
}

=== FILE: inheritance.dfy ===
/**
 * The inheritance resolver. Each class, guarded by its `visited` flag, resolves its
 * parent first and then takes a copy of the parent's ancestor chain with its own name in
 * front. A class whose parent is SELF_TYPE, a final class, missing or invalid becomes
 * invalid.
 */
module Inheritance {
  import opened Wrappers
  import opened Names
  import opened Ast
  import opened Diagnostics
  import opened ClassTable

  /** The records not yet resolved; resolving marks one more record visited. */
  function Unvisited(st: State): set<nat> {
    set i | 0 <= i < |st.recs| && !st.recs[i].visited
  }

  /**
   * `st'` differs from `st` only in resolver state: flags may go from unvisited to visited
   * and from valid to invalid, records already visited are untouched, and declarations,
   * scopes and the table stay as they were.
   */
  ghost predicate ResolverStep(st: State, st': State) {
    && st'.table == st.table && |st'.recs| == |st.recs|
    && forall j :: 0 <= j < |st.recs| ==>
         && st'.recs[j].decl == st.recs[j].decl
         && st'.recs[j].methods == st.recs[j].methods
         && st'.recs[j].attrs == st.recs[j].attrs
         && st'.recs[j].registered == st.recs[j].registered
         && (st.recs[j].visited ==> st'.recs[j] == st.recs[j])
         && (st.recs[j].visited ==> st'.recs[j].visited)
         && (st'.recs[j].valid ==> st.recs[j].valid)
  }

  lemma ResolverStepTrans(a: State, b: State, c: State)
    requires ResolverStep(a, b) && ResolverStep(b, c)
    ensures ResolverStep(a, c)
  {
  }

  /**
   * After a step from `st` to `mid`, replacing a record unvisited in `st` by one that only
   * differs from its original in resolver state is still a step from `st`.
   */
  lemma PutStep(st: State, mid: State, i: nat, c: ClassRec)
    requires TableWf(mid) && ResolverStep(st, mid) && i < |st.recs| && !st.recs[i].visited
    requires c.decl == st.recs[i].decl && c.methods == st.recs[i].methods && c.attrs == st.recs[i].attrs
    requires c.registered == st.recs[i].registered && (c.valid ==> st.recs[i].valid)
    ensures ResolverStep(st, Put(mid, i, c))
  {
  }

  lemma StepRefl(st: State)
    ensures ResolverStep(st, st)
  {
  }

  lemma RegistryStep(st: State, st': State)
    requires Registry(st) && TableWf(st') && ResolverStep(st, st')
    ensures Registry(st')
  {
  }

  lemma UnvisitedShrinks(st: State, i: nat, c: ClassRec)
    requires TableWf(st) && i < |st.recs| && !st.recs[i].visited
    requires c.decl.name == st.recs[i].decl.name && c.visited
    ensures Unvisited(Put(st, i, c)) < Unvisited(st)
  {
    assert i in Unvisited(st) && i !in Unvisited(Put(st, i, c));
  }

  /**
   * `setInheritance`: a no-op on a visited class; otherwise marks it visited, rejects a
   * parent that is SELF_TYPE, missing or final, resolves the parent and either links the
   * class below a valid parent or invalidates it.
   */
  function SetInheritance(st: State, i: nat): (r: (State, seq<Err>))
    requires TableWf(st) && i < |st.recs|
    ensures TableWf(r.0) && ResolverStep(st, r.0) && r.0.recs[i].visited
    ensures Unvisited(r.0) <= Unvisited(st)
    ensures st.recs[i].visited ==> r == (st, [])
    ensures !st.recs[i].visited && st.recs[i].decl.parent == SelfType ==>
              !r.0.recs[i].valid && r.1 == [InheritsSelfType]
    ensures !st.recs[i].visited && st.recs[i].decl.parent != SelfType && st.recs[i].decl.parent !in st.table ==>
              !r.0.recs[i].valid && r.1 == [MissingParent]
    ensures !st.recs[i].visited && st.recs[i].decl.parent != SelfType && st.recs[i].decl.parent in st.table
            && IsFinalClass(st.recs[i].decl.parent) ==>
              !r.0.recs[i].valid && r.1 == [InheritsFinal]
    ensures !st.recs[i].visited && st.recs[i].decl.parent != SelfType && st.recs[i].decl.parent in st.table
            && !IsFinalClass(st.recs[i].decl.parent) && st.table[st.recs[i].decl.parent] != i ==>
              (r.0.recs[i].valid <==> st.recs[i].valid && Rec(r.0, st.recs[i].decl.parent).valid)
              && (r.0.recs[i].valid ==>
                    r.0.recs[i].inh == [st.recs[i].decl.name] + Rec(r.0, st.recs[i].decl.parent).inh)
    decreases Unvisited(st)
  {
    var c := st.recs[i];
    if c.visited then (st, [])
    else
      var st1 := Put(st, i, c.(visited := true));
      UnvisitedShrinks(st, i, c.(visited := true));
      var p := c.decl.parent;
      if p == SelfType || p !in st.table || IsFinalClass(p) then
        var e := if p == SelfType then InheritsSelfType else if p !in st.table then MissingParent else InheritsFinal;
        StopPost(st, i);
        (Put(st1, i, st1.recs[i].(valid := false)), [e])
      else
        var sub := SetInheritance(st1, st.table[p]);
        FollowPost(st, st1, sub.0, i);
        (Put(sub.0, i, Linked3(sub.0, i, p)), sub.1)
  }

  /** The record `i` once the resolver is back from its parent: linked below it, or invalid. */
  function Linked3(st2: State, i: nat, p: Name): ClassRec
    requires TableWf(st2) && i < |st2.recs| && p in st2.table
  {
    var parent := st2.recs[st2.table[p]];
    var c2 := st2.recs[i];
    if parent.valid then c2.(inh := [c2.decl.name] + parent.inh) else c2.(valid := false)
  }

  /** Resolving record `i` whose parent is rejected: it is marked visited and invalid. */
  lemma StopPost(st: State, i: nat)
    requires TableWf(st) && i < |st.recs| && !st.recs[i].visited
    ensures var st1 := Put(st, i, st.recs[i].(visited := true));
            var r := Put(st1, i, st1.recs[i].(valid := false));
      && TableWf(r) && ResolverStep(st, r) && r.recs[i].visited && !r.recs[i].valid
      && Unvisited(r) <= Unvisited(st)
  {
    var c := st.recs[i];
    var st1 := Put(st, i, c.(visited := true));
    StepRefl(st);
    PutStep(st, st, i, c.(visited := true));
    PutStep(st, st1, i, c.(visited := true, valid := false));
    StepUnvisited(st, Put(st1, i, st1.recs[i].(valid := false)));
  }

  /** The last step of resolving record `i` through its parent. */
  lemma FollowPost(st: State, st1: State, st2: State, i: nat)
    requires TableWf(st) && i < |st.recs| && !st.recs[i].visited && st.recs[i].decl.parent in st.table
    requires st1 == Put(st, i, st.recs[i].(visited := true))
    requires TableWf(st2) && ResolverStep(st1, st2)
    ensures var p := st.recs[i].decl.parent;
            var r := Put(st2, i, Linked3(st2, i, p));
      && TableWf(r) && ResolverStep(st, r) && r.recs[i].visited
      && Unvisited(r) <= Unvisited(st)
      && (st.table[p] != i ==>
            (r.recs[i].valid <==> st.recs[i].valid && Rec(r, p).valid)
            && (r.recs[i].valid ==> r.recs[i].inh == [st.recs[i].decl.name] + Rec(r, p).inh))
  {
    var c := st.recs[i];
    StepRefl(st);
    PutStep(st, st, i, c.(visited := true));
    ResolverStepTrans(st, st1, st2);
    assert st2.recs[i] == c.(visited := true);
    var p := c.decl.parent;
    var c3 := Linked3(st2, i, p);
    PutStep(st, st2, i, c3);
    var r := Put(st2, i, c3);
    StepUnvisited(st, r);
  }

  /** A resolver step never makes a visited record unvisited. */
  lemma StepUnvisited(st: State, st': State)
    requires ResolverStep(st, st')
    ensures Unvisited(st') <= Unvisited(st)
  {
  }

  /** The pass over the program's classes: every class still valid is resolved in order. */
  function ResolvePass(st: State, k: nat): (r: (State, seq<Err>))
    requires TableWf(st) && k <= |st.recs|
    ensures TableWf(r.0) && ResolverStep(st, r.0)
    ensures forall j :: k <= j < |st.recs| && r.0.recs[j].valid ==> r.0.recs[j].visited
    decreases |st.recs| - k
  {
    if k == |st.recs| then (st, [])
    else if st.recs[k].valid then
      var (st1, e1) := SetInheritance(st, k);
      var (st2, e2) := ResolvePass(st1, k + 1);
      (st2, e1 + e2)
    else
      ResolvePass(st, k + 1)
  }

  // ---------------------------------------------------------------------------------
  // Well-founded inheritance and the chains it produces

  /**
   * Number of parent links the resolver follows from record `i` before it reaches a
   * predefined class or a parent it rejects outright; None when `fuel` links do not suffice,
   * which for `fuel` = the number of records means the parent links run in a cycle.
   */
  function Depth(ds: seq<ClassDecl>, table: map<Name, nat>, i: nat, fuel: nat): Option<nat>
    requires i < |ds| && forall n :: n in table ==> table[n] < |ds|
    decreases fuel
  {
    if i < PrimSlotIdx then Some(0)
    else
      var p := ds[i].parent;
      if p == SelfType || p !in table || IsFinalClass(p) then Some(0)
      else if fuel == 0 then None
      else match Depth(ds, table, table[p], fuel - 1)
        case Some(d) => Some(d + 1)
        case None => None
  }

  function DeclsOf(st: State): (ds: seq<ClassDecl>)
    ensures |ds| == |st.recs| && forall j :: 0 <= j < |st.recs| ==> ds[j] == st.recs[j].decl
  {
    seq(|st.recs|, j requires 0 <= j < |st.recs| => st.recs[j].decl)
  }

  function DepthOf(st: State, i: nat): Option<nat>
    requires TableWf(st) && i < |st.recs|
  {
    Depth(DeclsOf(st), st.table, i, |st.recs|)
  }

  /** Every class the resolver may start from reaches a stopping point: no inheritance cycle. */
  ghost predicate Acyclic(st: State)
    requires TableWf(st)
  {
    forall i :: FirstUser <= i < |st.recs| && st.recs[i].valid ==> DepthOf(st, i).Some?
  }

  lemma {:induction false} DepthMonotone(ds: seq<ClassDecl>, table: map<Name, nat>, i: nat, f: nat, f': nat)
    requires i < |ds| && forall n :: n in table ==> table[n] < |ds|
    requires f <= f' && Depth(ds, table, i, f).Some?
    ensures Depth(ds, table, i, f') == Depth(ds, table, i, f)
    decreases f
  {
    if i >= PrimSlotIdx {
      var p := ds[i].parent;
      if !(p == SelfType || p !in table || IsFinalClass(p)) {
        DepthMonotone(ds, table, table[p], f - 1, f' - 1);
      }
    }
  }

  /** A class whose resolution follows its parent is one link deeper than the parent. */
  lemma ParentDepth(st: State, i: nat, d: nat)
    requires TableWf(st) && i < |st.recs| && i >= PrimSlotIdx
    requires DepthOf(st, i) == Some(d)
    requires var p := st.recs[i].decl.parent; p != SelfType && p in st.table && !IsFinalClass(p)
    ensures d >= 1 && DepthOf(st, st.table[st.recs[i].decl.parent]) == Some(d - 1)
  {
    var ds, p := DeclsOf(st), st.recs[i].decl.parent;
    var N := |st.recs|;
    assert N > 0;
    DepthMonotone(ds, st.table, st.table[p], N - 1, N);
  }

  lemma DepthFrame(st: State, st': State, i: nat)
    requires TableWf(st) && TableWf(st') && ResolverStep(st, st') && i < |st.recs|
    ensures DepthOf(st', i) == DepthOf(st, i)
  {
    assert DeclsOf(st') == DeclsOf(st);
  }

  /**
   * A resolved record is linked below its parent: its chain is its own name followed by
   * the chain of its parent's record, which is resolved and valid; `Object` heads the tree.
   */
  ghost predicate Linked(st: State, j: nat)
    requires TableWf(st) && j < |st.recs|
  {
    var c := st.recs[j];
    if c.decl.name == Object then c.inh == [Object]
    else
      && c.decl.parent in st.table
      && Rec(st, c.decl.parent).visited && Rec(st, c.decl.parent).valid
      && c.inh == [c.decl.name] + Rec(st, c.decl.parent).inh
  }

  ghost predicate Finished(st: State, j: nat)
    requires TableWf(st) && j < |st.recs|
  {
    st.recs[j].visited && (st.recs[j].valid ==> Linked(st, j))
  }

  /** After resolution every visited, valid record is linked. */
  ghost predicate LinkedAll(st: State)
    requires TableWf(st)
  {
    forall j {:trigger Linked(st, j)} :: 0 <= j < |st.recs| && st.recs[j].visited && st.recs[j].valid ==> Linked(st, j)
  }

  /** Every record visited but not finished lies strictly deeper than `d`. */
  ghost predicate PendingDeeper(st: State, d: nat)
    requires TableWf(st)
  {
    forall j :: 0 <= j < |st.recs| && st.recs[j].visited && !Finished(st, j) ==>
      DepthOf(st, j).Some? && DepthOf(st, j).value > d
  }

  /** Finishing is stable under a resolver step that leaves both records of the link alone. */
  lemma FinishedStable(st: State, st': State, j: nat)
    requires TableWf(st) && TableWf(st') && ResolverStep(st, st') && j < |st.recs|
    requires Finished(st, j)
    ensures Finished(st', j)
  {
  }

  /** One unfolding of `SetInheritance` on an unvisited record whose parent it follows. */
  lemma UnfoldFollow(st: State, i: nat)
    requires TableWf(st) && i < |st.recs| && !st.recs[i].visited
    requires var p := st.recs[i].decl.parent; p != SelfType && p in st.table && !IsFinalClass(p)
    ensures var c := st.recs[i];
      var q := st.table[c.decl.parent];
      var st1 := Put(st, i, c.(visited := true));
      var st2 := SetInheritance(st1, q).0;
      SetInheritance(st, i).0 ==
        if st2.recs[q].valid then Put(st2, i, st2.recs[i].(inh := [c.decl.name] + st2.recs[q].inh))
        else Put(st2, i, st2.recs[i].(valid := false))
  {
  }

  /** Marking the record of depth `d` visited leaves every pending record deeper than `d - 1`. */
  lemma PendingAfterMark(st: State, st1: State, i: nat, d: nat)
    requires TableWf(st) && TableWf(st1) && ResolverStep(st, st1) && i < |st.recs|
    requires d >= 1 && DepthOf(st, i) == Some(d) && PendingDeeper(st, d)
    requires forall j :: 0 <= j < |st.recs| && j != i ==> st1.recs[j] == st.recs[j]
    ensures PendingDeeper(st1, d - 1)
  {
    forall j | 0 <= j < |st1.recs| && st1.recs[j].visited && !Finished(st1, j)
      ensures DepthOf(st1, j).Some? && DepthOf(st1, j).value > d - 1
    {
      DepthFrame(st, st1, j);
      if j != i && Finished(st, j) {
        FinishedStable(st, st1, j);
      }
    }
  }

  /**
   * A record that the recursive call visited cannot be linked below `i`: it would be one
   * link deeper than `i`, yet everything that call visits is shallower than `i`.
   */
  lemma NotBelow(st: State, st2: State, i: nat, d: nat, j: nat)
    requires Registry(st) && TableWf(st2) && ResolverStep(st, st2) && i < |st.recs| && j < |st.recs|
    requires i >= PrimSlotIdx && DepthOf(st, i) == Some(d)
    requires DepthOf(st, j).Some? && DepthOf(st, j).value < d
    requires !st.recs[j].visited && st2.recs[j].valid && st2.recs[j].decl.name != Object
    requires st2.recs[j].decl.parent in st.table && !IsFinalClass(st2.recs[j].decl.parent) && st2.recs[j].decl.parent != SelfType
    ensures st.table[st2.recs[j].decl.parent] != i
  {
    if st.table[st2.recs[j].decl.parent] == i {
      assert j >= PrimSlotIdx;
      ParentDepth(st, j, DepthOf(st, j).value);
    }
  }

  /**
   * What resolving record `i` of depth `d` achieves: `i` is finished, no record becomes
   * pending, and the records newly visited are no deeper than `d`.
   */
  ghost predicate FinishOutcome(st: State, st': State, i: nat, d: nat)
    requires TableWf(st) && TableWf(st') && ResolverStep(st, st') && i < |st.recs|
  {
    && Finished(st', i)
    && (forall j :: 0 <= j < |st.recs| && st'.recs[j].visited && !Finished(st', j) ==>
          st.recs[j].visited && !Finished(st, j))
    && (forall j :: 0 <= j < |st.recs| && st'.recs[j].visited && !st.recs[j].visited ==>
          DepthOf(st, j).Some? && DepthOf(st, j).value <= d)
  }

  lemma StopOutcome(st: State, st': State, i: nat, d: nat)
    requires TableWf(st) && TableWf(st') && ResolverStep(st, st') && i < |st.recs|
    requires DepthOf(st, i) == Some(d) && !st.recs[i].visited
    requires st'.recs[i].visited && !st'.recs[i].valid
    requires forall j :: 0 <= j < |st.recs| && j != i ==> st'.recs[j] == st.recs[j]
    ensures FinishOutcome(st, st', i, d)
  {
    forall j | 0 <= j < |st.recs| && st'.recs[j].visited && !Finished(st', j)
      ensures st.recs[j].visited && !Finished(st, j)
    {
      if Finished(st, j) { FinishedStable(st, st', j); }
    }
  }

  /** No record becomes pending: a record the recursive call finished is not linked below `i`. */
  lemma FollowNoPending(st: State, st1: State, st2: State, st': State, i: nat, q: nat, d: nat)
    requires Registry(st) && i < |st.recs| && i >= PrimSlotIdx && q < |st.recs|
    requires TableWf(st1) && TableWf(st2) && TableWf(st')
    requires ResolverStep(st, st1) && ResolverStep(st, st2) && ResolverStep(st, st')
    requires DepthOf(st, i) == Some(d) && !st.recs[i].visited && Finished(st', i)
    requires forall j :: 0 <= j < |st.recs| && j != i ==> st1.recs[j] == st.recs[j] && st'.recs[j] == st2.recs[j]
    requires forall j :: 0 <= j < |st.recs| && st2.recs[j].visited && !Finished(st2, j) ==>
               st1.recs[j].visited && !Finished(st1, j)
    requires forall j :: 0 <= j < |st.recs| && st2.recs[j].visited && !st1.recs[j].visited ==>
               DepthOf(st1, j).Some? && DepthOf(st1, j).value < d
    ensures forall j :: 0 <= j < |st.recs| && st'.recs[j].visited && !Finished(st', j) ==>
              st.recs[j].visited && !Finished(st, j)
  {
    forall j | 0 <= j < |st.recs| && st'.recs[j].visited && !Finished(st', j)
      ensures st.recs[j].visited && !Finished(st, j)
    {
      if Finished(st, j) {
        FinishedStable(st, st', j);
      }
      if !st.recs[j].visited {
        assert j != i && !st1.recs[j].visited && st2.recs[j].visited;
        DepthFrame(st, st1, j);
        if st2.recs[j].valid && st2.recs[j].decl.name != Object {
          assert Finished(st2, j);
          NotBelow(st, st2, i, d, j);
        }
      }
    }
  }

  lemma FollowShallow(st: State, st1: State, st2: State, st': State, i: nat, d: nat)
    requires TableWf(st) && TableWf(st1) && ResolverStep(st, st1) && i < |st.recs| && |st'.recs| == |st.recs|
    requires |st2.recs| == |st.recs| && DepthOf(st, i) == Some(d)
    requires forall j :: 0 <= j < |st.recs| && j != i ==> st1.recs[j] == st.recs[j] && st'.recs[j] == st2.recs[j]
    requires forall j :: 0 <= j < |st.recs| && st2.recs[j].visited && !st1.recs[j].visited ==>
               DepthOf(st1, j).Some? && DepthOf(st1, j).value < d
    ensures forall j :: 0 <= j < |st.recs| && st'.recs[j].visited && !st.recs[j].visited ==>
              DepthOf(st, j).Some? && DepthOf(st, j).value <= d
  {
    forall j | 0 <= j < |st.recs| && st'.recs[j].visited && !st.recs[j].visited
      ensures DepthOf(st, j).Some? && DepthOf(st, j).value <= d
    {
      if j != i {
        DepthFrame(st, st1, j);
      }
    }
  }

  lemma FollowOutcome(st: State, st1: State, st2: State, st': State, i: nat, q: nat, d: nat)
    requires Registry(st) && i < |st.recs| && i >= PrimSlotIdx && q < |st.recs| && q != i
    requires TableWf(st1) && TableWf(st2) && TableWf(st')
    requires ResolverStep(st, st1) && ResolverStep(st1, st2) && ResolverStep(st, st2) && ResolverStep(st, st')
    requires d >= 1 && DepthOf(st, i) == Some(d) && !st.recs[i].visited
    requires var p := st.recs[i].decl.parent; p in st.table && st.table[p] == q
    requires st1.recs[i].visited && forall j :: 0 <= j < |st.recs| && j != i ==> st1.recs[j] == st.recs[j]
    requires FinishOutcome(st1, st2, q, d - 1)
    requires st' == if st2.recs[q].valid then Put(st2, i, st2.recs[i].(inh := [st.recs[i].decl.name] + st2.recs[q].inh))
                    else Put(st2, i, st2.recs[i].(valid := false))
    ensures FinishOutcome(st, st', i, d)
  {
    assert st'.recs[i].visited && st'.recs[i].decl == st.recs[i].decl;
    if st'.recs[i].valid {
      assert st2.recs[q].valid && st2.recs[q].visited;
      assert st.recs[i].decl.name != Object by {
        if i == PrimSlotIdx { assert st.recs[i].decl.name == PrimSlot; }
      }
      assert Linked(st', i);
    }
    assert Finished(st', i);
    assert forall j :: 0 <= j < |st.recs| && j != i ==> st1.recs[j] == st.recs[j] && st'.recs[j] == st2.recs[j];
    FollowNoPending(st, st1, st2, st', i, q, d);
    FollowShallow(st, st1, st2, st', i, d);
  }

  /** A record already visited is finished, since the pending ones are all deeper. */
  lemma VisitedFinishes(st: State, i: nat, d: nat)
    requires TableWf(st) && i < |st.recs| && st.recs[i].visited && DepthOf(st, i) == Some(d)
    requires PendingDeeper(st, d)
    ensures FinishOutcome(st, SetInheritance(st, i).0, i, d)
  {
    assert SetInheritance(st, i).0 == st;
    assert Finished(st, i);
  }

  /** A record whose parent is rejected outright is finished by becoming invalid. */
  lemma StopFinishes(st: State, i: nat, d: nat)
    requires TableWf(st) && i < |st.recs| && !st.recs[i].visited && DepthOf(st, i) == Some(d)
    requires var p := st.recs[i].decl.parent; p == SelfType || p !in st.table || IsFinalClass(p)
    ensures FinishOutcome(st, SetInheritance(st, i).0, i, d)
  {
    StopOutcome(st, SetInheritance(st, i).0, i, d);
  }

  /** The step from the recursive call's outcome on the parent to the outcome on `i`. */
  lemma FollowFinishes(st: State, i: nat, d: nat)
    requires Registry(st) && i < |st.recs| && !st.recs[i].visited && DepthOf(st, i) == Some(d)
    requires var p := st.recs[i].decl.parent; p != SelfType && p in st.table && !IsFinalClass(p)
    requires d >= 1 && st.table[st.recs[i].decl.parent] != i
    requires var st1 := Put(st, i, st.recs[i].(visited := true));
      var q := st.table[st.recs[i].decl.parent];
      FinishOutcome(st1, SetInheritance(st1, q).0, q, d - 1)
    ensures FinishOutcome(st, SetInheritance(st, i).0, i, d)
  {
    var c := st.recs[i];
    var q := st.table[c.decl.parent];
    var st1 := Put(st, i, c.(visited := true));
    var st2 := SetInheritance(st1, q).0;
    StepRefl(st);
    PutStep(st, st, i, c.(visited := true));
    ResolverStepTrans(st, st1, st2);
    UnfoldFollow(st, i);
    assert i >= PrimSlotIdx;
    FollowOutcome(st, st1, st2, SetInheritance(st, i).0, i, q, d);
  }

  /**
   * Resolving a record whose depth is `d`, while every pending record is deeper, finishes
   * it, leaves no new pending record, and visits only records no deeper than `d`.
   */
  lemma {:induction false} SetInheritanceFinishes(st: State, i: nat, d: nat)
    requires Registry(st) && i < |st.recs|
    requires DepthOf(st, i) == Some(d)
    requires PendingDeeper(st, d)
    ensures FinishOutcome(st, SetInheritance(st, i).0, i, d)
    decreases Unvisited(st)
  {
    var c := st.recs[i];
    if c.visited {
      VisitedFinishes(st, i, d);
      return;
    }
    var p := c.decl.parent;
    if p == SelfType || p !in st.table || IsFinalClass(p) {
      StopFinishes(st, i, d);
      return;
    }
    var st1 := Put(st, i, c.(visited := true));
    UnvisitedShrinks(st, i, c.(visited := true));
    var q := st.table[p];
    assert q != i && d >= 1 && DepthOf(st, q) == Some(d - 1) by {
      assert i >= PrimSlotIdx;
      ParentDepth(st, i, d);
    }
    assert Registry(st1) && PendingDeeper(st1, d - 1) && DepthOf(st1, q) == Some(d - 1) by {
      StepRefl(st);
      PutStep(st, st, i, c.(visited := true));
      PendingAfterMark(st, st1, i, d);
      RegistryStep(st, st1);
      DepthFrame(st, st1, q);
    }
    SetInheritanceFinishes(st1, q, d - 1);
    FollowFinishes(st, i, d);
  }

  /** Every visited record is finished: there is nothing pending at all. */
  ghost predicate AllFinished(st: State)
    requires TableWf(st)
  {
    forall j :: 0 <= j < |st.recs| && st.recs[j].visited ==> Finished(st, j)
  }

  lemma AcyclicStep(st: State, st': State)
    requires TableWf(st) && TableWf(st') && ResolverStep(st, st') && Acyclic(st)
    ensures Acyclic(st')
  {
    forall i | FirstUser <= i < |st'.recs| && st'.recs[i].valid
      ensures DepthOf(st', i).Some?
    {
      DepthFrame(st, st', i);
    }
  }

  /** Resolving one valid program class keeps the pass invariant. */
  lemma PassStep(st: State, k: nat)
    requires Registry(st) && FirstUser <= k < |st.recs| && AllFinished(st) && Acyclic(st) && st.recs[k].valid
    ensures var st1 := SetInheritance(st, k).0; Registry(st1) && AllFinished(st1) && Acyclic(st1)
  {
    var d := DepthOf(st, k).value;
    var st1 := SetInheritance(st, k).0;
    SetInheritanceFinishes(st, k, d);
    RegistryStep(st, st1);
    AcyclicStep(st, st1);
  }

  lemma PassUnfold(st: State, k: nat)
    requires TableWf(st) && k < |st.recs|
    ensures ResolvePass(st, k).0 ==
      if st.recs[k].valid then ResolvePass(SetInheritance(st, k).0, k + 1).0 else ResolvePass(st, k + 1).0
  {
  }

  /** The resolver pass over an acyclic program finishes every record it reaches. */
  lemma {:induction false} ResolvePassFinishes(st: State, k: nat)
    requires Registry(st) && k <= |st.recs| && AllFinished(st) && Acyclic(st) && k >= FirstUser
    ensures Registry(ResolvePass(st, k).0) && AllFinished(ResolvePass(st, k).0)
    decreases |st.recs| - k
  {
    if k == |st.recs| {
      return;
    }
    PassUnfold(st, k);
    if st.recs[k].valid {
      var st1 := SetInheritance(st, k).0;
      PassStep(st, k);
      assert |st1.recs| == |st.recs|;
      ResolvePassFinishes(st1, k + 1);
      assert ResolvePass(st, k).0 == ResolvePass(st1, k + 1).0;
    } else {
      ResolvePassFinishes(st, k + 1);
      assert ResolvePass(st, k).0 == ResolvePass(st, k + 1).0;
    }
  }

  /**
   * After the pass over an acyclic program every visited valid record is linked below its
   * parent, and every valid program class has been visited.
   */
  lemma ResolvePassLinks(st: State)
    requires Registry(st) && AllFinished(st) && Acyclic(st)
    ensures var st' := ResolvePass(st, FirstUser).0;
      && Resolved(st')
      && forall j :: FirstUser <= j < |st'.recs| && st'.recs[j].valid ==> st'.recs[j].visited
  {
    ResolvePassFinishes(st, FirstUser);
  }

  /** A name that names a class whose record is resolved and valid. */
  ghost predicate Known(st: State, n: Name)
    requires TableWf(st)
  {
    n in st.table && Rec(st, n).visited && Rec(st, n).valid
  }

  /** The state the resolver leaves: the fixed registry with every resolved record linked. */
  ghost predicate Resolved(st: State) {
    Registry(st) && LinkedAll(st)
  }

  lemma ObjectRecord(st: State, j: nat)
    requires Registry(st) && j < |st.recs| && st.recs[j].valid && st.recs[j].decl.name == Object
    ensures j == ObjectIdx
  {
  }

  /**
   * The chain of a resolved record starts with its own name and ends with `Object`; every
   * later entry names a resolved class whose own chain is the rest of this one.
   */
  lemma {:induction false} ChainFacts(st: State, j: nat)
    requires Resolved(st) && j < |st.recs| && st.recs[j].visited && st.recs[j].valid
    ensures var inh := st.recs[j].inh;
      && |inh| >= 1 && inh[0] == st.recs[j].decl.name && inh[|inh| - 1] == Object
      && (forall k :: 1 <= k < |inh| ==> Known(st, inh[k]) && Rec(st, inh[k]).inh == inh[k..])
    decreases |st.recs[j].inh|
  {
    var c := st.recs[j];
    assert Linked(st, j);
    if c.decl.name == Object {
      return;
    }
    var q := st.table[c.decl.parent];
    var pr := st.recs[q];
    assert c.inh == [c.decl.name] + pr.inh;
    ChainFacts(st, q);
    assert pr.inh[0] == c.decl.parent;
    forall k | 1 <= k < |c.inh|
      ensures Known(st, c.inh[k]) && Rec(st, c.inh[k]).inh == c.inh[k..]
    {
      assert c.inh[k] == pr.inh[k - 1] && c.inh[k..] == pr.inh[k - 1..];
    }
  }

  /** The chain of a resolved class starts with the class and ends with `Object`. */
  lemma ChainShape(st: State, n: Name)
    requires Resolved(st) && Known(st, n)
    ensures var inh := Rec(st, n).inh; |inh| >= 1 && inh[0] == n && inh[|inh| - 1] == Object
  {
    ChainFacts(st, st.table[n]);
  }

  /** Every entry of a resolved class's chain is resolved, with the rest of the chain as its own. */
  lemma ChainAt(st: State, n: Name, k: nat)
    requires Resolved(st) && Known(st, n) && k < |Rec(st, n).inh|
    ensures Known(st, Rec(st, n).inh[k]) && Rec(st, Rec(st, n).inh[k]).inh == Rec(st, n).inh[k..]
  {
    ChainFacts(st, st.table[n]);
  }

  /** The chain of a resolved class names each ancestor once. */
  lemma ChainNoRepeat(st: State, n: Name, a: nat, b: nat)
    requires Resolved(st) && Known(st, n) && a < b < |Rec(st, n).inh|
    ensures Rec(st, n).inh[a] != Rec(st, n).inh[b]
  {
    ChainAt(st, n, a);
    ChainAt(st, n, b);
  }
}

=== FILE: lattice.dfy ===
/**
 * The subtype order of the class table and its least upper bound (`checkAscent` and
 * `unionType`). A class's ancestors are the names on its inheritance chain; over a resolved
 * table the order is reflexive, antisymmetric and transitive with `Object` on top, and the
 * join is the least common ancestor.
 */
module Lattice {
  import opened Wrappers
  import opened Names
  import opened ClassTable
  import opened Inheritance

  /**
   * `checkAscent(l, r)`: whether `l` is an ancestor of (or equal to) `r`. The source
   * dereferences the record of `r` unconditionally, so an unknown `r` is None.
   */
  function Ascent(st: State, l: Name, r: Name): (res: Option<bool>)
    requires TableWf(st)
    ensures res.None? <==> r !in st.table
    ensures res.Some? ==> (res.value <==> l in Rec(st, r).inh)
  {
    if r !in st.table then None else Some(l in Rec(st, r).inh)
  }

  /** `l` is an ancestor of `r` (the case the callers treat as conforming). */
  predicate Conforms(st: State, l: Name, r: Name)
    requires TableWf(st)
  {
    Ascent(st, l, r) == Some(true)
  }

  lemma AscentReflexive(st: State, n: Name)
    requires Resolved(st) && Known(st, n)
    ensures Conforms(st, n, n)
  {
    ChainShape(st, n);
  }

  lemma AscentObjectTop(st: State, n: Name)
    requires Resolved(st) && Known(st, n)
    ensures Conforms(st, Object, n)
  {
    ChainShape(st, n);
  }

  /** An ancestor of a resolved class is itself resolved and its chain is a suffix. */
  lemma AncestorSuffix(st: State, a: Name, n: Name) returns (k: nat)
    requires Resolved(st) && Known(st, n) && Conforms(st, a, n)
    ensures Known(st, a) && k < |Rec(st, n).inh| && Rec(st, n).inh[k] == a
    ensures Rec(st, a).inh == Rec(st, n).inh[k..]
  {
    var inh := Rec(st, n).inh;
    k :| 0 <= k < |inh| && inh[k] == a;
    ChainAt(st, n, k);
  }

  lemma AscentTransitive(st: State, a: Name, b: Name, c: Name)
    requires Resolved(st) && Known(st, c)
    requires Conforms(st, a, b) && Conforms(st, b, c)
    ensures Conforms(st, a, c)
  {
    var k := AncestorSuffix(st, b, c);
    var inh := Rec(st, c).inh;
    var m :| 0 <= m < |Rec(st, b).inh| && Rec(st, b).inh[m] == a;
    assert inh[k + m] == a;
  }

  lemma AscentAntisymmetric(st: State, a: Name, b: Name)
    requires Resolved(st) && Known(st, b)
    requires Conforms(st, a, b) && Conforms(st, b, a)
    ensures a == b
  {
    var k := AncestorSuffix(st, a, b);
    var inh := Rec(st, b).inh;
    var m :| 0 <= m < |Rec(st, a).inh| && Rec(st, a).inh[m] == b;
    assert inh[k + m] == b;
    ChainShape(st, b);
    if k + m > 0 {
      ChainNoRepeat(st, b, 0, k + m);
    }
  }

  // ---------------------------------------------------------------------------------
  // The join

  /**
   * The walk of `unionType`: from the record of `r` (not itself in `lInh`), step to the
   * parent until a name of `lInh` is reached. A parent with no record is dereferenced on the
   * next step, which is None; so is a walk longer than `fuel` steps.
   */
  function Climb(st: State, lInh: seq<Name>, r: Name, fuel: nat): Option<Name>
    requires TableWf(st) && r in st.table
    decreases fuel
  {
    var p := Rec(st, r).decl.parent;
    if p in lInh then Some(p)
    else if p !in st.table || fuel == 0 then None
    else Climb(st, lInh, p, fuel - 1)
  }

  /**
   * `unionType(l, r)`: `Object` if either side is `Object`; else `r` when it is an ancestor
   * of `l`, `l` when it is an ancestor of `r`, and otherwise the first ancestor of `r` that
   * is an ancestor of `l`. None where the source dereferences a missing record.
   */
  function Join(st: State, l: Name, r: Name): (res: Option<Name>)
    requires TableWf(st)
    ensures l == Object || r == Object ==> res == Some(Object)
    ensures l != Object && r != Object && l !in st.table ==> res.None?
  {
    if l == Object || r == Object then Some(Object)
    else if l !in st.table then None
    else if r in Rec(st, l).inh then Some(r)
    else if r !in st.table then None
    else if l in Rec(st, r).inh then Some(l)
    else Climb(st, Rec(st, l).inh, r, |st.recs|)
  }

  /** Common ancestors of `l` and `r`. */
  ghost predicate Common(st: State, a: Name, l: Name, r: Name)
    requires TableWf(st)
  {
    Conforms(st, a, l) && Conforms(st, a, r)
  }

  /** A resolved class other than `Object` has its parent second on its chain. */
  lemma ParentSecond(st: State, n: Name)
    requires Resolved(st) && Known(st, n) && n != Object
    ensures var inh := Rec(st, n).inh; |inh| >= 2 && inh[1] == Rec(st, n).decl.parent
  {
    assert Linked(st, st.table[n]);
    ChainShape(st, Rec(st, n).decl.parent);
  }

  /** The walk stops at the first name of `r`'s chain that is in `lInh`, if fuel suffices. */
  lemma {:induction false} ClimbFinds(st: State, lInh: seq<Name>, r: Name, fuel: nat, k: nat) returns (m: nat)
    requires Resolved(st) && Known(st, r) && r !in lInh
    requires 1 <= k < |Rec(st, r).inh| && Rec(st, r).inh[k] in lInh && k <= fuel + 1
    ensures 1 <= m <= k && Climb(st, lInh, r, fuel) == Some(Rec(st, r).inh[m])
    ensures Rec(st, r).inh[m] in lInh && forall i :: 0 <= i < m ==> Rec(st, r).inh[i] !in lInh
    decreases fuel
  {
    var inh := Rec(st, r).inh;
    ChainShape(st, r);
    assert r != Object by {
      assert Linked(st, st.table[r]);
    }
    ParentSecond(st, r);
    var p := Rec(st, r).decl.parent;
    if p in lInh {
      return 1;
    }
    ChainAt(st, r, 1);
    assert k >= 2 && fuel >= 1 && p in st.table;
    assert Climb(st, lInh, r, fuel) == Climb(st, lInh, p, fuel - 1);
    var m' := ClimbFinds(st, lInh, p, fuel - 1, k - 1);
    m := m' + 1;
    forall i | 0 <= i < m
      ensures inh[i] !in lInh
    {
      if i > 0 { assert inh[i] == Rec(st, p).inh[i - 1]; }
    }
  }

  /** Counting: distinct naturals below `n` number at most `n`. */
  lemma {:induction false} SubsetBound(s: set<nat>, n: nat)
    requires forall x :: x in s ==> x < n
    ensures |s| <= n
  {
    if n > 0 {
      var s' := s - {n - 1};
      SubsetBound(s', n - 1);
    } else {
      assert s == {};
    }
  }

  function Elems(s: seq<nat>): set<nat> {
    set x | x in s
  }

  lemma {:induction false} DistinctCard(s: seq<nat>)
    requires forall a, b :: 0 <= a < b < |s| ==> s[a] != s[b]
    ensures |Elems(s)| == |s|
  {
    if |s| > 0 {
      DistinctCard(s[1..]);
      assert s[0] !in Elems(s[1..]);
      assert Elems(s) == Elems(s[1..]) + {s[0]};
    }
  }

  /** A chain of distinct recorded names is no longer than the table of records. */
  lemma ChainBound(st: State, inh: seq<Name>)
    requires TableWf(st)
    requires forall k :: 0 <= k < |inh| ==> inh[k] in st.table
    requires forall a, b :: 0 <= a < b < |inh| ==> inh[a] != inh[b]
    ensures |inh| <= |st.recs|
  {
    var idx := seq(|inh|, k requires 0 <= k < |inh| => st.table[inh[k]]);
    forall a, b | 0 <= a < b < |idx|
      ensures idx[a] != idx[b]
    {
      assert st.recs[idx[a]].decl.name == inh[a];
    }
    DistinctCard(idx);
    SubsetBound(Elems(idx), |st.recs|);
  }

  /**
   * Over a resolved table the join of two resolved classes is their least common ancestor:
   * an ancestor of both, and a descendant of every common ancestor.
   */
  lemma JoinIsLeastCommonAncestor(st: State, l: Name, r: Name) returns (j: Name)
    requires Resolved(st) && Known(st, l) && Known(st, r)
    ensures Join(st, l, r) == Some(j)
    ensures Common(st, j, l, r)
    ensures forall a :: Common(st, a, l, r) ==> Conforms(st, a, j)
  {
    var L, R := Rec(st, l).inh, Rec(st, r).inh;
    AscentObjectTop(st, l);
    AscentObjectTop(st, r);
    AscentReflexive(st, l);
    AscentReflexive(st, r);
    if l == Object || r == Object {
      j := Object;
    } else if r in L {
      j := r;
    } else if l in R {
      j := l;
    } else {
      ChainShape(st, l);
      ChainShape(st, r);
      forall a | 0 <= a < |R| ensures R[a] in st.table {
        ChainAt(st, r, a);
      }
      forall a, b | 0 <= a < b < |R| ensures R[a] != R[b] {
        ChainNoRepeat(st, r, a, b);
      }
      ChainBound(st, R);
      var m := ClimbFinds(st, L, r, |st.recs|, |R| - 1);
      j := R[m];
      ChainAt(st, r, m);
      forall a | Common(st, a, l, r)
        ensures Conforms(st, a, j)
      {
        var i :| 0 <= i < |R| && R[i] == a;
        assert R[i] in L;
        assert a == R[m..][i - m];
      }
    }
  }

  /** The join does not depend on the order of its arguments. */
  lemma JoinCommutes(st: State, l: Name, r: Name)
    requires Resolved(st) && Known(st, l) && Known(st, r)
    ensures Join(st, l, r) == Join(st, r, l)
  {
    var j1 := JoinIsLeastCommonAncestor(st, l, r);
    var j2 := JoinIsLeastCommonAncestor(st, r, l);
    var _ := AncestorSuffix(st, j1, l);
    AscentAntisymmetric(st, j2, j1);
  }
}

=== FILE: layout.dfy ===
/**
 * The object layout the code generator computes in one depth-first walk of the inheritance
 * tree (`CgenNode::set_info`): class tags in preorder, dispatch slots numbered densely with
 * overrides reusing the inherited slot, and attribute tables that extend the parent's.
 */
module Layout {
  import opened Wrappers
  import opened Names
  import opened Ast
  import opened CgenTable

  /** A dispatch-table entry: the class whose code runs (`className`) and the slot (`methodTag`). */
  datatype MethodSlot = MethodSlot(owner: Name, tag: nat)

  /** An attribute of a layout with the class that declares it. */
  datatype AttrSlot = AttrSlot(owner: Name, name: Name, typeDecl: Name)

  /**
   * What `set_info` records for one class: its tag, its method table and attribute table,
   * the tag of its parent (-1 for the root of the walk) and `end`, the value its call
   * returns: one past the last tag given to its subtree.
   */
  datatype ClassInfo = ClassInfo(decl: ClassDecl, tag: nat, end: nat, parent: int,
                                 methods: map<Name, MethodSlot>, attrs: seq<AttrSlot>)

  /** The slots of a method table are exactly 0 .. size-1, each used by one method. */
  ghost predicate Dense(ms: map<Name, MethodSlot>) {
    && (forall m :: m in ms ==> ms[m].tag < |ms|)
    && (forall a, b :: a in ms && b in ms && a != b ==> ms[a].tag != ms[b].tag)
    && (forall i :: 0 <= i < |ms| ==> SlotUsed(ms, i))
  }

  ghost predicate SlotUsed(ms: map<Name, MethodSlot>, i: nat) {
    exists m :: m in ms && ms[m].tag == i
  }

  /** Every method of `ms` is in `ms'` at the same slot. */
  ghost predicate KeepsSlots(ms: map<Name, MethodSlot>, ms': map<Name, MethodSlot>) {
    forall m :: m in ms ==> m in ms' && ms'[m].tag == ms[m].tag
  }

  predicate DeclaresMethod(fs: seq<Feature>, m: Name) {
    exists k :: 0 <= k < |fs| && fs[k].Method? && fs[k].name == m
  }

  /** The attributes a class declares, in declaration order. */
  function OwnAttrs(cls: Name, fs: seq<Feature>): (r: seq<AttrSlot>)
    ensures |r| <= |fs|
  {
    if |fs| == 0 then []
    else (if fs[0].Attr? then [AttrSlot(cls, fs[0].name, fs[0].typeDecl)] else []) + OwnAttrs(cls, fs[1..])
  }

  lemma DeclaresCons(fs: seq<Feature>)
    requires |fs| > 0
    ensures forall m :: DeclaresMethod(fs, m) <==> (fs[0].Method? && fs[0].name == m) || DeclaresMethod(fs[1..], m)
  {
    var f, rest := fs[0], fs[1..];
    forall m ensures DeclaresMethod(fs, m) ==> (f.Method? && f.name == m) || DeclaresMethod(rest, m) {
      if DeclaresMethod(fs, m) {
        var k :| 0 <= k < |fs| && fs[k].Method? && fs[k].name == m;
        if k > 0 { assert rest[k - 1] == fs[k]; }
      }
    }
    forall m ensures DeclaresMethod(rest, m) ==> DeclaresMethod(fs, m) {
      if DeclaresMethod(rest, m) {
        var k :| 0 <= k < |rest| && rest[k].Method? && rest[k].name == m;
        assert fs[k + 1] == rest[k];
      }
    }
  }

  lemma DenseOverride(ms: map<Name, MethodSlot>, m: Name, cls: Name)
    requires Dense(ms) && m in ms
    ensures Dense(ms[m := MethodSlot(cls, ms[m].tag)])
    ensures KeepsSlots(ms, ms[m := MethodSlot(cls, ms[m].tag)])
  {
    var ms' := ms[m := MethodSlot(cls, ms[m].tag)];
    assert ms'.Keys == ms.Keys;
    assert |ms'| == |ms|;
    forall i | 0 <= i < |ms'| ensures SlotUsed(ms', i) {
      assert SlotUsed(ms, i);
      var x :| x in ms && ms[x].tag == i;
      assert ms'[x].tag == i;
    }
  }

  lemma DenseExtend(ms: map<Name, MethodSlot>, m: Name, cls: Name)
    requires Dense(ms) && m !in ms
    ensures |ms[m := MethodSlot(cls, |ms|)]| == |ms| + 1
    ensures Dense(ms[m := MethodSlot(cls, |ms|)])
    ensures KeepsSlots(ms, ms[m := MethodSlot(cls, |ms|)])
  {
    var ms' := ms[m := MethodSlot(cls, |ms|)];
    assert ms'.Keys == ms.Keys + {m};
    forall i | 0 <= i < |ms'| ensures SlotUsed(ms', i) {
      if i < |ms| {
        assert SlotUsed(ms, i);
        var x :| x in ms && ms[x].tag == i;
        assert ms'[x].tag == i;
      } else {
        assert ms'[m].tag == i;
      }
    }
  }

  /**
   * One feature in the loop of `set_info`: a method whose name is already in the table takes
   * over its slot, a new name takes the next slot, counted from the table's size; an
   * attribute is appended.
   */
  function AddFeature(cls: Name, f: Feature, ms: map<Name, MethodSlot>, attrs: seq<AttrSlot>)
    : (r: (map<Name, MethodSlot>, seq<AttrSlot>))
    requires Dense(ms)
    ensures Dense(r.0) && KeepsSlots(ms, r.0)
    ensures forall m :: m in r.0 <==> m in ms || (f.Method? && f.name == m)
    ensures f.Method? ==> r.0[f.name].owner == cls
    ensures f.Method? && f.name !in ms ==> r.0[f.name].tag == |ms|
    ensures forall m :: m in ms && !(f.Method? && f.name == m) ==> r.0[m] == ms[m]
    ensures r.1 == attrs + OwnAttrs(cls, [f])
  {
    match f
    case Method(m, _, _, _) =>
      var slot := if m in ms then ms[m].tag else |ms|;
      var ms' := ms[m := MethodSlot(cls, slot)];
      if m in ms then
        DenseOverride(ms, m, cls);
        (ms', attrs)
      else
        DenseExtend(ms, m, cls);
        (ms', attrs)
    case Attr(a, t, _) =>
      (ms, attrs + [AttrSlot(cls, a, t)])
  }

  /** The feature loop of `set_info`, over the class's features in declaration order. */
  function AddFeatures(cls: Name, fs: seq<Feature>, ms: map<Name, MethodSlot>, attrs: seq<AttrSlot>)
    : (r: (map<Name, MethodSlot>, seq<AttrSlot>))
    requires Dense(ms)
    ensures Dense(r.0) && KeepsSlots(ms, r.0)
    ensures forall m :: m in r.0 <==> m in ms || DeclaresMethod(fs, m)
    ensures forall m :: DeclaresMethod(fs, m) ==> r.0[m].owner == cls
    ensures forall m :: m in ms && !DeclaresMethod(fs, m) ==> r.0[m] == ms[m]
    ensures r.1 == attrs + OwnAttrs(cls, fs)
    decreases |fs|
  {
    if |fs| == 0 then (ms, attrs)
    else
      var s := AddFeature(cls, fs[0], ms, attrs);
      var r := AddFeatures(cls, fs[1..], s.0, s.1);
      DeclaresCons(fs);
      OwnAttrsCons(cls, fs);
      r
  }

  lemma OwnAttrsCons(cls: Name, fs: seq<Feature>)
    requires |fs| > 0
    ensures OwnAttrs(cls, fs) == OwnAttrs(cls, [fs[0]]) + OwnAttrs(cls, fs[1..])
  {
    assert [fs[0]][1..] == [];
  }

  // ---------------------------------------------------------------------------------
  // The walk

  /** The class names of a tree in depth-first preorder, children in list order. */
  function Preorder(t: Tree): (r: seq<Name>)
    ensures |r| >= 1 && r[0] == t.decl.name
    decreases t, 1
  {
    [t.decl.name] + PreorderForest(t.kids)
  }

  function PreorderForest(ks: seq<Tree>): seq<Name>
    decreases ks, 0
  {
    if |ks| == 0 then [] else Preorder(ks[0]) + PreorderForest(ks[1..])
  }

  /** The tag list: the class names of the layouts in tag order. */
  function TagList(L: seq<ClassInfo>): (r: seq<Name>)
    ensures |r| == |L| && forall k :: 0 <= k < |L| ==> r[k] == L[k].decl.name
  {
    if |L| == 0 then [] else [L[0].decl.name] + TagList(L[1..])
  }

  /**
   * Class `j` lies in the subtree of class `k`: following parent tags from `j` reaches `k`
   * (positions are tags less `base`).
   */
  ghost predicate Desc(L: seq<ClassInfo>, base: int, j: nat, k: nat)
    requires j < |L|
    decreases j
  {
    j == k || (base <= L[j].parent < base + j && Desc(L, base, L[j].parent - base, k))
  }

  /** Tags run consecutively from `tag`, and each class's range ends inside the block. */
  ghost predicate Tags(L: seq<ClassInfo>, tag: int) {
    forall k :: 0 <= k < |L| ==> L[k].tag == tag + k && L[k].tag < L[k].end <= tag + |L|
  }

  /** Each class's parent is `parent` or a class laid out earlier in the block. */
  ghost predicate Parents(L: seq<ClassInfo>, tag: int, parent: int) {
    forall k :: 0 <= k < |L| ==> L[k].parent == parent || tag <= L[k].parent < tag + k
  }

  /** The tag range of each class is exactly its subtree: the range test of a case branch. */
  ghost predicate Contiguous(L: seq<ClassInfo>, tag: int) {
    forall k, j :: 0 <= k < |L| && 0 <= j < |L| ==> (L[k].tag <= L[j].tag < L[k].end <==> Desc(L, tag, j, k))
  }

  /**
   * Each class starts from its parent's tables (`ms` and `attrs` for the classes whose parent
   * is `parent`): its attribute table is the parent's followed by its own attributes, its
   * method table keeps every inherited slot, and its slots are dense.
   */
  ghost predicate Inherits(L: seq<ClassInfo>, tag: int, parent: int, ms: map<Name, MethodSlot>, attrs: seq<AttrSlot>)
    requires Parents(L, tag, parent) && parent < tag
  {
    forall k :: 0 <= k < |L| ==>
      && Dense(L[k].methods)
      && (L[k].parent == parent ==>
            L[k].attrs == attrs + OwnAttrs(L[k].decl.name, L[k].decl.features) && KeepsSlots(ms, L[k].methods))
      && (L[k].parent != parent ==>
            var p := L[L[k].parent - tag];
            L[k].attrs == p.attrs + OwnAttrs(L[k].decl.name, L[k].decl.features) && KeepsSlots(p.methods, L[k].methods))
  }

  /** Everything `set_info` establishes for the block of classes it lays out from tag `tag`. */
  ghost predicate Laid(L: seq<ClassInfo>, tag: int, parent: int, ms: map<Name, MethodSlot>, attrs: seq<AttrSlot>) {
    && parent < tag && Tags(L, tag) && Parents(L, tag, parent)
    && Inherits(L, tag, parent, ms, attrs) && Contiguous(L, tag)
  }

  /**
   * `set_info`: the class takes tag `tag` and goes on the tag list, registers its features on
   * top of the tables copied from its parent, and then each child, in list order, is laid
   * out from the next free tag on copies of this class's tables. The result lists the
   * classes of the subtree in tag order.
   */
  function SetInfo(t: Tree, tag: nat, parent: int, ms: map<Name, MethodSlot>, attrs: seq<AttrSlot>): (L: seq<ClassInfo>)
    requires Dense(ms) && parent < tag
    ensures |L| >= 1 && L[0].decl == t.decl && L[0].parent == parent && L[0].end == tag + |L|
    ensures Laid(L, tag, parent, ms, attrs)
    ensures TagList(L) == Preorder(t)
    decreases t, 1
  {
    var own := AddFeatures(t.decl.name, t.decl.features, ms, attrs);
    var K := SetInfoKids(t.kids, tag + 1, tag, own.0, own.1);
    var root := ClassInfo(t.decl, tag, tag + 1 + |K|, parent, own.0, own.1);
    LaidCons(root, K, tag, parent, ms, attrs);
    TagListAppend([root], K);
    [root] + K
  }

  /** The children of one class, laid out one after another from tag `tag`. */
  function SetInfoKids(ks: seq<Tree>, tag: nat, parent: int, ms: map<Name, MethodSlot>, attrs: seq<AttrSlot>): (L: seq<ClassInfo>)
    requires Dense(ms) && parent < tag
    ensures Laid(L, tag, parent, ms, attrs)
    ensures TagList(L) == PreorderForest(ks)
    ensures Childless(ks) ==> forall k :: 0 <= k < |L| ==> L[k].end == tag + k + 1
    decreases ks, 0
  {
    if |ks| == 0 then []
    else
      var A := SetInfo(ks[0], tag, parent, ms, attrs);
      var B := SetInfoKids(ks[1..], tag + |A|, parent, ms, attrs);
      LaidAppend(A, B, tag, parent, ms, attrs);
      TagListAppend(A, B);
      LeafSize(ks[0], A);
      ChildlessTail(ks);
      EndsAppend(A, B, tag);
      A + B
  }

  /** None of the classes has children. */
  ghost predicate Childless(ks: seq<Tree>) {
    forall k :: 0 <= k < |ks| ==> ks[k].kids == []
  }

  lemma ChildlessTail(ks: seq<Tree>)
    requires |ks| > 0
    ensures Childless(ks) ==> ks[0].kids == [] && Childless(ks[1..])
  {
    if Childless(ks) {
      assert forall k :: 0 <= k < |ks| - 1 ==> ks[1..][k] == ks[k + 1];
    }
  }

  /** A childless class lays out as a single class. */
  lemma LeafSize(t: Tree, A: seq<ClassInfo>)
    ensures t.kids == [] && TagList(A) == Preorder(t) ==> |A| == 1
  {
    if t.kids == [] {
      assert Preorder(t) == [t.decl.name];
    }
  }

  /** A block of one class with range of one, followed by a block of such classes. */
  lemma EndsAppend(A: seq<ClassInfo>, B: seq<ClassInfo>, tag: int)
    ensures (|A| == 1 && A[0].end == tag + 1 && forall k :: 0 <= k < |B| ==> B[k].end == tag + 1 + k + 1) ==>
            forall k :: 0 <= k < |A + B| ==> (A + B)[k].end == tag + k + 1
  {
  }

  lemma TagListAppend(A: seq<ClassInfo>, B: seq<ClassInfo>)
    ensures TagList(A + B) == TagList(A) + TagList(B)
  {
  }

  // ---------------------------------------------------------------------------------
  // Subtree facts

  lemma {:induction false} DescBelow(L: seq<ClassInfo>, base: int, j: nat, k: nat)
    requires j < |L| && Desc(L, base, j, k)
    ensures k <= j
    decreases j
  {
    if j != k {
      DescBelow(L, base, L[j].parent - base, k);
    }
  }

  /** Following parents from a class in a prefix stays in the prefix. */
  lemma {:induction false} DescPrefix(A: seq<ClassInfo>, B: seq<ClassInfo>, base: int, j: nat, k: nat)
    requires j < |A|
    ensures Desc(A + B, base, j, k) == Desc(A, base, j, k)
    decreases j
  {
    assert (A + B)[j] == A[j];
    var p := A[j].parent;
    if j != k && base <= p < base + j {
      DescPrefix(A, B, base, p - base, k);
    }
  }

  /**
   * Following parents from a class of a suffix block reaches a class of the block exactly as
   * within the block, when the block's outer parent lies before it.
   */
  lemma {:induction false} DescSuffix(A: seq<ClassInfo>, B: seq<ClassInfo>, base: int, bp: int, j: nat, k: nat)
    requires j < |B| && |A| <= k && Parents(B, base + |A|, bp) && bp < base + |A|
    ensures Desc(A + B, base, |A| + j, k) == Desc(B, base + |A|, j, k - |A|)
    decreases j
  {
    assert (A + B)[|A| + j] == B[j];
    var p := B[j].parent;
    if |A| + j != k {
      if base + |A| <= p < base + |A| + j {
        DescSuffix(A, B, base, bp, p - base - |A|, k);
      } else if base <= p < base + |A| + j {
        if Desc(A + B, base, p - base, k) {
          DescBelow(A + B, base, p - base, k);
        }
      }
    }
  }

  /** Following parents from a class of a block whose outer parent lies before `base` never leaves it. */
  lemma {:induction false} DescOutside(A: seq<ClassInfo>, B: seq<ClassInfo>, base: int, bp: int, j: nat, k: nat)
    requires j < |B| && k < |A| && Parents(B, base + |A|, bp) && bp < base
    ensures !Desc(A + B, base, |A| + j, k)
    decreases j
  {
    assert (A + B)[|A| + j] == B[j];
    var p := B[j].parent;
    if base <= p < base + |A| + j {
      DescOutside(A, B, base, bp, p - base - |A|, k);
    }
  }

  /** In a block whose classes all have their parents inside it, everything descends from the first. */
  lemma {:induction false} DescRoot(L: seq<ClassInfo>, base: int, j: nat)
    requires j < |L| && forall k :: 0 < k < |L| ==> base <= L[k].parent < base + k
    ensures Desc(L, base, j, 0)
    decreases j
  {
    if j > 0 {
      DescRoot(L, base, L[j].parent - base);
    }
  }

  // ---------------------------------------------------------------------------------
  // Composing blocks

  /** A class followed by its children's block is the block of its subtree. */
  lemma LaidCons(root: ClassInfo, K: seq<ClassInfo>, tag: nat, parent: int, ms: map<Name, MethodSlot>, attrs: seq<AttrSlot>)
    requires Dense(ms) && parent < tag
    requires root.tag == tag && root.end == tag + 1 + |K| && root.parent == parent
    requires Dense(root.methods) && KeepsSlots(ms, root.methods)
    requires root.attrs == attrs + OwnAttrs(root.decl.name, root.decl.features)
    requires Laid(K, tag + 1, tag, root.methods, root.attrs)
    ensures Laid([root] + K, tag, parent, ms, attrs)
  {
    ConsTags(root, K, tag);
    ConsParents(root, K, tag, parent);
    ConsInherits(root, K, tag, parent, ms, attrs);
    ConsContiguous(root, K, tag, parent);
  }

  lemma ConsTags(root: ClassInfo, K: seq<ClassInfo>, tag: int)
    requires root.tag == tag && root.end == tag + 1 + |K| && Tags(K, tag + 1)
    ensures Tags([root] + K, tag)
  {
    var L := [root] + K;
    forall k | 0 <= k < |L| ensures L[k].tag == tag + k && L[k].tag < L[k].end <= tag + |L| {
      if k > 0 { assert L[k] == K[k - 1]; }
    }
  }

  lemma ConsParents(root: ClassInfo, K: seq<ClassInfo>, tag: int, parent: int)
    requires root.parent == parent && Parents(K, tag + 1, tag)
    ensures Parents([root] + K, tag, parent)
    ensures forall k :: 0 < k < |K| + 1 ==> tag <= ([root] + K)[k].parent < tag + k
  {
    var L := [root] + K;
    forall k | 0 < k < |L| ensures tag <= L[k].parent < tag + k {
      assert L[k] == K[k - 1];
    }
  }

  lemma ConsInherits(root: ClassInfo, K: seq<ClassInfo>, tag: int, parent: int, ms: map<Name, MethodSlot>, attrs: seq<AttrSlot>)
    requires parent < tag && root.parent == parent
    requires Dense(root.methods) && KeepsSlots(ms, root.methods)
    requires root.attrs == attrs + OwnAttrs(root.decl.name, root.decl.features)
    requires Parents(K, tag + 1, tag) && Inherits(K, tag + 1, tag, root.methods, root.attrs)
    ensures Parents([root] + K, tag, parent) && Inherits([root] + K, tag, parent, ms, attrs)
  {
    ConsParents(root, K, tag, parent);
    var L := [root] + K;
    forall k | 0 <= k < |L|
      ensures Dense(L[k].methods)
      ensures L[k].parent == parent ==>
                L[k].attrs == attrs + OwnAttrs(L[k].decl.name, L[k].decl.features) && KeepsSlots(ms, L[k].methods)
      ensures L[k].parent != parent ==>
                var p := L[L[k].parent - tag];
                L[k].attrs == p.attrs + OwnAttrs(L[k].decl.name, L[k].decl.features) && KeepsSlots(p.methods, L[k].methods)
    {
      if k > 0 {
        assert L[k] == K[k - 1];
        if K[k - 1].parent != tag {
          assert L[L[k].parent - tag] == K[K[k - 1].parent - (tag + 1)];
        }
      }
    }
  }

  lemma ConsContiguous(root: ClassInfo, K: seq<ClassInfo>, tag: int, parent: int)
    requires parent < tag && root.tag == tag && root.end == tag + 1 + |K| && root.parent == parent
    requires Tags(K, tag + 1) && Parents(K, tag + 1, tag) && Contiguous(K, tag + 1)
    ensures Contiguous([root] + K, tag)
  {
    ConsTags(root, K, tag);
    ConsParents(root, K, tag, parent);
    var L := [root] + K;
    forall k, j | 0 <= k < |L| && 0 <= j < |L|
      ensures L[k].tag <= L[j].tag < L[k].end <==> Desc(L, tag, j, k)
    {
      if k == 0 {
        DescRoot(L, tag, j);
      } else if j > 0 {
        DescSuffix([root], K, tag, tag, j - 1, k);
        assert L[j] == K[j - 1] && L[k] == K[k - 1];
      } else {
        assert !Desc(L, tag, 0, k);
      }
    }
  }

  /** Two sibling blocks laid out one after the other form one block. */
  lemma LaidAppend(A: seq<ClassInfo>, B: seq<ClassInfo>, tag: nat, parent: int, ms: map<Name, MethodSlot>, attrs: seq<AttrSlot>)
    requires Laid(A, tag, parent, ms, attrs) && Laid(B, tag + |A|, parent, ms, attrs)
    ensures Laid(A + B, tag, parent, ms, attrs)
  {
    AppendTags(A, B, tag);
    AppendParents(A, B, tag, parent);
    AppendInherits(A, B, tag, parent, ms, attrs);
    AppendContiguous(A, B, tag, parent);
  }

  lemma AppendTags(A: seq<ClassInfo>, B: seq<ClassInfo>, tag: int)
    requires Tags(A, tag) && Tags(B, tag + |A|)
    ensures Tags(A + B, tag)
  {
    var L := A + B;
    forall k | 0 <= k < |L| ensures L[k].tag == tag + k && L[k].tag < L[k].end <= tag + |L| {
      if k < |A| { assert L[k] == A[k]; } else { assert L[k] == B[k - |A|]; }
    }
  }

  lemma AppendParents(A: seq<ClassInfo>, B: seq<ClassInfo>, tag: int, parent: int)
    requires Parents(A, tag, parent) && Parents(B, tag + |A|, parent)
    ensures Parents(A + B, tag, parent)
  {
    var L := A + B;
    forall k | 0 <= k < |L| ensures L[k].parent == parent || tag <= L[k].parent < tag + k {
      if k < |A| { assert L[k] == A[k]; } else { assert L[k] == B[k - |A|]; }
    }
  }

  lemma AppendInherits(A: seq<ClassInfo>, B: seq<ClassInfo>, tag: int, parent: int, ms: map<Name, MethodSlot>, attrs: seq<AttrSlot>)
    requires parent < tag
    requires Parents(A, tag, parent) && Parents(B, tag + |A|, parent)
    requires Inherits(A, tag, parent, ms, attrs) && Inherits(B, tag + |A|, parent, ms, attrs)
    ensures Parents(A + B, tag, parent) && Inherits(A + B, tag, parent, ms, attrs)
  {
    AppendParents(A, B, tag, parent);
    var L := A + B;
    forall k | 0 <= k < |L|
      ensures Dense(L[k].methods)
      ensures L[k].parent == parent ==>
            L[k].attrs == attrs + OwnAttrs(L[k].decl.name, L[k].decl.features) && KeepsSlots(ms, L[k].methods)
      ensures L[k].parent != parent ==>
            var p := L[L[k].parent - tag];
            L[k].attrs == p.attrs + OwnAttrs(L[k].decl.name, L[k].decl.features) && KeepsSlots(p.methods, L[k].methods)
    {
      if k < |A| {
        assert L[k] == A[k];
        if A[k].parent != parent { assert L[A[k].parent - tag] == A[A[k].parent - tag]; }
      } else {
        assert L[k] == B[k - |A|];
        if B[k - |A|].parent != parent { assert L[B[k - |A|].parent - tag] == B[B[k - |A|].parent - (tag + |A|)]; }
      }
    }
  }

  lemma AppendContiguous(A: seq<ClassInfo>, B: seq<ClassInfo>, tag: int, parent: int)
    requires parent < tag
    requires Tags(A, tag) && Parents(A, tag, parent) && Contiguous(A, tag)
    requires Tags(B, tag + |A|) && Parents(B, tag + |A|, parent) && Contiguous(B, tag + |A|)
    ensures Contiguous(A + B, tag)
  {
    AppendTags(A, B, tag);
    var L := A + B;
    forall k, j | 0 <= k < |L| && 0 <= j < |L|
      ensures L[k].tag <= L[j].tag < L[k].end <==> Desc(L, tag, j, k)
    {
      if j < |A| {
        DescPrefix(A, B, tag, j, k);
        assert L[j] == A[j];
        if k < |A| {
          assert L[k] == A[k];
        } else {
          assert L[k] == B[k - |A|];
          if Desc(A, tag, j, k) { DescBelow(A, tag, j, k); }
        }
      } else if k < |A| {
        DescOutside(A, B, tag, parent, j - |A|, k);
        assert L[k] == A[k] && L[j] == B[j - |A|];
      } else {
        DescSuffix(A, B, tag, parent, j - |A|, k);
        assert L[k] == B[k - |A|] && L[j] == B[j - |A|];
      }
    }
  }

  // ---------------------------------------------------------------------------------
  // Lookups over the finished layout

  /** `get_classtag`: the position of the first occurrence of `n` in the tag list, or its length. */
  function ClassTag(tagList: seq<Name>, n: Name): (k: nat)
    ensures k <= |tagList|
    ensures k < |tagList| ==> tagList[k] == n
    ensures forall j :: 0 <= j < k ==> tagList[j] != n
  {
    if |tagList| == 0 || tagList[0] == n then 0 else 1 + ClassTag(tagList[1..], n)
  }

  ghost predicate Distinct(s: seq<Name>) {
    forall i, j :: 0 <= i < j < |s| ==> s[i] != s[j]
  }

  /**
   * With distinct class names, `get_classtag` inverts the numbering of the walk: each class's
   * tag is its position on the tag list, and a name that was never laid out gets the list's length.
   */
  lemma ClassTagOfLaid(L: seq<ClassInfo>, parent: int, ms: map<Name, MethodSlot>, attrs: seq<AttrSlot>, n: Name)
    requires Laid(L, 0, parent, ms, attrs) && Distinct(TagList(L))
    ensures forall k :: 0 <= k < |L| ==> ClassTag(TagList(L), L[k].decl.name) == L[k].tag
    ensures n !in TagList(L) ==> ClassTag(TagList(L), n) == |L|
  {
    var tl := TagList(L);
    forall k | 0 <= k < |L| ensures ClassTag(tl, L[k].decl.name) == L[k].tag {
      var c := ClassTag(tl, L[k].decl.name);
      assert tl[k] == L[k].decl.name;
    }
  }

  /** `get_attrtag`: the index of the first attribute named `a`, or -1 when there is none. */
  function AttrTag(attrs: seq<AttrSlot>, a: Name): (k: int)
    ensures -1 <= k < |attrs|
    ensures k >= 0 ==> attrs[k].name == a
    ensures k == -1 <==> forall j :: 0 <= j < |attrs| ==> attrs[j].name != a
    ensures forall j :: 0 <= j < k ==> attrs[j].name != a
  {
    if |attrs| == 0 then -1
    else if attrs[0].name == a then 0
    else var k := AttrTag(attrs[1..], a); if k == -1 then -1 else k + 1
  }

  /**
   * An attribute found in a prefix of the table is found at the same index in the whole table,
   * and one missing from the prefix is found, if at all, after it.
   */
  lemma {:induction false} AttrTagAppend(p: seq<AttrSlot>, q: seq<AttrSlot>, a: Name)
    ensures AttrTag(p, a) >= 0 ==> AttrTag(p + q, a) == AttrTag(p, a)
    ensures AttrTag(p, a) == -1 ==> AttrTag(p + q, a) == (if AttrTag(q, a) == -1 then -1 else |p| + AttrTag(q, a))
  {
    if |p| > 0 {
      assert (p + q)[1..] == p[1..] + q;
      AttrTagAppend(p[1..], q, a);
    } else {
      assert p + q == q;
    }
  }

  /**
   * In a laid-out block, a class's attribute table starts with its parent's, so every inherited
   * attribute keeps the offset it has in the parent, and the class's own attributes follow.
   */
  lemma AttrTagInherited(L: seq<ClassInfo>, tag: int, parent: int, ms: map<Name, MethodSlot>, attrs: seq<AttrSlot>, k: nat, a: Name)
    requires Laid(L, tag, parent, ms, attrs) && k < |L| && L[k].parent != parent
    ensures var p := L[L[k].parent - tag];
            && |p.attrs| <= |L[k].attrs| && L[k].attrs[..|p.attrs|] == p.attrs
            && (AttrTag(p.attrs, a) >= 0 ==> AttrTag(L[k].attrs, a) == AttrTag(p.attrs, a))
  {
    var p := L[L[k].parent - tag];
    var own := OwnAttrs(L[k].decl.name, L[k].decl.features);
    assert L[k].attrs == p.attrs + own;
    assert (p.attrs + own)[..|p.attrs|] == p.attrs;
    AttrTagAppend(p.attrs, own, a);
  }

  /** The header words of every object: class tag, size and dispatch pointer, as laid out by `code_prot_objs`. */
  const DefaultObjFields: nat := 3

  /** The size in words of a class's prototype object. */
  function ProtoSize(c: ClassInfo): nat {
    DefaultObjFields + |c.attrs|
  }

  /** A subclass's prototype is its parent's plus one word for each attribute it declares. */
  lemma ProtoSizeInherited(L: seq<ClassInfo>, tag: int, parent: int, ms: map<Name, MethodSlot>, attrs: seq<AttrSlot>, k: nat)
    requires Laid(L, tag, parent, ms, attrs) && k < |L| && L[k].parent != parent
    ensures ProtoSize(L[k]) == ProtoSize(L[L[k].parent - tag]) + |OwnAttrs(L[k].decl.name, L[k].decl.features)|
    ensures ProtoSize(L[k]) >= DefaultObjFields + |attrs|
  {
    AttrsBelowGrow(L, tag, parent, ms, attrs, k);
  }

  /** Every attribute table of a block extends the tables the block started from. */
  lemma {:induction false} AttrsBelowGrow(L: seq<ClassInfo>, tag: int, parent: int, ms: map<Name, MethodSlot>, attrs: seq<AttrSlot>, k: nat)
    requires Laid(L, tag, parent, ms, attrs) && k < |L|
    ensures |L[k].attrs| >= |attrs|
    decreases k
  {
    if L[k].parent != parent {
      AttrsBelowGrow(L, tag, parent, ms, attrs, L[k].parent - tag);
    }
  }

  /** A slot of a dispatch table: unfilled, or the method `name` as implemented by class `owner`. */
  datatype DispEntry = Unfilled | Entry(owner: Name, name: Name)

  /**
   * `get_method_disp_table`: the caller's array of one slot per method is filled by writing each
   * method of the table at its slot. Since the slots are dense, every slot is written, each
   * with the one method that has that slot.
   */
  method DispTable(ms: map<Name, MethodSlot>) returns (disp: seq<DispEntry>)
    requires Dense(ms)
    ensures |disp| == |ms|
    ensures forall m :: m in ms ==> disp[ms[m].tag] == Entry(ms[m].owner, m)
    ensures forall i :: 0 <= i < |disp| ==> disp[i].Entry? && disp[i].name in ms && ms[disp[i].name].tag == i
  {
    disp := seq(|ms|, _ => Unfilled);
    var rest := ms.Keys;
    while rest != {}
      invariant rest <= ms.Keys && |disp| == |ms|
      invariant forall m :: m in ms && m !in rest ==> disp[ms[m].tag] == Entry(ms[m].owner, m)
      decreases |rest|
    {
      var m :| m in rest;
      disp := disp[ms[m].tag := Entry(ms[m].owner, m)];
      rest := rest - {m};
    }
    forall i | 0 <= i < |disp| ensures disp[i].Entry? && disp[i].name in ms && ms[disp[i].name].tag == i {
      assert SlotUsed(ms, i);
    }
  }

  // ---------------------------------------------------------------------------------
  // Which classes the walk reaches

  lemma {:induction false} ForestRoots(ks: seq<Tree>)
    ensures forall i :: 0 <= i < |ks| ==> ks[i].decl.name in PreorderForest(ks)
    decreases |ks|
  {
    if |ks| > 0 {
      ForestRoots(ks[1..]);
      assert forall i :: 1 <= i < |ks| ==> ks[i] == ks[1..][i - 1];
    }
  }

  /** Every class of the tree below a rooted class `n` is rooted, and listed unless it is `n`. */
  lemma TreeRooted(t: Table, l: Links, n: Name, fuel: nat)
    requires Wf(t) && KidsBelow(t, l) && n in t.classes && Rooted(t, n)
    requires forall p :: p in l.children ==> forall k :: 0 <= k < |l.children[p]| ==> l.children[p][k] in t.classes
    requires BuildTree(t, l, n, fuel).Some?
    ensures forall x :: x in Preorder(BuildTree(t, l, n, fuel).value) ==> Rooted(t, x) && (x == n || x in t.nds)
    decreases fuel, 1
  {
    var ns := Kids(l, n);
    var ks := BuildForest(t, l, ns, fuel - 1).value;
    assert BuildTree(t, l, n, fuel).value == Node(t.classes[n], ks);
    forall k | 0 <= k < |ns| ensures Rooted(t, ns[k]) {
      RootedChild(t, ns[k]);
    }
    ForestRooted(t, l, ns, fuel - 1);
  }

  lemma ForestRooted(t: Table, l: Links, ns: seq<Name>, fuel: nat)
    requires Wf(t) && KidsBelow(t, l)
    requires forall k :: 0 <= k < |ns| ==> ns[k] in t.nds && ns[k] in t.classes && Rooted(t, ns[k])
    requires forall p :: p in l.children ==> forall k :: 0 <= k < |l.children[p]| ==> l.children[p][k] in t.classes
    requires BuildForest(t, l, ns, fuel).Some?
    ensures forall x :: x in PreorderForest(BuildForest(t, l, ns, fuel).value) ==> Rooted(t, x) && x in t.nds
    decreases fuel + 1, 0, |ns|
  {
    if |ns| > 0 {
      var h := BuildTree(t, l, ns[0], fuel).value;
      var rest := BuildForest(t, l, ns[1..], fuel).value;
      TreeRooted(t, l, ns[0], fuel);
      ForestRooted(t, l, ns[1..], fuel);
      assert BuildForest(t, l, ns, fuel).value == [h] + rest;
      assert ([h] + rest)[1..] == rest;
    }
  }

  /** The children of every class of a built tree are classes of the tree too. */
  lemma TreeHasKids(t: Table, l: Links, n: Name, fuel: nat, x: Name)
    requires Wf(t) && n in t.classes
    requires forall p :: p in l.children ==> forall k :: 0 <= k < |l.children[p]| ==> l.children[p][k] in t.classes
    requires BuildTree(t, l, n, fuel).Some? && x in Preorder(BuildTree(t, l, n, fuel).value)
    ensures forall c :: c in Kids(l, x) ==> c in Preorder(BuildTree(t, l, n, fuel).value)
    decreases fuel, 1
  {
    var ns := Kids(l, n);
    var ks := BuildForest(t, l, ns, fuel - 1).value;
    var tree := BuildTree(t, l, n, fuel).value;
    assert tree == Node(t.classes[n], ks);
    assert Preorder(tree) == [n] + PreorderForest(ks);
    if x == n {
      ForestRoots(ks);
      forall c | c in Kids(l, x) ensures c in Preorder(tree) {
        var i :| 0 <= i < |ns| && ns[i] == c;
        assert ks[i].decl.name == c;
      }
    } else {
      ForestHasKids(t, l, ns, fuel - 1, x);
    }
  }

  lemma ForestHasKids(t: Table, l: Links, ns: seq<Name>, fuel: nat, x: Name)
    requires Wf(t) && forall k :: 0 <= k < |ns| ==> ns[k] in t.classes
    requires forall p :: p in l.children ==> forall k :: 0 <= k < |l.children[p]| ==> l.children[p][k] in t.classes
    requires BuildForest(t, l, ns, fuel).Some? && x in PreorderForest(BuildForest(t, l, ns, fuel).value)
    ensures forall c :: c in Kids(l, x) ==> c in PreorderForest(BuildForest(t, l, ns, fuel).value)
    decreases fuel + 1, 0, |ns|
  {
    var h := BuildTree(t, l, ns[0], fuel).value;
    var rest := BuildForest(t, l, ns[1..], fuel).value;
    assert BuildForest(t, l, ns, fuel).value == [h] + rest;
    assert ([h] + rest)[1..] == rest;
    if x in Preorder(h) {
      TreeHasKids(t, l, ns[0], fuel, x);
    } else {
      ForestHasKids(t, l, ns[1..], fuel, x);
    }
  }

  /** A class whose parent chain reaches Object within `k` steps is in the tree below Object. */
  lemma {:induction false} ReachedIsListed(t: Table, l: Links, fuel: nat, x: Name, k: nat)
    requires Wf(t) && Object in t.classes && LinkedByParent(t, l)
    requires forall p :: p in l.children ==> forall k :: 0 <= k < |l.children[p]| ==> l.children[p][k] in t.classes
    requires BuildTree(t, l, Object, fuel).Some? && RootedIn(t, x, k)
    ensures x in Preorder(BuildTree(t, l, Object, fuel).value)
    decreases k
  {
    if x != Object {
      var p := t.classes[x].parent;
      ReachedIsListed(t, l, fuel, p, k - 1);
      TreeHasKids(t, l, Object, fuel, p);
      KidsAreChildren(t, l, p);
    }
  }

  /**
   * Once every class is linked, the walk from Object is built within one level per listed
   * class, and it reaches exactly the listed classes whose parent chain reaches Object.
   */
  lemma WalkCovers(t: Table, l: Links)
    requires Wf(t) && Object in t.nds && Object in t.classes && t.classes[Object].parent !in t.nds
    requires LinkedByParent(t, l)
    requires forall p :: p in l.children ==> forall k :: 0 <= k < |l.children[p]| ==> l.children[p][k] in t.classes
    ensures BuildTree(t, l, Object, |t.nds| + 1).Some?
    ensures forall n :: n in Preorder(BuildTree(t, l, Object, |t.nds| + 1).value) <==> n in t.nds && Rooted(t, n)
  {
    LinkedKidsBelow(t, l);
    TreeSome(t, l, [Object], |t.nds| + 1);
    assert RootedIn(t, Object, 0);
    TreeRooted(t, l, Object, |t.nds| + 1);
    forall n | n in t.nds && Rooted(t, n)
      ensures n in Preorder(BuildTree(t, l, Object, |t.nds| + 1).value)
    {
      var k: nat :| RootedIn(t, n, k);
      ReachedIsListed(t, l, |t.nds| + 1, n, k);
    }
  }

  // ---------------------------------------------------------------------------------
  // The whole program

  /**
   * The code generator's class table from the constructor to `set_class_infos`: the basic
   * classes and then the program's classes are installed, every installed class is linked
   * below its parent, and the walk starts at Object with tag 0 and empty tables. There is a
   * layout exactly when every installed class's parent was installed too (otherwise
   * `set_parentnd` asserts against the null parent), and it gives tags to exactly the
   * installed classes whose parent chain reaches Object.
   */
  function ClassLayout(ds: seq<ClassDecl>): (r: Option<seq<ClassInfo>>)
    ensures var t := Installed(ds);
            r.Some? <==> forall k :: 0 <= k < |t.nds| ==> t.classes[t.nds[k]].parent in t.classes
    ensures r.Some? ==> Laid(r.value, 0, -1, map[], [])
    ensures r.Some? ==> |r.value| >= 1 && r.value[0].decl == ObjectDecl() && r.value[0].end == |r.value|
    ensures r.Some? ==> forall n :: n in TagList(r.value) <==> n in Installed(ds).nds && Rooted(Installed(ds), n)
  {
    LayoutFrom(Installed(ds))
  }

  /** The class table once the basic classes and then the program's classes are installed. */
  function Installed(ds: seq<ClassDecl>): (t: Table)
    ensures Wf(t) && Object in t.classes && t.classes[Object] == ObjectDecl()
    ensures Object in t.nds && t.classes[Object].parent !in t.nds
  {
    var b := BasicTable();
    InstallClasses(b, ds)
  }

  /**
   * `build_inheritance_tree` and the tree `set_info` walks from Object: None when a class's
   * parent is not installed.
   */
  function WalkTree(t: Table): (r: Option<Tree>)
    requires Wf(t) && Object in t.nds && Object in t.classes && t.classes[Object].parent !in t.nds
    ensures r.Some? <==> forall k :: 0 <= k < |t.nds| ==> t.classes[t.nds[k]].parent in t.classes
    ensures r.Some? ==> r.value.decl == t.classes[Object]
    ensures r.Some? ==> forall n :: n in Preorder(r.value) <==> n in t.nds && Rooted(t, n)
  {
    var l0 := Links(map[], map[]);
    BuildRelationsSucceeds(t, l0, t.nds);
    match BuildRelations(t, l0, t.nds)
    case None => None
    case Some(l) =>
      ChildrenInTable(t);
      ChildrenInInstallOrder(t);
      WalkCovers(t, l);
      BuildTree(t, l, Object, |t.nds| + 1)
  }

  /** The linking and the walk over an installed table that lists Object but not its parent. */
  function LayoutFrom(t: Table): (r: Option<seq<ClassInfo>>)
    requires Wf(t) && Object in t.nds && Object in t.classes && t.classes[Object].parent !in t.nds
    ensures r.Some? <==> forall k :: 0 <= k < |t.nds| ==> t.classes[t.nds[k]].parent in t.classes
    ensures r.Some? ==> Laid(r.value, 0, -1, map[], [])
    ensures r.Some? ==> |r.value| >= 1 && r.value[0].decl == t.classes[Object] && r.value[0].end == |r.value|
    ensures r.Some? ==> forall n :: n in TagList(r.value) <==> n in t.nds && Rooted(t, n)
  {
    match WalkTree(t)
    case None => None
    case Some(tree) => Some(SetInfo(tree, 0, -1, map[], []))
  }

  /**
   * When every listed class but Object has Object as its parent, the walk is Object with
   * every other class as a childless child, in installation order.
   */
  lemma StarWalk(t: Table)
    requires Wf(t) && Object in t.nds && Object in t.classes
    requires t.classes[Object].parent in t.classes && t.classes[Object].parent !in t.nds
    requires forall k :: 0 <= k < |t.nds| && t.nds[k] != Object ==> t.classes[t.nds[k]].parent == Object
    ensures forall k :: 0 <= k < |t.nds| ==> t.classes[t.nds[k]].parent in t.classes
    ensures WalkTree(t) == Some(Node(t.classes[Object], Leaves(t, WithParent(t, Reverse(t.nds), Object))))
  {
    var l0 := Links(map[], map[]);
    ChildrenInInstallOrder(t);
    ChildrenInTable(t);
    var l := BuildRelations(t, l0, t.nds).value;
    var ks := Kids(l, Object);
    KidsAreChildren(t, l, Object);
    forall k | 0 <= k < |ks| ensures Kids(l, ks[k]) == [] {
      var x := ks[k];
      assert x in ks;
      WithParentNone(t, Reverse(t.nds), x);
    }
    LeafForest(t, l, ks, |t.nds|);
  }

  /** With Object installed first, its children in such a table are all the other classes, in installation order. */
  lemma StarKids(t: Table)
    requires Wf(t) && |t.nds| > 0 && t.nds[|t.nds| - 1] == Object
    requires t.classes[Object].parent !in t.nds
    requires forall k :: 0 <= k < |t.nds| && t.nds[k] != Object ==> t.classes[t.nds[k]].parent == Object
    ensures WithParent(t, Reverse(t.nds), Object) == Reverse(t.nds)[1..]
  {
    var R := Reverse(t.nds);
    var ks := R[1..];
    forall k | 0 <= k < |ks| ensures ks[k] in t.classes && t.classes[ks[k]].parent == Object {
      assert ks[k] == t.nds[|t.nds| - 2 - k];
    }
    WithParentAll(t, ks, Object);
  }

  /** Childless classes laid out one after another: one layout per class, each range its own tag alone. */
  lemma LeavesLaid(ks: seq<Tree>, tag: nat, parent: int, ms: map<Name, MethodSlot>, attrs: seq<AttrSlot>)
    requires Dense(ms) && parent < tag
    requires Childless(ks)
    ensures var L := SetInfoKids(ks, tag, parent, ms, attrs);
            |L| == |ks| && forall k :: 0 <= k < |L| ==> L[k].end == tag + k + 1
  {
    LeavesPreorder(ks);
  }

  /** Object's block when all its children are childless: one tag per class, ranges of one. */
  lemma StarLaid(d: ClassDecl, ks: seq<Tree>)
    requires Childless(ks)
    ensures var L := SetInfo(Node(d, ks), 0, -1, map[], []);
            && |L| == |ks| + 1 && L[0].end == |L|
            && (forall k :: 1 <= k < |L| ==> L[k].end == k + 1)
            && TagList(L) == [d.name] + PreorderForest(ks)
            && (forall k :: 0 <= k < |ks| ==> PreorderForest(ks)[k] == ks[k].decl.name)
  {
    var own := AddFeatures(d.name, d.features, map[], []);
    LeavesLaid(ks, 1, 0, own.0, own.1);
    LeavesPreorder(ks);
  }

  /** Object over childless classes `ns`: the tag list is Object followed by `ns`, each class but Object alone in its range. */
  lemma StarTags(t: Table, ns: seq<Name>)
    requires Wf(t) && Object in t.classes && forall k :: 0 <= k < |ns| ==> ns[k] in t.classes
    ensures var L := SetInfo(Node(t.classes[Object], Leaves(t, ns)), 0, -1, map[], []);
            && |L| == |ns| + 1 && TagList(L) == [Object] + ns
            && L[0].end == |L| && forall k :: 1 <= k < |L| ==> L[k].end == k + 1
  {
    var ks := Leaves(t, ns);
    StarLaid(t.classes[Object], ks);
    var L := SetInfo(Node(t.classes[Object], ks), 0, -1, map[], []);
    forall k | 0 <= k < |ns| ensures PreorderForest(ks)[k] == ns[k] {
      assert ks[k].decl == t.classes[ns[k]];
    }
    assert PreorderForest(ks) == ns;
  }

  lemma {:induction false} LeavesPreorder(ks: seq<Tree>)
    requires Childless(ks)
    ensures |PreorderForest(ks)| == |ks| && forall k :: 0 <= k < |ks| ==> PreorderForest(ks)[k] == ks[k].decl.name
    decreases |ks|
  {
    if |ks| > 0 {
      assert Preorder(ks[0]) == [ks[0].decl.name];
      assert forall k :: 0 <= k < |ks| - 1 ==> ks[1..][k] == ks[k + 1];
      LeavesPreorder(ks[1..]);
    }
  }

  /** A class with children ends its preorder where its last child's subtree ends. */
  lemma PreorderLast(n: Tree)
    requires |n.kids| > 0
    ensures var last := Preorder(n.kids[|n.kids| - 1]);
            Preorder(n)[|Preorder(n)| - 1] == last[|last| - 1]
  {
    PreorderForestLast(n.kids);
  }

  lemma {:induction false} PreorderForestLast(ks: seq<Tree>)
    requires |ks| > 0
    ensures var last := Preorder(ks[|ks| - 1]);
            |PreorderForest(ks)| > 0 && PreorderForest(ks)[|PreorderForest(ks)| - 1] == last[|last| - 1]
    decreases |ks|
  {
    if |ks| > 1 {
      PreorderForestLast(ks[1..]);
      assert ks[1..][|ks| - 2] == ks[|ks| - 1];
    } else {
      assert PreorderForest(ks) == Preorder(ks[0]) + PreorderForest([]);
    }
  }
}

=== FILE: names.dfy ===
/**
 * Symbols of the analysed language. The compiler interns every identifier so that two
 * occurrences of the same spelling are the same symbol; modelling a symbol as its
 * spelling gives exactly that identity.
 */
module Names {

  type Name = string

  // Class names predefined by the language and the runtime.
  const Object: Name := "Object"
  const IO: Name := "IO"
  const Int: Name := "Int"
  const Bool: Name := "Bool"
  const Str: Name := "String"
  const SelfType: Name := "SELF_TYPE"
  const MainClass: Name := "Main"

  // Names the analyser creates but a program cannot write (they do not start with a letter).
  const PrimSlot: Name := "_prim_slot"
  const NoClass: Name := "_no_class"
  const NoType: Name := "_no_type"

  // Object identifiers with a fixed meaning.
  const SelfName: Name := "self"
  const MainMethod: Name := "main"

  /** The classes a program may not redefine. */
  predicate IsBasicClass(n: Name) {
    n == Object || n == IO || n == Int || n == Bool || n == Str
  }

  /** The classes a program may not inherit from (besides SELF_TYPE). */
  predicate IsFinalClass(n: Name) {
    n == Int || n == Bool || n == Str
  }

  /** Replaces SELF_TYPE by the enclosing class's name, leaving every other type alone. */
  function Resolve(t: Name, current: Name): (r: Name)
    ensures t != SelfType ==> r == t
    ensures t == SelfType ==> r == current
  {
    if t == SelfType then current else t
  }
}

=== FILE: rules.dfy ===
/**
 * What the expression rules promise: the arithmetic and equality rules, dispatch, and the
 * join-based typing of conditionals and case expressions.
 */
module Rules {
  import opened Wrappers
  import opened Names
  import opened Ast
  import opened Diagnostics
  import opened Scopes
  import opened ClassTable
  import opened Inheritance
  import opened Lattice
  import opened TypeCheck

  // ---------------------------------------------------------------------------------
  // Arithmetic, comparison, equality

  /**
   * An arithmetic operator or comparison has its result type exactly when both operands
   * are `Int` (no SELF_TYPE reading); otherwise it is `Object` and the rule adds exactly one
   * error, after those of the operands it checked.
   */
  lemma ArithRule(st: State, cur: Name, env: Env, op: ArithOp, a: Expr, b: Expr)
    requires TableWf(st)
    ensures var r := Check(st, cur, env, Arith(op, a, b));
            var A := Check(st, cur, env, a);
            var B := Check(st, cur, env, b);
            var ok := A.ty == Int && B.ty == Int;
            var operandErrs := if A.ty == Int then A.errs + B.errs else A.errs;
      && (r.ty == ArithType(op) <==> ok)
      && (!ok ==> r.ty == Object)
      && |r.errs| == |operandErrs| + (if ok then 0 else 1)
      && r.errs[..|operandErrs|] == operandErrs
      && (!ok ==> r.errs[|operandErrs|] == (if A.ty != Int then ArithLeft else ArithRight))
  {
  }

  /** When the left operand is not `Int` the right one is never checked: it cannot matter. */
  lemma ArithLeftStops(st: State, cur: Name, env: Env, op: ArithOp, a: Expr, b: Expr, b': Expr)
    requires TableWf(st) && Check(st, cur, env, a).ty != Int
    ensures Check(st, cur, env, Arith(op, a, b)) == Check(st, cur, env, Arith(op, a, b'))
  {
  }

  /**
   * Equality is always `Bool`; it adds one error exactly when one side is `Int`, `Bool` or
   * `String` and the two types differ.
   */
  lemma EqRule(st: State, cur: Name, env: Env, a: Expr, b: Expr)
    requires TableWf(st)
    ensures var r := Check(st, cur, env, Eq(a, b));
            var A := Check(st, cur, env, a);
            var B := Check(st, cur, env, b);
            var clash := (A.ty in {Int, Bool, Str} || B.ty in {Int, Bool, Str}) && A.ty != B.ty;
      && r.ty == Bool
      && r.errs[..|A.errs| + |B.errs|] == A.errs + B.errs
      && |r.errs| == |A.errs| + |B.errs| + (if clash then 1 else 0)
  {
    var r := Check(st, cur, env, Eq(a, b));
    var A := Check(st, cur, env, a);
    var B := Check(st, cur, env, b);
    var extra := if EqClash(A.ty, B.ty) then [EqMismatch] else [];
    assert r.errs == (A.errs + B.errs) + extra;
    assert EqClash(A.ty, B.ty) <==> (A.ty in {Int, Bool, Str} || B.ty in {Int, Bool, Str}) && A.ty != B.ty;
  }

  // ---------------------------------------------------------------------------------
  // Dispatch

  /** Every argument's type, SELF_TYPE read as the current class, conforms to its formal. */
  ghost predicate ArgsConform(st: State, cur: Name, env: Env, formals: seq<Formal>, actuals: Exprs)
    requires TableWf(st) && |formals| == Length(actuals)
  {
    forall k :: 0 <= k < |formals| ==>
      Conforms(st, formals[k].typeDecl, Resolve(Check(st, cur, env, Nth(actuals, k)).ty, cur))
  }

  /** The argument loop accepts the call exactly when every argument conforms. */
  lemma {:induction false} ArgsAccepted(st: State, cur: Name, env: Env, formals: seq<Formal>, actuals: Exprs)
    requires TableWf(st) && |formals| == Length(actuals)
    ensures CheckArgs(st, cur, env, formals, actuals).0 <==> ArgsConform(st, cur, env, formals, actuals)
    decreases actuals
  {
    match actuals
    case ENil =>
    case ECons(a, rest) =>
      ArgsAccepted(st, cur, env, formals[1..], rest);
      var A := Check(st, cur, env, a);
      if ArgsConform(st, cur, env, formals, actuals) {
        forall k | 0 <= k < |formals| - 1
          ensures Conforms(st, formals[1..][k].typeDecl, Resolve(Check(st, cur, env, Nth(rest, k)).ty, cur))
        {
          assert Nth(actuals, k + 1) == Nth(rest, k);
        }
      }
      if CheckArgs(st, cur, env, formals, actuals).0 {
        forall k | 0 <= k < |formals|
          ensures Conforms(st, formals[k].typeDecl, Resolve(Check(st, cur, env, Nth(actuals, k)).ty, cur))
        {
          if k > 0 {
            assert Nth(actuals, k) == Nth(rest, k - 1);
            assert formals[k] == formals[1..][k - 1];
          }
        }
      }
  }

  /**
   * `matchParam`: with the wrong number of arguments the call is `Object` with one error
   * and no argument is checked; otherwise it has the declared return type exactly when
   * every argument conforms, and `Object` when any does not.
   */
  lemma MatchParamRule(st: State, cur: Name, env: Env, sig: Sig, actuals: Exprs)
    requires TableWf(st)
    ensures var r := MatchParam(st, cur, env, sig, actuals);
      && (|sig.formals| != Length(actuals) ==> r == Typed(Object, [ArityMismatch]))
      && (|sig.formals| == Length(actuals) ==>
            && (ArgsConform(st, cur, env, sig.formals, actuals) ==> r.ty == sig.returnType)
            && (!ArgsConform(st, cur, env, sig.formals, actuals) ==> r.ty == Object))
  {
    if |sig.formals| == Length(actuals) {
      ArgsAccepted(st, cur, env, sig.formals, actuals);
    }
  }

  /**
   * Dispatch on a receiver whose class `t` (SELF_TYPE read as the current class) is in the
   * table: an unknown method is `Object` with one error and the arguments unchecked; a
   * wrong number of arguments is `Object` with one error and the arguments unchecked; a
   * non-conforming argument gives `Object`; otherwise the declared return type, where a
   * SELF_TYPE return stays SELF_TYPE exactly when `t` is the current class and is `t` otherwise.
   */
  lemma DispatchRule(st: State, cur: Name, env: Env, recv: Expr, m: Name, actuals: Exprs)
    requires Registry(st)
    requires Resolve(Check(st, cur, env, recv).ty, cur) in st.table
    ensures var r := Check(st, cur, env, Dispatch(recv, m, actuals));
            var R := Check(st, cur, env, recv);
            var t := Resolve(R.ty, cur);
            var found := FindMethod(st, st.table[t], m);
      && (found.None? ==> r == Typed(Object, R.errs + [UndefinedMethod]))
      && (found.Some? && |found.value.formals| != Length(actuals) ==> r == Typed(Object, R.errs + [ArityMismatch]))
      && (found.Some? && |found.value.formals| == Length(actuals) ==>
            var ok := ArgsConform(st, cur, env, found.value.formals, actuals);
            var ret := found.value.returnType;
            && (!ok ==> r.ty == Object)
            && (ok && ret != SelfType ==> r.ty == ret)
            && (ok && ret == SelfType && t != cur ==> r.ty == t)
            && (r.ty == SelfType <==> ok && ret == SelfType && t == cur))
  {
    var R := Check(st, cur, env, recv);
    var t := Resolve(R.ty, cur);
    var found := FindMethod(st, st.table[t], m);
    if found.Some? {
      MatchParamRule(st, cur, env, found.value, actuals);
    }
  }

  /**
   * Static dispatch `recv@T.m(...)`: `T` must be an ancestor of the receiver's class
   * (`Object`, one error, otherwise); the method is then looked up from `T`, and an
   * undefined one is reported and then dereferenced. With a method found the call is
   * typed like a dynamic dispatch on the receiver's class.
   */
  lemma StaticDispatchRule(st: State, cur: Name, env: Env, recv: Expr, tn: Name, m: Name, actuals: Exprs)
    requires Resolved(st)
    requires Known(st, Resolve(Check(st, cur, env, recv).ty, cur))
    ensures var r := Check(st, cur, env, StaticDispatch(recv, tn, m, actuals));
            var R := Check(st, cur, env, recv);
            var t := Resolve(R.ty, cur);
      && (!Conforms(st, tn, t) ==> r == Typed(Object, R.errs + [NoSuchAncestor]))
      && (Conforms(st, tn, t) ==>
            && tn in st.table
            && var found := FindMethod(st, st.table[tn], m);
            && (found.None? ==> r == Typed(Object, R.errs + [UndefinedMethod, NullDeref]))
            && (found.Some? && |found.value.formals| != Length(actuals) ==> r == Typed(Object, R.errs + [ArityMismatch]))
            && (found.Some? && |found.value.formals| == Length(actuals) ==>
                  var ok := ArgsConform(st, cur, env, found.value.formals, actuals);
                  var ret := found.value.returnType;
                  && (!ok ==> r.ty == Object)
                  && (ok && ret != SelfType ==> r.ty == ret)
                  && (ok && ret == SelfType && t != cur ==> r.ty == t)
                  && (r.ty == SelfType <==> ok && ret == SelfType && t == cur)))
  {
    var R := Check(st, cur, env, recv);
    var t := Resolve(R.ty, cur);
    if Conforms(st, tn, t) {
      var _ := AncestorSuffix(st, tn, t);
      var found := FindMethod(st, st.table[tn], m);
      if found.Some? {
        MatchParamRule(st, cur, env, found.value, actuals);
      }
    }
  }

  // ---------------------------------------------------------------------------------
  // Conditionals and case expressions

  /**
   * Over a resolved table, a conditional whose branches have resolved types (SELF_TYPE read
   * as the current class) is typed as their least common ancestor, and its only errors
   * are those of its parts and of a non-`Bool` predicate.
   */
  lemma CondRule(st: State, cur: Name, env: Env, p: Expr, a: Expr, b: Expr)
    requires Resolved(st)
    requires Known(st, Resolve(Check(st, cur, env, a).ty, cur))
    requires Known(st, Resolve(Check(st, cur, env, b).ty, cur))
    ensures var r := Check(st, cur, env, Cond(p, a, b));
            var P := Check(st, cur, env, p);
            var A := Check(st, cur, env, a);
            var B := Check(st, cur, env, b);
            var ta := Resolve(A.ty, cur);
            var tb := Resolve(B.ty, cur);
      && Common(st, r.ty, ta, tb)
      && (forall c :: Common(st, c, ta, tb) ==> Conforms(st, c, r.ty))
      && r.errs == P.errs + (if Resolve(P.ty, cur) == Bool then [] else [PredNotBool]) + A.errs + B.errs
  {
    var ta := Resolve(Check(st, cur, env, a).ty, cur);
    var tb := Resolve(Check(st, cur, env, b).ty, cur);
    var _ := JoinIsLeastCommonAncestor(st, ta, tb);
  }

  /** The branch types of a case, in order, each checked in the environment the earlier branches left. */
  ghost function BranchTypes(st: State, cur: Name, env: Env, cs: Cases): (tys: seq<Name>)
    requires TableWf(st) && |env| > 0
    decreases cs
  {
    match cs
    case CNil => []
    case CCons(b, rest) =>
      var (env', B) := CheckBranch(st, cur, env, b);
      [B.ty] + BranchTypes(st, cur, env', rest)
  }

  /** `Object` is resolved once any class is. */
  lemma ObjectKnown(st: State, n: Name)
    requires Resolved(st) && Known(st, n)
    ensures Known(st, Object)
  {
    AscentObjectTop(st, n);
    var _ := AncestorSuffix(st, Object, n);
  }

  /** One join step of a case: the result is an ancestor of the type so far and of the branch's type. */
  lemma CaseStepBound(st: State, cur: Name, curr: Name, bt: Name)
    requires Resolved(st) && Known(st, Resolve(bt, cur))
    requires curr == NoType || Known(st, Resolve(curr, cur))
    ensures var j := CaseStep(st, cur, curr, bt).ty;
      && Known(st, Resolve(j, cur))
      && Conforms(st, Resolve(j, cur), Resolve(bt, cur))
      && (curr != NoType ==> Conforms(st, Resolve(j, cur), Resolve(curr, cur)))
      && (curr == NoType ==> j == bt)
      && (curr == SelfType ==> j == Object)
      && (curr != NoType && curr != SelfType ==>
            forall a :: Common(st, a, Resolve(bt, cur), curr) ==> Conforms(st, a, j))
  {
    var tb := Resolve(bt, cur);
    ObjectKnown(st, tb);
    AscentReflexive(st, tb);
    AscentObjectTop(st, tb);
    if curr == NoType {
    } else if curr == SelfType {
      AscentObjectTop(st, cur);
      assert curr !in Rec(st, tb).inh by {
        if curr in Rec(st, tb).inh {
          var k :| 0 <= k < |Rec(st, tb).inh| && Rec(st, tb).inh[k] == curr;
          ChainAt(st, tb, k);
        }
      }
      assert CaseStep(st, cur, curr, bt).ty == Object;
    } else {
      var j := JoinIsLeastCommonAncestor(st, tb, curr);
      var _ := AncestorSuffix(st, j, tb);
      assert CaseStep(st, cur, curr, bt).ty == j;
    }
  }

  /** The bound of the first branch and of the later ones, combined. */
  lemma CaseCombine(st: State, cur: Name, t: Name, jt: Name, bt: Name, tys: seq<Name>)
    requires Resolved(st) && Known(st, Resolve(bt, cur))
    requires Conforms(st, t, jt) && Conforms(st, jt, Resolve(bt, cur))
    requires forall k :: 0 <= k < |tys| ==> Conforms(st, t, Resolve(tys[k], cur))
    ensures forall k :: 0 <= k < |[bt] + tys| ==> Conforms(st, t, Resolve(([bt] + tys)[k], cur))
  {
    AscentTransitive(st, t, jt, Resolve(bt, cur));
    forall k | 0 <= k < |[bt] + tys|
      ensures Conforms(st, t, Resolve(([bt] + tys)[k], cur))
    {
      if k > 0 {
        assert ([bt] + tys)[k] == tys[k - 1];
      }
    }
  }

  /** `c` is an ancestor of the type joined so far (if any) and of every branch's type. */
  ghost predicate CaseBound(st: State, cur: Name, c: Name, curr: Name, tys: seq<Name>)
    requires TableWf(st)
  {
    && (curr != NoType ==> Conforms(st, c, Resolve(curr, cur)))
    && (forall k :: 0 <= k < |tys| ==> Conforms(st, c, Resolve(tys[k], cur)))
  }

  /**
   * The join meets SELF_TYPE unresolved: a branch is still to come while the type so far is
   * SELF_TYPE, either given or taken from a first branch of that type. The join of a class
   * with SELF_TYPE fails, and the case is typed `Object` from there on.
   */
  predicate JoinsSelf(curr: Name, tys: seq<Name>) {
    |tys| > 0 && (curr == SelfType || (curr == NoType && |tys| > 1 && tys[0] == SelfType))
  }

  /**
   * Over a resolved table, when every branch's type is resolved (SELF_TYPE read as the
   * current class), the type of the case is an ancestor of every branch's type and of the
   * type the branches were joined into; unless the join meets SELF_TYPE unresolved, when it
   * is `Object`, it is the least such ancestor. (The empty type `_no_type` must not name a
   * class, as it cannot in a program: the case rule uses it as its "no branch yet" marker.)
   */
  lemma CasesUpperBound(st: State, cur: Name, env: Env, cs: Cases, curr: Name, seen: set<Name>)
    requires Resolved(st) && |env| > 0 && NoType !in st.table
    requires curr == NoType || Known(st, Resolve(curr, cur))
    requires forall k :: 0 <= k < |BranchTypes(st, cur, env, cs)| ==> Known(st, Resolve(BranchTypes(st, cur, env, cs)[k], cur))
    ensures var r := CheckCases(st, cur, env, cs, curr, seen).ty;
            var tys := BranchTypes(st, cur, env, cs);
      && CaseBound(st, cur, Resolve(r, cur), curr, tys)
      && (JoinsSelf(curr, tys) ==> r == Object)
      && (!JoinsSelf(curr, tys) && (curr != NoType || tys != []) ==>
            forall c :: CaseBound(st, cur, c, curr, tys) ==> Conforms(st, c, Resolve(r, cur)))
  {
    CasesAncestor(st, cur, env, cs, curr, seen);
    CasesLeast(st, cur, env, cs, curr, seen);
  }

  /** The type of the case is an ancestor of every branch's type and of the type so far. */
  lemma {:induction false} CasesAncestor(st: State, cur: Name, env: Env, cs: Cases, curr: Name, seen: set<Name>)
    requires Resolved(st) && |env| > 0 && NoType !in st.table
    requires curr == NoType || Known(st, Resolve(curr, cur))
    requires forall k :: 0 <= k < |BranchTypes(st, cur, env, cs)| ==> Known(st, Resolve(BranchTypes(st, cur, env, cs)[k], cur))
    ensures var t := Resolve(CheckCases(st, cur, env, cs, curr, seen).ty, cur);
            var tys := BranchTypes(st, cur, env, cs);
      && (curr != NoType ==> Conforms(st, t, Resolve(curr, cur)))
      && (forall k :: 0 <= k < |tys| ==> Conforms(st, t, Resolve(tys[k], cur)))
    decreases cs
  {
    match cs
    case CNil =>
      if curr != NoType {
        AscentReflexive(st, Resolve(curr, cur));
      }
    case CCons(b, rest) =>
      var (env', B) := CheckBranch(st, cur, env, b);
      var tys' := BranchTypes(st, cur, env', rest);
      var tys := BranchTypes(st, cur, env, cs);
      assert tys == [B.ty] + tys';
      assert Known(st, Resolve(tys[0], cur));
      forall k | 0 <= k < |tys'|
        ensures Known(st, Resolve(tys'[k], cur))
      {
        assert tys'[k] == tys[k + 1];
      }
      var J := CaseStep(st, cur, curr, B.ty);
      CaseStepBound(st, cur, curr, B.ty);
      var seen' := seen + {b.typeDecl};
      CasesAncestor(st, cur, env', rest, J.ty, seen');
      assert forall k :: 0 <= k < |BranchTypes(st, cur, env', rest)| ==> Conforms(st, Resolve(CheckCases(st, cur, env', rest, J.ty, seen').ty, cur), Resolve(BranchTypes(st, cur, env', rest)[k], cur));
      var t := Resolve(CheckCases(st, cur, env', rest, J.ty, seen').ty, cur);
      assert CheckCases(st, cur, env, cs, curr, seen).ty == CheckCases(st, cur, env', rest, J.ty, seen').ty;
      var jt := Resolve(J.ty, cur);
      if curr != NoType {
        AscentTransitive(st, t, jt, Resolve(curr, cur));
      }
      assert J.ty != NoType;
      CaseCombine(st, cur, t, jt, B.ty, tys');
  }

  /** Once the case is typed `Object`, the later branches leave it so. */
  lemma {:induction false} CasesObject(st: State, cur: Name, env: Env, cs: Cases, seen: set<Name>)
    requires TableWf(st) && |env| > 0
    ensures CheckCases(st, cur, env, cs, Object, seen).ty == Object
    decreases cs
  {
    match cs
    case CNil =>
    case CCons(b, rest) =>
      var (env', B) := CheckBranch(st, cur, env, b);
      assert CaseStep(st, cur, Object, B.ty).ty == Object;
      CasesObject(st, cur, env', rest, seen + {b.typeDecl});
  }

  /**
   * The type of the case is the least ancestor of the branches' types and of the type so
   * far, unless the join meets SELF_TYPE unresolved, when it is `Object`.
   */
  lemma {:induction false} CasesLeast(st: State, cur: Name, env: Env, cs: Cases, curr: Name, seen: set<Name>)
    requires Resolved(st) && |env| > 0 && NoType !in st.table
    requires curr == NoType || Known(st, Resolve(curr, cur))
    requires forall k :: 0 <= k < |BranchTypes(st, cur, env, cs)| ==> Known(st, Resolve(BranchTypes(st, cur, env, cs)[k], cur))
    ensures var r := CheckCases(st, cur, env, cs, curr, seen).ty;
            var tys := BranchTypes(st, cur, env, cs);
      && (JoinsSelf(curr, tys) ==> r == Object)
      && (!JoinsSelf(curr, tys) && (curr != NoType || tys != []) ==>
            forall c :: CaseBound(st, cur, c, curr, tys) ==> Conforms(st, c, Resolve(r, cur)))
    decreases cs
  {
    match cs
    case CNil =>
    case CCons(b, rest) =>
      var (env', B) := CheckBranch(st, cur, env, b);
      var tys' := BranchTypes(st, cur, env', rest);
      var tys := BranchTypes(st, cur, env, cs);
      assert tys == [B.ty] + tys';
      assert Known(st, Resolve(tys[0], cur));
      forall k | 0 <= k < |tys'|
        ensures Known(st, Resolve(tys'[k], cur))
      {
        assert tys'[k] == tys[k + 1];
      }
      var J := CaseStep(st, cur, curr, B.ty);
      CaseStepBound(st, cur, curr, B.ty);
      var seen' := seen + {b.typeDecl};
      assert CheckCases(st, cur, env, cs, curr, seen).ty == CheckCases(st, cur, env', rest, J.ty, seen').ty;
      if curr == SelfType {
        CasesObject(st, cur, env', rest, seen');
      } else {
        CasesLeast(st, cur, env', rest, J.ty, seen');
        var r := CheckCases(st, cur, env, cs, curr, seen).ty;
        if !JoinsSelf(curr, tys) {
          forall c | CaseBound(st, cur, c, curr, tys)
            ensures Conforms(st, c, Resolve(r, cur))
          {
            assert Conforms(st, c, Resolve(tys[0], cur));
            assert forall k :: 0 <= k < |tys'| ==> tys'[k] == tys[k + 1];
            if curr != NoType {
              assert Common(st, c, Resolve(B.ty, cur), curr);
            }
            assert CaseBound(st, cur, c, J.ty, tys');
          }
        }
      }
  }

  /** A case expression reports a duplicate for each branch whose declared type an earlier branch declared. */
  lemma {:induction false} CasesDuplicates(st: State, cur: Name, env: Env, cs: Cases, curr: Name, seen: set<Name>)
    requires TableWf(st) && |env| > 0 && cs.CCons? && cs.head.typeDecl in seen
    ensures DuplicateBranch in CheckCases(st, cur, env, cs, curr, seen).errs
  {
  }

  /** Over a registry, a branch declared SELF_TYPE is reported as an unknown class: SELF_TYPE is never in the table. */
  lemma SelfTypeBranchUnknown(st: State, cur: Name, env: Env, name: Name, body: Expr)
    requires Registry(st) && |env| > 0
    ensures CheckBranch(st, cur, env, Branch(name, SelfType, body)).1 == Typed(Object, [UnknownBranchType])
  {
  }

  // ---------------------------------------------------------------------------------
  // Names, assignment, constants and the one-operand rules

  /** Constants have their class and report nothing. */
  lemma ConstRule(st: State, cur: Name, env: Env, i: int, b: bool, s: string)
    requires TableWf(st)
    ensures Check(st, cur, env, IntConst(i)) == Typed(Int, [])
    ensures Check(st, cur, env, BoolConst(b)) == Typed(Bool, [])
    ensures Check(st, cur, env, StrConst(s)) == Typed(Str, [])
  {
  }

  /**
   * `self` has type SELF_TYPE; any other name has the type of its innermost binding, and an
   * unbound name is an error typed `Object`.
   */
  lemma RefRule(st: State, cur: Name, env: Env, n: Name)
    requires TableWf(st)
    ensures var r := Check(st, cur, env, Ref(n));
      && (n == SelfName ==> r == Typed(SelfType, []))
      && (n != SelfName ==> (r.errs == [] <==> exists k :: 0 <= k < |env| && n in env[k]))
      && (n != SelfName && r.errs == [] ==>
            exists k :: 0 <= k < |env| && n in env[k] && env[k][n] == r.ty && forall j :: 0 <= j < k ==> n !in env[j])
      && (r.errs != [] ==> r == Typed(Object, [UnboundName]))
  {
  }

  /**
   * Assigning to `self` or to an unbound name is an error typed `Object` and the right side
   * is not checked. Otherwise the right side, with SELF_TYPE read as the current class, must
   * conform to the declared type: then the assignment has the right side's type, else it is
   * typed `Object` with one more error.
   */
  lemma AssignRule(st: State, cur: Name, env: Env, n: Name, rhs: Expr)
    requires TableWf(st)
    ensures var r := Check(st, cur, env, Assign(n, rhs));
      && (n == SelfName ==> r == Typed(Object, [AssignSelf]))
      && (n != SelfName && Lookup(env, n).None? ==> r == Typed(Object, [UnboundName]))
    ensures var r := Check(st, cur, env, Assign(n, rhs));
            var R := Check(st, cur, env, rhs);
            n != SelfName && Lookup(env, n).Some? && Resolve(R.ty, cur) in st.table ==>
      && (Conforms(st, Lookup(env, n).value, Resolve(R.ty, cur)) ==> r == Typed(R.ty, R.errs))
      && (!Conforms(st, Lookup(env, n).value, Resolve(R.ty, cur)) ==> r == Typed(Object, R.errs + [AssignMismatch]))
  {
  }

  /** `new T` has type T when T is SELF_TYPE or a class; otherwise it is an error typed `Object`. */
  lemma NewRule(st: State, cur: Name, env: Env, t: Name)
    requires TableWf(st)
    ensures var r := Check(st, cur, env, New(t));
      && (r.errs == [] <==> t == SelfType || t in st.table)
      && (r.errs == [] ==> r.ty == t)
      && (r.errs != [] ==> r == Typed(Object, [UnknownNewType]))
  {
  }

  /** `isvoid` is `Bool` whatever its operand, and adds no error of its own. */
  lemma IsVoidRule(st: State, cur: Name, env: Env, x: Expr)
    requires TableWf(st)
    ensures var r := Check(st, cur, env, IsVoid(x));
      r.ty == Bool && r.errs == Check(st, cur, env, x).errs
  {
  }

  /**
   * `~e` is `Int` exactly when its operand is `Int` (no SELF_TYPE reading), and `not e` is
   * `Bool` exactly when its operand is; otherwise each is `Object` with one more error.
   */
  lemma UnaryRules(st: State, cur: Name, env: Env, x: Expr)
    requires TableWf(st)
    ensures var X := Check(st, cur, env, x);
            var r := Check(st, cur, env, Neg(x));
      && (r.ty == Int <==> X.ty == Int)
      && r.errs == X.errs + (if X.ty == Int then [] else [NegNotInt])
    ensures var X := Check(st, cur, env, x);
            var r := Check(st, cur, env, Not(x));
      && (r.ty == Bool <==> X.ty == Bool)
      && r.errs == X.errs + (if X.ty == Bool then [] else [NotNotBool])
  {
  }

  /**
   * A loop is typed `Object`; besides the errors of its predicate and body it reports one
   * error exactly when the predicate is not `Bool`, SELF_TYPE read as the current class.
   */
  lemma LoopRule(st: State, cur: Name, env: Env, p: Expr, body: Expr)
    requires TableWf(st)
    ensures var r := Check(st, cur, env, Loop(p, body));
            var P := Check(st, cur, env, p);
            var B := Check(st, cur, env, body);
      && r.ty == Object
      && (r.errs == P.errs + B.errs <==> Resolve(P.ty, cur) == Bool)
      && (Resolve(P.ty, cur) != Bool ==> r.errs == P.errs + [PredNotBool] + B.errs)
  {
    var r := Check(st, cur, env, Loop(p, body));
    var P := Check(st, cur, env, p);
    var B := Check(st, cur, env, body);
    var E := PredErrs(P.ty, cur);
    assert r.errs == P.errs + E + B.errs;
    if Resolve(P.ty, cur) == Bool {
      assert E == [];
      assert P.errs + E == P.errs;
    } else {
      assert E == [PredNotBool];
      assert |r.errs| == |P.errs| + 1 + |B.errs|;
    }
  }

  // ---------------------------------------------------------------------------------
  // Blocks

  /** The last expression of a block. */
  function LastExpr(head: Expr, more: Exprs): Expr
    decreases more
  {
    match more
    case ENil => head
    case ECons(h, t) => LastExpr(h, t)
  }

  /** The errors of each expression of a list, in order, all checked in `env`. */
  ghost function ListErrs(st: State, cur: Name, env: Env, es: Exprs): seq<Err>
    requires TableWf(st)
  {
    match es
    case ENil => []
    case ECons(h, t) => Check(st, cur, env, h).errs + ListErrs(st, cur, env, t)
  }

  lemma {:induction false} BlockFrom(st: State, cur: Name, env: Env, head: Expr, more: Exprs, last: Typed)
    requires TableWf(st) && last.ty == Check(st, cur, env, head).ty
    ensures CheckBlock(st, cur, env, more, last).ty == Check(st, cur, env, LastExpr(head, more)).ty
    ensures CheckBlock(st, cur, env, more, last).errs == last.errs + ListErrs(st, cur, env, more)
    decreases more
  {
    match more
    case ENil =>
    case ECons(h, t) =>
      var H := Check(st, cur, env, h);
      BlockFrom(st, cur, env, h, t, Typed(H.ty, last.errs + H.errs));
  }

  /**
   * A block has the type of its last expression; every expression is checked in the same
   * environment and the block reports their errors in order and none of its own.
   */
  lemma BlockRule(st: State, cur: Name, env: Env, head: Expr, more: Exprs)
    requires TableWf(st)
    ensures var r := Check(st, cur, env, Block(head, more));
      && r.ty == Check(st, cur, env, LastExpr(head, more)).ty
      && r.errs == Check(st, cur, env, head).errs + ListErrs(st, cur, env, more)
  {
    BlockFrom(st, cur, env, head, more, Check(st, cur, env, head));
  }

  // ---------------------------------------------------------------------------------
  // Let

  /** A `let` binding `self`, or of an unknown type, is an error typed `Object`; nothing inside is checked. */
  lemma LetRejected(st: State, cur: Name, env: Env, id: Name, td: Name, init: Init, body: Expr)
    requires TableWf(st)
    ensures var r := Check(st, cur, env, Let(id, td, init, body));
      && (id == SelfName ==> r == Typed(Object, [LetSelf]))
      && (id != SelfName && td != SelfType && td !in st.table ==> r == Typed(Object, [UnknownLetType]))
  {
  }

  /** One unfolding of the rule of a `let` of a known type. */
  lemma LetUnfold(st: State, cur: Name, env: Env, id: Name, td: Name, init: Init, body: Expr)
    requires TableWf(st) && id != SelfName && (td == SelfType || td in st.table)
    ensures var inner := Scopes.Enter(env);
            var I := CheckInit(st, cur, inner, init);
            var it := Resolve(if I.ty == NoType then td else I.ty, cur);
            var errs := AscentErrs(st, Resolve(td, cur), it, LetMismatch);
            var r := Check(st, cur, env, Let(id, td, init, body));
            errs != [NullDeref] ==>
              var B := Check(st, cur, if errs == [] then Add(inner, id, td) else inner, body);
              r == Typed(B.ty, I.errs + errs + B.errs)
  {
  }

  /**
   * A `let` of a known type checks its initialiser in a new scope; an absent initialiser
   * counts as the declared type. If the initialiser's type conforms to the declared type
   * (SELF_TYPE read as the current class on both sides) the body is checked with the
   * identifier bound to the declared type; otherwise one error is reported and the body is
   * checked without the binding. Either way the `let` has the body's type.
   */
  lemma LetRule(st: State, cur: Name, env: Env, id: Name, td: Name, init: Init, body: Expr)
    requires TableWf(st) && id != SelfName && (td == SelfType || td in st.table)
    requires var I := CheckInit(st, cur, Scopes.Enter(env), init);
             Resolve(if I.ty == NoType then td else I.ty, cur) in st.table
    ensures var inner := Scopes.Enter(env);
            var I := CheckInit(st, cur, inner, init);
            var it := Resolve(if I.ty == NoType then td else I.ty, cur);
            var r := Check(st, cur, env, Let(id, td, init, body));
            Conforms(st, Resolve(td, cur), it) ==>
              var B := Check(st, cur, Add(inner, id, td), body);
              r == Typed(B.ty, I.errs + B.errs)
    ensures var inner := Scopes.Enter(env);
            var I := CheckInit(st, cur, inner, init);
            var it := Resolve(if I.ty == NoType then td else I.ty, cur);
            var r := Check(st, cur, env, Let(id, td, init, body));
            !Conforms(st, Resolve(td, cur), it) ==>
              var B := Check(st, cur, inner, body);
              r == Typed(B.ty, I.errs + [LetMismatch] + B.errs)
  {
    var inner := Scopes.Enter(env);
    var I := CheckInit(st, cur, inner, init);
    var it := Resolve(if I.ty == NoType then td else I.ty, cur);
    var errs := AscentErrs(st, Resolve(td, cur), it, LetMismatch);
    var r := Check(st, cur, env, Let(id, td, init, body));
    LetUnfold(st, cur, env, id, td, init, body);
    if Conforms(st, Resolve(td, cur), it) {
      assert errs == [];
      var B := Check(st, cur, Add(inner, id, td), body);
      assert r == Typed(B.ty, I.errs + errs + B.errs);
      assert I.errs + errs == I.errs;
    } else {
      assert errs == [LetMismatch];
      var B := Check(st, cur, inner, body);
      assert r == Typed(B.ty, I.errs + errs + B.errs);
    }
  }
}

=== FILE: scopes.dfy ===
/**
 * Scoped symbol tables. A table is a chain of scopes, innermost first; `Lookup` searches
 * the whole chain and `Probe` only the innermost scope. Entering a scope pushes an empty
 * one; adding a name binds it in the innermost scope, hiding any earlier binding.
 */
module Scopes {
  import opened Wrappers
  import opened Names

  type Scope<T> = map<Name, T>

  function Lookup<T>(chain: seq<Scope<T>>, n: Name): (r: Option<T>)
    ensures r.Some? <==> exists k :: 0 <= k < |chain| && n in chain[k]
    ensures r.Some? ==> exists k :: 0 <= k < |chain| && n in chain[k] && chain[k][n] == r.value
                                    && forall j :: 0 <= j < k ==> n !in chain[j]
  {
    if |chain| == 0 then None
    else if n in chain[0] then Some(chain[0][n])
    else
      var r := Lookup(chain[1..], n);
      assert forall k :: 1 <= k < |chain| ==> chain[k] == chain[1..][k - 1];
      r
  }

  function Probe<T>(chain: seq<Scope<T>>, n: Name): (r: Option<T>)
    ensures r.Some? <==> |chain| > 0 && n in chain[0]
    ensures r.Some? ==> r.value == chain[0][n]
  {
    if |chain| > 0 && n in chain[0] then Some(chain[0][n]) else None
  }

  function Enter<T>(chain: seq<Scope<T>>): (r: seq<Scope<T>>)
    ensures |r| == |chain| + 1 && r[0] == map[] && r[1..] == chain
  {
    [map[]] + chain
  }

  function Add<T>(chain: seq<Scope<T>>, n: Name, v: T): (r: seq<Scope<T>>)
    requires |chain| > 0
    ensures |r| == |chain| && r[1..] == chain[1..] && r[0] == chain[0][n := v]
  {
    [chain[0][n := v]] + chain[1..]
  }

  /** What `Probe` finds, `Lookup` finds too. */
  lemma ProbeIsLookup<T>(chain: seq<Scope<T>>, n: Name)
    requires Probe(chain, n).Some?
    ensures Lookup(chain, n) == Probe(chain, n)
  {
  }

  /** An entered, still empty scope hides nothing. */
  lemma EnterTransparent<T>(chain: seq<Scope<T>>, n: Name)
    ensures Lookup(Enter(chain), n) == Lookup(chain, n)
  {
    assert Enter(chain)[1..] == chain;
  }

  /** A name just added is found with its new value; every other name is unaffected. */
  lemma AddThenLookup<T>(chain: seq<Scope<T>>, n: Name, v: T, m: Name)
    requires |chain| > 0
    ensures Lookup(Add(chain, n, v), n) == Some(v)
    ensures m != n ==> Lookup(Add(chain, n, v), m) == Lookup(chain, m)
  {
    var r := Add(chain, n, v);
    assert r[1..] == chain[1..];
  }
}

=== FILE: semant.dfy ===
/**
 * The analyser as a whole (the `ClassTable` constructor): the predefined classes are
 * installed and registered, the program's classes entered, the `Main` class and a
 * method of it checked for, and only then the three passes run over the program's
 * valid classes in declaration order: inheritance, feature registration, type checking.
 */
module Semant {
  import opened Wrappers
  import opened Names
  import opened Ast
  import opened Diagnostics
  import opened ClassTable
  import opened Inheritance
  import opened Features
  import opened ClassCheck

  // ---------------------------------------------------------------------------------
  // The predefined classes

  /** Before registration, the predefined classes are resolved and nothing is registered. */
  lemma BasicResolved()
    ensures Resolved(BasicState()) && RegClosed(BasicState()) && AllFinished(BasicState())
    ensures forall j :: 0 <= j < PrimSlotIdx ==> BasicState().recs[j].visited && BasicState().recs[j].valid
  {
    BasicRegistry();
    BasicLinked();
  }

  lemma BasicRegistry()
    ensures Registry(BasicState())
    ensures forall j :: 0 <= j < PrimSlotIdx ==> BasicState().recs[j].visited && BasicState().recs[j].valid
    ensures forall j :: 0 <= j < |BasicState().recs| ==> !BasicState().recs[j].registered
    ensures !BasicState().recs[PrimSlotIdx].visited
  {
  }

  lemma BasicLinked()
    ensures LinkedAll(BasicState())
  {
    var st := BasicState();
    forall j | 0 <= j < |st.recs| && st.recs[j].visited && st.recs[j].valid
      ensures Linked(st, j)
    {
      if j == 0 {
        assert Linked(st, 0);
      } else if j == 1 {
        assert Linked(st, 1);
      } else if j == 2 {
        assert Linked(st, 2);
      } else if j == 3 {
        assert Linked(st, 3);
      } else {
        assert j == 4;
        assert Linked(st, 4);
      }
    }
  }

  /** `install_basic_classes`: registers the features of Object, IO, Int, Bool and String, in that order. */
  function InstallBasics(): (r: (State, seq<Err>))
    ensures RegStep(BasicState(), r.0)
    ensures forall j :: 0 <= j < PrimSlotIdx ==> r.0.recs[j].registered
    ensures Resolved(r.0) && RegClosed(r.0)
  {
    BasicResolved();
    RegisterBasics(BasicState())
  }

  function RegisterBasics(st: State): (r: (State, seq<Err>))
    requires Resolved(st) && RegClosed(st)
    requires forall j :: 0 <= j < PrimSlotIdx ==> st.recs[j].visited && st.recs[j].valid
    ensures RegStep(st, r.0)
    ensures forall j :: 0 <= j < PrimSlotIdx ==> r.0.recs[j].registered
    ensures Resolved(r.0) && RegClosed(r.0)
  {
    RegisterRange(st, 0, PrimSlotIdx)
  }

  lemma InstallBasicsFinished()
    ensures AllFinished(InstallBasics().0)
  {
    BasicResolved();
    FinishedFrame(BasicState(), InstallBasics().0);
  }

  /** Registration does not change which records are finished. */
  lemma FinishedFrame(st: State, st': State)
    requires Resolved(st) && AllFinished(st) && TableWf(st') && RegStep(st, st')
    ensures AllFinished(st')
  {
    RegStepResolved(st, st');
    forall j | 0 <= j < |st'.recs| && st'.recs[j].visited
      ensures Finished(st', j)
    {
      assert Finished(st, j);
    }
  }

  /**
   * The registration pass: `registerFeatures` on every valid record at positions `k` up
   * to `hi`, in order. Afterwards each of them is registered.
   */
  function RegisterRange(st: State, k: nat, hi: nat): (r: (State, seq<Err>))
    requires Resolved(st) && RegClosed(st) && hi <= |st.recs|
    requires forall j :: k <= j < hi && st.recs[j].valid ==> st.recs[j].visited
    ensures Resolved(r.0) && RegClosed(r.0) && RegStep(st, r.0)
    ensures forall j :: k <= j < hi && st.recs[j].valid ==> r.0.recs[j].registered
    decreases hi - k
  {
    if k >= hi then (st, [])
    else
      var (st1, e1) := RegisterOne(st, k);
      RegStepFlags(st, st1, k + 1, hi);
      var (st2, e2) := RegisterRange(st1, k + 1, hi);
      RegStepTrans(st, st1, st2);
      RegisteredStays(st, st1, st2, k, hi);
      (st2, e1 + e2)
  }

  /** One step of the registration pass: a valid record is registered, an invalid one skipped. */
  function RegisterOne(st: State, k: nat): (r: (State, seq<Err>))
    requires Resolved(st) && RegClosed(st) && k < |st.recs|
    requires st.recs[k].valid ==> st.recs[k].visited
    ensures Resolved(r.0) && RegClosed(r.0) && RegStep(st, r.0)
    ensures st.recs[k].valid ==> r.0.recs[k].registered
  {
    if st.recs[k].valid then RegisterFeatures(st, k) else (st, [])
  }

  lemma RegStepFlags(st: State, st': State, k: nat, hi: nat)
    requires RegStep(st, st') && hi <= |st.recs|
    requires forall j :: k <= j < hi && st.recs[j].valid ==> st.recs[j].visited
    ensures forall j :: k <= j < hi && st'.recs[j].valid ==> st'.recs[j].visited
  {
  }

  lemma RegisteredStays(st: State, st1: State, st2: State, k: nat, hi: nat)
    requires RegStep(st, st1) && RegStep(st1, st2) && k < hi <= |st.recs|
    requires st.recs[k].valid ==> st1.recs[k].registered
    requires forall j :: k + 1 <= j < hi && st1.recs[j].valid ==> st2.recs[j].registered
    ensures forall j :: k <= j < hi && st.recs[j].valid ==> st2.recs[j].registered
  {
  }

  // ---------------------------------------------------------------------------------
  // Entering the program's classes

  /**
   * A duplicate class name keeps the first definition: a program class not named like a
   * predefined class or SELF_TYPE, and new to the table, is entered at its first declaration.
   */
  lemma {:induction false} EnterAllFirstWins(st: State, ds: seq<ClassDecl>, n: Name)
    requires TableWf(st) && n !in st.table && !IsBasicClass(n) && n != SelfType
    ensures var r := EnterAll(st, ds).0;
      && (n in r.table <==> FirstIndex(ds, n) < |ds|)
      && (n in r.table ==> r.table[n] == |st.recs| + FirstIndex(ds, n))
    decreases |ds|
  {
    if |ds| > 0 {
      var (st1, e1) := ClassTable.Enter(st, ds[0]);
      var r := EnterAll(st, ds).0;
      assert r == EnterAll(st1, ds[1..]).0;
      if ds[0].name != n {
        EnterAllFirstWins(st1, ds[1..], n);
      }
    }
  }

  /**
   * `st'` is `st` with one more record, neither visited nor registered, and possibly one
   * more name bound: what entering a class does.
   */
  ghost predicate Extends(st: State, st': State) {
    && TableWf(st) && TableWf(st')
    && |st'.recs| == |st.recs| + 1 && st'.recs[..|st.recs|] == st.recs
    && !st'.recs[|st.recs|].visited && !st'.recs[|st.recs|].registered
    && (forall n :: n in st.table ==> n in st'.table && st'.table[n] == st.table[n])
  }

  lemma EnterExtends(st: State, d: ClassDecl)
    requires TableWf(st)
    ensures Extends(st, ClassTable.Enter(st, d).0)
  {
  }

  /** Entering a class keeps the registry, the finished records and upward-closed registration. */
  lemma EnterKeeps(st: State, d: ClassDecl)
    requires Registry(st) && AllFinished(st) && RegClosed(st)
    ensures var st' := ClassTable.Enter(st, d).0; Registry(st') && AllFinished(st') && RegClosed(st')
  {
    var st' := ClassTable.Enter(st, d).0;
    EnterExtends(st, d);
    ExtendFinished(st, st');
    ExtendClosed(st, st');
    ExtendRegistry(st, st', d);
  }

  lemma ExtendRegistry(st: State, st': State, d: ClassDecl)
    requires Registry(st) && st' == ClassTable.Enter(st, d).0 && Extends(st, st')
    ensures Registry(st')
  {
    forall j | 0 <= j < PrimSlotIdx ensures st'.recs[j].visited {
      assert st'.recs[j] == st'.recs[..|st.recs|][j];
    }
    forall j | FirstUser <= j < |st'.recs| && st'.recs[j].valid ensures st'.recs[j].decl.name != Object {
      if j < |st.recs| {
        assert st'.recs[j] == st'.recs[..|st.recs|][j];
      }
    }
  }

  lemma ExtendFinished(st: State, st': State)
    requires Extends(st, st') && AllFinished(st)
    ensures AllFinished(st')
  {
    forall j | 0 <= j < |st'.recs| && st'.recs[j].visited
      ensures Finished(st', j)
    {
      assert st'.recs[j] == st'.recs[..|st.recs|][j];
      assert Finished(st, j);
      if st.recs[j].valid {
        ExtendKeepsLinked(st, st', j);
      }
    }
  }

  lemma ExtendClosed(st: State, st': State)
    requires Extends(st, st') && RegClosed(st)
    ensures RegClosed(st')
  {
    forall j | 0 <= j < |st'.recs| && st'.recs[j].registered
      ensures st'.recs[j].visited && st'.recs[j].valid
      ensures st'.recs[j].decl.name != Object ==>
                st'.recs[j].decl.parent in st'.table && Rec(st', st'.recs[j].decl.parent).registered
    {
      assert st'.recs[j] == st'.recs[..|st.recs|][j];
      if st.recs[j].decl.name != Object {
        var q := st.table[st.recs[j].decl.parent];
        assert st'.recs[q] == st'.recs[..|st.recs|][q];
      }
    }
  }

  /** Appending a record and binding a new name keeps every link already made. */
  lemma ExtendKeepsLinked(st: State, st': State, j: nat)
    requires Extends(st, st') && j < |st.recs| && Linked(st, j)
    ensures Linked(st', j)
  {
    var c := st.recs[j];
    assert st'.recs[j] == st'.recs[..|st.recs|][j];
    if c.decl.name != Object {
      var q := st.table[c.decl.parent];
      assert st'.recs[q] == st'.recs[..|st.recs|][q];
    }
  }

  lemma {:induction false} EnterAllKeeps(st: State, ds: seq<ClassDecl>)
    requires Registry(st) && AllFinished(st) && RegClosed(st)
    ensures var st' := EnterAll(st, ds).0; Registry(st') && AllFinished(st') && RegClosed(st')
    decreases |ds|
  {
    if |ds| > 0 {
      var st1 := ClassTable.Enter(st, ds[0]).0;
      EnterKeeps(st, ds[0]);
      EnterAllKeeps(st1, ds[1..]);
    }
  }

  /** Two registries with the same table, declarations and validity flags. */
  ghost predicate SameShape(a: State, b: State) {
    && a.table == b.table && |a.recs| == |b.recs|
    && forall j :: 0 <= j < |a.recs| ==> a.recs[j].decl == b.recs[j].decl && a.recs[j].valid == b.recs[j].valid
  }

  /** Entering depends only on the shape of the registry it enters into. */
  lemma {:induction false} EnterAllShape(a: State, b: State, ds: seq<ClassDecl>)
    requires TableWf(a) && TableWf(b) && SameShape(a, b)
    ensures SameShape(EnterAll(a, ds).0, EnterAll(b, ds).0)
    decreases |ds|
  {
    if |ds| > 0 {
      var a1, b1 := ClassTable.Enter(a, ds[0]).0, ClassTable.Enter(b, ds[0]).0;
      assert SameShape(a1, b1) by {
        forall j | 0 <= j < |a1.recs|
          ensures a1.recs[j].decl == b1.recs[j].decl && a1.recs[j].valid == b1.recs[j].valid
        {
          if j < |a.recs| {
            assert a1.recs[j] == a1.recs[..|a.recs|][j] && b1.recs[j] == b1.recs[..|b.recs|][j];
          }
        }
      }
      EnterAllShape(a1, b1, ds[1..]);
    }
  }

  /** Acyclicity depends only on the shape of the registry. */
  lemma ShapeAcyclic(a: State, b: State)
    requires TableWf(a) && TableWf(b) && SameShape(a, b) && Acyclic(a)
    ensures Acyclic(b)
  {
    assert DeclsOf(a) == DeclsOf(b);
    forall i | FirstUser <= i < |b.recs| && b.recs[i].valid
      ensures DepthOf(b, i).Some?
    {
      assert DepthOf(a, i).Some?;
    }
  }

  /** The program's classes entered over the predefined ones. */
  function Entered(ds: seq<ClassDecl>): State {
    EnterAll(InstallBasics().0, ds).0
  }

  /**
   * A well-founded program: every valid program class reaches a predefined class, a missing
   * parent or a rejected parent by following parent links. The analyser has no cycle
   * detection, and a cycle makes the registrar recurse without end.
   */
  ghost predicate WellFounded(ds: seq<ClassDecl>) {
    Acyclic(EnterAll(BasicState(), ds).0)
  }

  lemma WellFoundedEntered(ds: seq<ClassDecl>)
    requires WellFounded(ds)
    ensures Acyclic(Entered(ds))
  {
    EnteredShape(InstallBasics().0, ds);
  }

  lemma EnteredShape(b: State, ds: seq<ClassDecl>)
    requires TableWf(b) && RegStep(BasicState(), b) && Acyclic(EnterAll(BasicState(), ds).0)
    ensures Acyclic(EnterAll(b, ds).0)
  {
    assert SameShape(BasicState(), b);
    EnterAllShape(BasicState(), b, ds);
    ShapeAcyclic(EnterAll(BasicState(), ds).0, EnterAll(b, ds).0);
  }

  // ---------------------------------------------------------------------------------
  // The passes

  /** Resolution leaves registration closed: registered records are visited, so it leaves them alone. */
  lemma RegClosedAfterResolve(st: State, st': State)
    requires TableWf(st) && TableWf(st') && RegClosed(st) && ResolverStep(st, st')
    ensures RegClosed(st')
  {
    forall j | 0 <= j < |st'.recs| && st'.recs[j].registered
      ensures st'.recs[j].visited && st'.recs[j].valid
      ensures st'.recs[j].decl.name != Object ==>
                st'.recs[j].decl.parent in st'.table && Rec(st', st'.recs[j].decl.parent).registered
    {
      assert st.recs[j].registered;
      if st.recs[j].decl.name != Object {
        var p := st.table[st.recs[j].decl.parent];
        assert st.recs[p].registered;
      }
    }
  }

  /** Every valid program class has been resolved and registered. */
  ghost predicate AllValidDone(st: State) {
    forall j :: FirstUser <= j < |st.recs| && st.recs[j].valid ==> st.recs[j].visited && st.recs[j].registered
  }

  /**
   * The three passes over the program's valid classes, each in declaration order:
   * inheritance, feature registration, type checking. Afterwards the registry is resolved
   * and every valid program class has been resolved and registered.
   */
  function Passes(st: State): (r: (State, seq<Err>))
    requires Registry(st) && AllFinished(st) && RegClosed(st) && Acyclic(st)
    ensures Resolved(r.0) && r.0.table == st.table && |r.0.recs| == |st.recs|
    ensures AllValidDone(r.0)
  {
    ResolvePassLinks(st);
    var (st1, e1) := ResolvePass(st, FirstUser);
    RegClosedAfterResolve(st, st1);
    var (st2, e2) := RegisterRange(st1, FirstUser, |st1.recs|);
    var (st3, e3) := CheckPass(st2, FirstUser);
    CheckStepResolved(st2, st3);
    (st3, e1 + e2 + e3)
  }

  /**
   * What the analyser leaves, given the registry `st1` with the program's classes entered
   * and `entry`, the verdict of its entry-point test: with no `Main` class, or a `Main`
   * class that fails the test, that registry itself and the error reported last; otherwise
   * a resolved registry over the same table in which every valid program class has been
   * resolved and registered.
   */
  ghost predicate Outcome(st1: State, r: (State, seq<Err>), entry: bool)
    requires TableWf(st1)
  {
    && TableWf(r.0) && r.0.table == st1.table && |r.0.recs| == |st1.recs|
    && (MainClass !in st1.table ==> r.0 == st1 && r.1 != [] && r.1[|r.1| - 1] == NoMainClass)
    && (MainClass in st1.table && !entry ==>
          r.0 == st1 && r.1 != [] && r.1[|r.1| - 1] == NoMainMethod)
    && (MainClass in st1.table && entry ==> Resolved(r.0) && AllValidDone(r.0))
  }

  /**
   * The analyser. With no `Main` class, or a `Main` class that declares no method of no
   * formals, the error is reported last and no pass runs: the result is the entered
   * registry. Otherwise the passes run. The test as written does not compare the method's
   * name; `AnalyzeProgramByName` is the analyser with the name compared.
   */
  function Analyze(ds: seq<ClassDecl>): (r: (State, seq<Err>))
    requires WellFounded(ds)
    ensures |r.0.recs| == FirstUser + |ds|
    ensures Outcome(Entered(ds), r, HasMainMethod(Entered(ds)))
  {
    var basics := InstallBasics();
    AnalyzeReady(ds);
    var program := AnalyzeProgram(basics.0, ds);
    OutcomeAfter(Entered(ds), program, HasMainMethod(Entered(ds)), basics.1);
    (program.0, basics.1 + program.1)
  }

  /** Errors reported before the program's classes are entered leave the outcome as it is. */
  lemma OutcomeAfter(st1: State, r: (State, seq<Err>), entry: bool, earlier: seq<Err>)
    requires TableWf(st1) && Outcome(st1, r, entry)
    ensures Outcome(st1, (r.0, earlier + r.1), entry)
  {
  }

  /**
   * As written, any method of no formals in the first `Main` class lets the passes run:
   * such a class without a `main` gets every valid program class resolved, the `Main`
   * record among them, where the analyser that compares the name rejects the program
   * before any pass. (`ClassTable.MainIsEntry` exhibits such a class.)
   */
  lemma EntryNameIgnored(st0: State, ds: seq<ClassDecl>)
    requires Resolved(st0) && RegClosed(st0) && AllFinished(st0)
    requires Acyclic(EnterAll(st0, ds).0) && MainClass !in st0.table
    requires FirstIndex(ds, MainClass) < |ds|
    requires DeclaresEntry(ds[FirstIndex(ds, MainClass)]) && !DeclaresMain(ds[FirstIndex(ds, MainClass)])
    ensures var st1 := EnterAll(st0, ds).0; var r := AnalyzeProgram(st0, ds);
      && !AllValidDone(st1) && Resolved(r.0) && AllValidDone(r.0) && r.0 != st1
    ensures var r := AnalyzeProgramByName(st0, ds);
      r.0 == EnterAll(st0, ds).0 && r.1 != [] && r.1[|r.1| - 1] == NoMainMethod
  {
    EntryEntered(st0, ds);
    MainNameRequired(st0, ds);
  }

  /**
   * Entering a program whose first `Main` class declares a method of no formals gives a
   * registry that passes the test as written, with that class's record not yet resolved.
   */
  lemma EntryEntered(b: State, ds: seq<ClassDecl>)
    requires TableWf(b) && |b.recs| >= FirstUser && MainClass !in b.table
    requires FirstIndex(ds, MainClass) < |ds| && DeclaresEntry(ds[FirstIndex(ds, MainClass)])
    ensures var st1 := EnterAll(b, ds).0; HasMainMethod(st1) && !AllValidDone(st1)
  {
    var st1 := EnterAll(b, ds).0;
    var i := |b.recs| + FirstIndex(ds, MainClass);
    EnterAllFirstWins(b, ds, MainClass);
    assert st1.recs[st1.table[MainClass]].decl == ds[FirstIndex(ds, MainClass)];
    assert st1.recs[i].valid && !st1.recs[i].visited;
  }

  /**
   * The entry point looked up by name: a program whose first `Main` class declares no
   * `main` of no formals is rejected before any pass.
   */
  lemma MainNameRequired(st0: State, ds: seq<ClassDecl>)
    requires Resolved(st0) && RegClosed(st0) && AllFinished(st0)
    requires Acyclic(EnterAll(st0, ds).0) && MainClass !in st0.table
    requires FirstIndex(ds, MainClass) < |ds| && !DeclaresMain(ds[FirstIndex(ds, MainClass)])
    ensures var r := AnalyzeProgramByName(st0, ds);
      r.0 == EnterAll(st0, ds).0 && r.1 != [] && r.1[|r.1| - 1] == NoMainMethod
  {
    MainWithoutMain(st0, ds);
    NoMainOutcome(EnterAll(st0, ds).0, AnalyzeProgramByName(st0, ds), false);
  }

  lemma NoMainOutcome(st1: State, r: (State, seq<Err>), entry: bool)
    requires TableWf(st1) && Outcome(st1, r, entry) && MainClass in st1.table && !entry
    ensures r.0 == st1 && r.1 != [] && r.1[|r.1| - 1] == NoMainMethod
  {
  }

  /** Entering the program's classes binds `Main` to its first declaration. */
  lemma MainWithoutMain(b: State, ds: seq<ClassDecl>)
    requires TableWf(b) && MainClass !in b.table
    requires FirstIndex(ds, MainClass) < |ds| && !DeclaresMain(ds[FirstIndex(ds, MainClass)])
    ensures var st1 := EnterAll(b, ds).0; MainClass in st1.table && !HasMainByName(st1)
  {
    EnterAllFirstWins(b, ds, MainClass);
    var st1 := EnterAll(b, ds).0;
    assert st1.recs[st1.table[MainClass]].decl == ds[FirstIndex(ds, MainClass)];
  }

  /** The predefined classes, once installed, are a registry the program's classes can enter. */
  lemma AnalyzeReady(ds: seq<ClassDecl>)
    requires WellFounded(ds)
    ensures var b := InstallBasics().0;
      && Resolved(b) && RegClosed(b) && AllFinished(b) && |b.recs| == FirstUser
      && Acyclic(EnterAll(b, ds).0) && Entered(ds) == EnterAll(b, ds).0
  {
    InstallBasicsFinished();
    WellFoundedEntered(ds);
  }

  /** Entering the program's classes leaves a registry the passes can run on. */
  lemma ReadyForPasses(st0: State, ds: seq<ClassDecl>)
    requires Resolved(st0) && RegClosed(st0) && AllFinished(st0)
    requires Acyclic(EnterAll(st0, ds).0)
    ensures var st1 := EnterAll(st0, ds).0;
      Registry(st1) && RegClosed(st1) && AllFinished(st1) && Acyclic(st1)
  {
    EnterAllKeeps(st0, ds);
  }

  /** The part of the analyser after the predefined classes are installed, as written. */
  function AnalyzeProgram(st0: State, ds: seq<ClassDecl>): (r: (State, seq<Err>))
    requires Resolved(st0) && RegClosed(st0) && AllFinished(st0)
    requires Acyclic(EnterAll(st0, ds).0)
    ensures |r.0.recs| == |st0.recs| + |ds|
    ensures Outcome(EnterAll(st0, ds).0, r, HasMainMethod(EnterAll(st0, ds).0))
  {
    var entered := EnterAll(st0, ds);
    var st1 := entered.0;
    if MainClass !in st1.table then (st1, entered.1 + [NoMainClass])
    else if !HasMainMethod(st1) then (st1, entered.1 + [NoMainMethod])
    else
      ReadyForPasses(st0, ds);
      var passes := Passes(st1);
      (passes.0, entered.1 + passes.1)
  }

  /**
   * The same analyser with the entry point looked up by name: a `Main` class without a
   * `main` of no formals is rejected before any pass, whatever other methods it declares.
   */
  function AnalyzeProgramByName(st0: State, ds: seq<ClassDecl>): (r: (State, seq<Err>))
    requires Resolved(st0) && RegClosed(st0) && AllFinished(st0)
    requires Acyclic(EnterAll(st0, ds).0)
    ensures |r.0.recs| == |st0.recs| + |ds|
    ensures Outcome(EnterAll(st0, ds).0, r, HasMainByName(EnterAll(st0, ds).0))
  {
    var entered := EnterAll(st0, ds);
    var st1 := entered.0;
    if MainClass in st1.table && !HasMainByName(st1) then (st1, entered.1 + [NoMainMethod])
    else if MainClass !in st1.table then AnalyzeProgram(st0, ds)
    else
      MainIsEntry(Rec(st1, MainClass).decl);
      AnalyzeProgram(st0, ds)
  }
}

=== FILE: typecheck.dfy ===
/**
 * The expression rules of the analyser: one case per expression kind, each returning the
 * expression's static type and the errors it reports, in report order.
 *
 * `cur` is the name of the class being checked (the meaning of SELF_TYPE inside it) and
 * `env` the object environment, innermost scope first. Where the analyser dereferences a
 * class record that does not exist, the rule reports `NullDeref` and continues with type
 * `Object`; any run reporting it is one on which the analyser would stop abnormally.
 */
module TypeCheck {
  import opened Wrappers
  import opened Names
  import opened Ast
  import opened Diagnostics
  import opened Scopes
  import opened ClassTable
  import opened Lattice

  /** The object environment: identifier to declared type. */
  type Env = seq<Scope<Name>>

  /** The outcome of a rule: the expression's type and the errors reported while checking it. */
  datatype Typed = Typed(ty: Name, errs: seq<Err>)

  /** The type of a SELF_TYPE-returning dispatch on a receiver of class `recvClass`. */
  function DispatchType(ret: Name, recvClass: Name, cur: Name): (t: Name)
    ensures recvClass != SelfType ==> (t == SelfType <==> ret == SelfType && recvClass == cur)
    ensures ret != SelfType ==> t == ret
    ensures ret == SelfType ==> t == SelfType || t == recvClass
  {
    if ret != SelfType then ret
    else if recvClass == cur then SelfType
    else recvClass
  }

  /** `checkAscent` as a guard: its error when the ascent fails, `NullDeref` when it crashes. */
  function AscentErrs(st: State, l: Name, r: Name, onFail: Err): (errs: seq<Err>)
    requires TableWf(st)
    ensures errs == [] <==> Conforms(st, l, r)
    ensures r !in st.table ==> errs == [NullDeref]
    ensures r in st.table && !Conforms(st, l, r) ==> errs == [onFail]
  {
    match Ascent(st, l, r)
    case None => [NullDeref]
    case Some(ok) => if ok then [] else [onFail]
  }

  /** The rule of every expression. */
  function Check(st: State, cur: Name, env: Env, e: Expr): (r: Typed)
    requires TableWf(st)
    decreases e, 0
  {
    match e
    case IntConst(_) => Typed(Int, [])
    case BoolConst(_) => Typed(Bool, [])
    case StrConst(_) => Typed(Str, [])
    case New(t) =>
      if t == SelfType then Typed(SelfType, [])
      else if t !in st.table then Typed(Object, [UnknownNewType])
      else Typed(t, [])
    case IsVoid(x) => Typed(Bool, Check(st, cur, env, x).errs)
    case Ref(n) =>
      if n == SelfName then Typed(SelfType, [])
      else (match Lookup(env, n)
        case None => Typed(Object, [UnboundName])
        case Some(t) => Typed(t, []))
    case Assign(n, rhs) =>
      if n == SelfName then Typed(Object, [AssignSelf])
      else (match Lookup(env, n)
        case None => Typed(Object, [UnboundName])
        case Some(declared) =>
          var R := Check(st, cur, env, rhs);
          var errs := AscentErrs(st, declared, Resolve(R.ty, cur), AssignMismatch);
          Typed(if errs == [] then R.ty else Object, R.errs + errs))
    case StaticDispatch(recv, tn, m, actuals) =>
      var R := Check(st, cur, env, recv);
      var t := Resolve(R.ty, cur);
      if t !in st.table then Typed(Object, R.errs + [NullDeref])
      else if tn !in Rec(st, t).inh then Typed(Object, R.errs + [NoSuchAncestor])
      else if tn !in st.table then Typed(Object, R.errs + [NullDeref])
      else (match FindMethod(st, st.table[tn], m)
        case None => Typed(Object, R.errs + [UndefinedMethod, NullDeref])
        case Some(sig) =>
          var M := MatchParam(st, cur, env, sig, actuals);
          Typed(DispatchType(M.ty, t, cur), R.errs + M.errs))
    case Dispatch(recv, m, actuals) =>
      var R := Check(st, cur, env, recv);
      var t := Resolve(R.ty, cur);
      if t !in st.table then Typed(Object, R.errs + [NullDeref])
      else (match FindMethod(st, st.table[t], m)
        case None => Typed(Object, R.errs + [UndefinedMethod])
        case Some(sig) =>
          var M := MatchParam(st, cur, env, sig, actuals);
          Typed(DispatchType(M.ty, t, cur), R.errs + M.errs))
    case Cond(p, a, b) =>
      var P := Check(st, cur, env, p);
      var A := Check(st, cur, env, a);
      var B := Check(st, cur, env, b);
      var errs := P.errs + PredErrs(P.ty, cur) + A.errs + B.errs;
      (match Join(st, Resolve(A.ty, cur), Resolve(B.ty, cur))
        case None => Typed(Object, errs + [NullDeref])
        case Some(j) => Typed(j, errs))
    case Loop(p, body) =>
      var P := Check(st, cur, env, p);
      Typed(Object, P.errs + PredErrs(P.ty, cur) + Check(st, cur, env, body).errs)
    case TypCase(x, cases) =>
      var X := Check(st, cur, env, x);
      var C := CheckCases(st, cur, Scopes.Enter(env), cases, NoType, {});
      Typed(C.ty, X.errs + C.errs)
    case Block(head, more) =>
      CheckBlock(st, cur, env, more, Check(st, cur, env, head))
    case Let(id, td, init, body) =>
      var inner := Scopes.Enter(env);
      if id == SelfName then Typed(Object, [LetSelf])
      else if td != SelfType && td !in st.table then Typed(Object, [UnknownLetType])
      else
        var I := CheckInit(st, cur, inner, init);
        var it := Resolve(if I.ty == NoType then td else I.ty, cur);
        var errs := AscentErrs(st, Resolve(td, cur), it, LetMismatch);
        if errs == [NullDeref] then Typed(Object, I.errs + errs)
        else
          var B := Check(st, cur, if errs == [] then Add(inner, id, td) else inner, body);
          Typed(B.ty, I.errs + errs + B.errs)
    case Arith(op, a, b) =>
      var A := Check(st, cur, env, a);
      if A.ty != Int then Typed(Object, A.errs + [ArithLeft])
      else
        var B := Check(st, cur, env, b);
        if B.ty != Int then Typed(Object, A.errs + B.errs + [ArithRight])
        else Typed(ArithType(op), A.errs + B.errs)
    case Neg(x) =>
      var X := Check(st, cur, env, x);
      if X.ty != Int then Typed(Object, X.errs + [NegNotInt]) else Typed(Int, X.errs)
    case Not(x) =>
      var X := Check(st, cur, env, x);
      if X.ty != Bool then Typed(Object, X.errs + [NotNotBool]) else Typed(Bool, X.errs)
    case Eq(a, b) =>
      var A := Check(st, cur, env, a);
      var B := Check(st, cur, env, b);
      Typed(Bool, A.errs + B.errs + (if EqClash(A.ty, B.ty) then [EqMismatch] else []))
  }

  /** An optional initialiser; the empty one has type `_no_type`. */
  function CheckInit(st: State, cur: Name, env: Env, init: Init): (r: Typed)
    requires TableWf(st)
    decreases init, 1
  {
    match init
    case NoExpr => Typed(NoType, [])
    case Given(x) => Check(st, cur, env, x)
  }

  /** The rest of a block after an expression of outcome `last`; the block has the last type. */
  function CheckBlock(st: State, cur: Name, env: Env, es: Exprs, last: Typed): (r: Typed)
    requires TableWf(st)
    decreases es, 1
  {
    match es
    case ENil => last
    case ECons(h, t) =>
      var H := Check(st, cur, env, h);
      CheckBlock(st, cur, env, t, Typed(H.ty, last.errs + H.errs))
  }

  /**
   * `matchParam`: a call with the wrong number of arguments is typed `Object` without
   * checking them; otherwise every argument is checked and must conform to its formal,
   * and the call has the declared return type only if all of them do.
   */
  function MatchParam(st: State, cur: Name, env: Env, sig: Sig, actuals: Exprs): (r: Typed)
    requires TableWf(st)
    decreases actuals, 2
  {
    if |sig.formals| != Length(actuals) then Typed(Object, [ArityMismatch])
    else
      var (ok, errs) := CheckArgs(st, cur, env, sig.formals, actuals);
      Typed(if ok then sig.returnType else Object, errs)
  }

  /** Checks the arguments against the formals in order; reports every one that does not conform. */
  function CheckArgs(st: State, cur: Name, env: Env, formals: seq<Formal>, actuals: Exprs): (r: (bool, seq<Err>))
    requires TableWf(st) && |formals| == Length(actuals)
    decreases actuals, 1
  {
    match actuals
    case ENil => (true, [])
    case ECons(a, rest) =>
      var A := Check(st, cur, env, a);
      var errs := AscentErrs(st, formals[0].typeDecl, Resolve(A.ty, cur), ArgMismatch);
      var (ok, more) := CheckArgs(st, cur, env, formals[1..], rest);
      (ok && errs == [], A.errs + errs + more)
  }

  /**
   * One branch of a case. The branch's identifier is bound in the case's shared scope (the
   * innermost one of `env`), which the following branches see; the new environment is returned.
   */
  function CheckBranch(st: State, cur: Name, env: Env, b: Branch): (r: (Env, Typed))
    requires TableWf(st) && |env| > 0
    ensures |r.0| == |env|
    decreases b, 1
  {
    if b.typeDecl !in st.table then (env, Typed(Object, [UnknownBranchType]))
    else if b.typeDecl == SelfType then (env, Typed(Object, [SelfTypeBranch]))
    else
      var env' := Add(env, b.name, b.typeDecl);
      var B := Check(st, cur, env', b.body);
      var errs := AscentErrs(st, b.typeDecl, Resolve(B.ty, cur), BranchMismatch);
      (env', Typed(if errs == [] then B.ty else Object, B.errs + errs))
  }

  /**
   * The branches of a case in order. `curr` is the type so far (`_no_type` before the first
   * branch) and `seen` the declared types so far. The first branch's type is taken as it
   * is; each later one is joined in, with a SELF_TYPE branch joined as the current class.
   */
  function CheckCases(st: State, cur: Name, env: Env, cs: Cases, curr: Name, seen: set<Name>): (r: Typed)
    requires TableWf(st) && |env| > 0
    decreases cs, 2
  {
    match cs
    case CNil => Typed(curr, [])
    case CCons(b, rest) =>
      var (env', B) := CheckBranch(st, cur, env, b);
      var dup := if b.typeDecl in seen then [DuplicateBranch] else [];
      var J := CaseStep(st, cur, curr, B.ty);
      var R := CheckCases(st, cur, env', rest, J.ty, seen + {b.typeDecl});
      Typed(R.ty, B.errs + dup + J.errs + R.errs)
  }

  /** Joins one branch type into the case's type so far. */
  function CaseStep(st: State, cur: Name, curr: Name, bt: Name): (r: Typed)
    requires TableWf(st)
  {
    if curr == NoType then Typed(bt, [])
    else
      match Join(st, Resolve(bt, cur), curr)
      case None => Typed(Object, [NullDeref])
      case Some(j) => Typed(j, [])
  }

  /** The predicate of a conditional or loop must be `Bool`, SELF_TYPE read as the current class. */
  function PredErrs(t: Name, cur: Name): (errs: seq<Err>)
    ensures errs == [] <==> Resolve(t, cur) == Bool
    ensures errs != [] ==> errs == [PredNotBool]
  {
    if Resolve(t, cur) != Bool then [PredNotBool] else []
  }

  /** The result type of an arithmetic operator: `Int`, or `Bool` for the comparisons. */
  function ArithType(op: ArithOp): (t: Name)
    ensures t == Int || t == Bool
    ensures t == Bool <==> op == Lt || op == Leq
  {
    if op == Lt || op == Leq then Bool else Int
  }

  /** Equality rejects two different types when either is `Int`, `Bool` or `String`. */
  predicate EqClash(a: Name, b: Name) {
    (IsFinalClass(a) || IsFinalClass(b)) && a != b
  }
}

=== FILE: wrappers.dfy ===
/** A small failure-compatible option type shared by every module of the model. */
module Wrappers {

  /** The conventional Some/None datatype, standing in for a nullable pointer. */
  datatype Option<+T> = None | Some(value: T) {

    /** Returns the value held by Some, or the given default for None. */
    function GetOr(default: T): T {
      match this
      case Some(v) => v
      case None => default
    }
  }
}
